=== FILE: README.md ===
# Intelligent TTS system: the bookkeeping around speech synthesis, in Dafny

This project models the deterministic core of a text-to-speech service and its command-line tool, and proves properties of the model. The core takes text to chunks and chunks to per-chunk audio buffers. It turns buffers into captions and audio into byte streams.

The neural back-ends, the forced aligner process, the file system, the network, the clock, hashing and FastAPI are outside the model. Each of them is a parameter: the result it would produce, a function value, or an explicit record of what a probe found.

Modules, one per component of the source:

| module | file | component |
|---|---|---|
| `Common`, `Text`, `Decimal` | common.dfy, text.dfy, decimal.dfy | options and results, Python string primitives (`strip`, `lower`, `split`, `join`), zero-padded integer formatting |
| `Streaming` | streaming.dfy | the WAV and raw PCM16 stream framers |
| `ChunkText` | chunk_text.dfy | greedy packing of sentences into chunks |
| `CacheTable`, `ApiCache`, `ModelCache` | cache_table.dfy, api_cache.dfy, model_cache.dfy | the two in-memory result caches (insertion-ordered tables with oldest-first eviction) |
| `Synthesize`, `CrossStream` | synthesize.dfy, cross_stream.dfy | Kokoro disk-cache partition and reassembly, the CosyVoice2 per-chunk loop, the cross-lingual byte re-framer, the speed clamp, `concat_audio` |
| `Srt`, `Vtt`, `VttCue` | srt.dfy, vtt.dfy, vtt_cue.dfy | SubRip timestamps and files, and the SubRip-to-WebVTT rewrite |
| `Align` | align.dfy | the forced-alignment driver: corpus names, the aligner command, word bounds, cue offsets and the SubRip text |
| `CliFlow`, `ApiFlow` | cli_flow.dfy, api_flow.dfy | the caption step of the command-line tool and of the `/synthesize` endpoint |
| `EnginePolicy` | engine_policy.dfy | environment switches, the CosyVoice2 device policy, the engine recommendation |
| `ExtractText`, `Voices` | extract_text.dfy, voices.dfy | input text extraction and normalisation, and the Kokoro voice list |

Modelling conventions:
- Python dicts are insertion-ordered sequences of pairs where order matters (`min` over `items()` picks the first minimum), and maps where it does not.
- Floats are exact reals. `round` is round-half-to-even, `int()` truncates toward zero, and `//` and `%` are floor division as in Python.
- Byte strings are `seq<byte>`. Text is `seq<char>`.

## Model

| member | source | states |
|---|---|---|
| Streaming.WavHeader | app/utils/streaming.py:15-25 | a header exists exactly when the rate and twice the rate fit 32 bits (`struct.pack` raises otherwise); it is 44 bytes: RIFF, 0xFFFFFFFF, WAVE, "fmt " with size 16, PCM, mono, the rate, twice the rate as byte rate, block alignment 2, 16 bits, then "data" and 0xFFFFFFFF |
| Streaming.WavHeaderDeclaresRate | app/utils/streaming.py:15-25 | a header reader recovers exactly the sample rate the header was built for |
| Streaming.WavHeaderInjective | app/utils/streaming.py:15-25 | different sample rates give different headers |
| Streaming.LE32RoundTrip | app/utils/streaming.py:21-24 | `struct.pack("<I")` reads back as the packed value |
| Streaming.WavSilence | app/utils/streaming.py:37-40 | the silence block is sent only when ms > 0 and `int(sr*2*ms/1000)` is non-zero, and is that many zero bytes |
| Streaming.WavSilenceCanBeOdd | app/utils/streaming.py:38 | the WAV silence is not rounded to whole samples: 10 ms at 22050 Hz is 441 bytes |
| Streaming.PulledCount | app/utils/streaming.py:45-52 | the prebuffer loop pulls at most `max(0, prebuffer)` items, fewer only when the input runs out |
| Streaming.NonEmpty | app/utils/streaming.py:58-61 | skipping empty items keeps the concatenation and leaves only non-empty blocks |
| Streaming.WavData | app/utils/streaming.py:42-61 | the data blocks are never empty and concatenate to the input unchanged |
| Streaming.WavStream | app/utils/streaming.py:28-61 | the stream exists exactly for a packable rate, and then starts with the header block |
| Streaming.WavStreamFraming | app/utils/streaming.py:28-61 | the stream fails exactly for a rate the header cannot hold; otherwise it is the header, then the optional silence, then non-empty data blocks whose concatenation is the input |
| Streaming.NonEmptyIndicesSpec | app/utils/streaming.py:58-61 | the listed positions are ascending, hold non-empty items and include every non-empty item from the given position on |
| Streaming.NonEmptyAt | app/utils/streaming.py:58-61 | skipping empty items leaves exactly the items at the non-empty positions, in order |
| Streaming.WavPrebufferBlock | app/utils/streaming.py:42-61 | the first data block is everything the first `max(0, prebuffer)` pulls delivered, sent only when non-empty; after it come exactly the later non-empty items, one block each, in input order |
| Streaming.FlushEven | app/utils/streaming.py:96-103 | `flush_even` writes an even-length head and keeps at most one byte pending; the two parts make up the pending bytes |
| Streaming.PadEven | app/utils/streaming.py:115-119 | the final flush appends one zero byte exactly when the pending length is odd |
| Streaming.PcmPrimer | app/utils/streaming.py:78-83 | the primer is at most one block, of even length |
| Streaming.PcmPrimerShape | app/utils/streaming.py:78-83 | the primer is sent only for ms > 0, as `int(sr*2*ms/1000)` zero bytes rounded up to even, and is left out when that is zero |
| Streaming.PcmPrimerNegativeRate | app/utils/streaming.py:78-83 | with a negative rate the byte count is negative and the primer is an empty block |
| Streaming.PcmFoldBlocks | app/utils/streaming.py:109-119 | every block of the main loop and the final flush is non-empty and of even length |
| Streaming.PcmFoldConcat | app/utils/streaming.py:109-119 | the loop's output concatenates to the pending bytes plus the rest of the input, padded once at the end |
| Streaming.PcmBodyConcat | app/utils/streaming.py:85-119 | the blocks after the primer concatenate to the whole input, padded to even length |
| Streaming.PcmBodyPadding | app/utils/streaming.py:115-119 | one zero byte is added exactly when the total input length is odd |
| Streaming.PcmBodyBlocks | app/utils/streaming.py:85-119 | every block after the primer is a non-empty whole number of 16-bit samples, whatever the input block lengths |
| Streaming.PcmStream | app/utils/streaming.py:65-119 | the stream starts with the primer blocks, and the blocks after them concatenate to the whole input padded to even length |
| Streaming.PcmStreamBlocks | app/utils/streaming.py:65-119 | every block of the raw stream, primer included, is non-empty and even |
| ChunkText.CleanSentences | app/utils/chunk_text.py:11 | the kept sentences are non-empty and stripped; one sentence gives its stripped form when that is non-empty, else nothing |
| ChunkText.CleanSentencesAppend | app/utils/chunk_text.py:11 | cleaning a concatenation cleans each part and keeps their order, so the result is the stripped non-blank sentences in order |
| ChunkText.CleanSentencesEmpty | app/utils/chunk_text.py:11 | nothing survives exactly when every tokenized sentence is blank |
| ChunkText.PackRunsProperties | app/utils/chunk_text.py:13-24 | the runs partition the sentences in order; each run is non-empty; a run of two or more sentences fits in `max_chars`; a new run starts only when the next sentence would not fit |
| ChunkText.PackRunsCount | app/utils/chunk_text.py:13-24 | there are between one run and one run per sentence, and none for no sentences |
| ChunkText.LongSentenceAlone | app/utils/chunk_text.py:17-21 | a sentence longer than `max_chars` is always a chunk of its own |
| ChunkText.BufEmptyIffNoRun | app/utils/chunk_text.py:15 | the test `if not buf` is the same as "no open chunk", because kept sentences are non-empty |
| ChunkText.ChunksNonEmpty | app/utils/chunk_text.py:22-24 | every chunk of non-empty sentences is non-empty |
| ChunkText.SplitSentences | app/utils/chunk_text.py:4-24 | the loop over the string buffer returns the chunks of the run packing, each the run's sentences joined by single spaces |
| CacheTable.Put | app/api.py:75-78 | assigning a key overwrites its entry in place when present and appends it otherwise; no other entry changes |
| CacheTable.Delete | app/api.py:73 | deleting removes exactly that key and keeps the order of the rest |
| CacheTable.OldestIndex | app/api.py:71-73 | the evicted entry has the smallest timestamp, and no earlier entry has one as small |
| CacheTable.Insert | app/api.py:67-79 | a full table first loses its oldest entry, even when the key is already present, then the key is stored |
| CacheTable.Filter | app/api.py:98-107 | the sweep keeps exactly the entries satisfying the test, in order |
| CacheTable.FilterLookup | app/api.py:98-107 | after filtering, a key is found exactly when its entry passed the test |
| CacheTable.FilterAppend | app/api.py:98-107 | filtering a concatenation filters each part, so the kept entries keep their order |
| ApiCache.TextKey | app/api.py:62 | the text enters the key through its first 500 characters |
| ApiCache.CacheKey | app/api.py:59-64 | the key is the digest of the key material built from the first 500 characters and the other parameters |
| ApiCache.KeyMaterialText | app/api.py:59-64 | with the other parameters fixed, two texts give the same key material exactly when their first 500 characters agree |
| ApiCache.CacheKeyIgnoresTail | app/api.py:59-64 | long texts that share their first 500 characters share a cache entry, whatever the digest |
| ApiCache.CacheResult | app/api.py:67-79 | storing keeps at most 50 entries and stamps the stored entry with the current time |
| ApiCache.GetCachedResult | app/api.py:82-95 | a fresh entry is returned and re-stamped; a stale one is deleted and reported as a miss; a missing key changes nothing |
| ApiCache.ClearOldCache | app/api.py:98-107 | every kept entry comes from the cache and is at most an hour old, and every such entry is kept |
| ApiCache.ClearOldCacheAppend | app/api.py:98-107 | the sweep goes entry by entry: sweeping a concatenation sweeps each part, in order |
| ApiCache.ClearOldCacheOne | app/api.py:98-107 | a single entry is dropped exactly when it is more than an hour old |
| ApiCache.CacheThenGet | app/api.py:67-95 | a stored result is returned within the hour and is gone after a lookup once the hour has passed |
| ApiCache.CacheResultEvictsOldest | app/api.py:67-79 | storing into a full cache removes the first least recently stamped entry and keeps every other one; re-storing a present key still evicts |
| ApiCache.ClearKeepsHits | app/api.py:82-107 | the sweep never removes an entry a lookup would accept, and removes every entry older than an hour |
| ApiCache.TtlBoundary | app/api.py:88-104 | an entry exactly one hour old survives the sweep but is already a miss for a lookup |
| ModelCache.CacheKey | app/services/models.py:27-30 | the key is the digest of engine, voice, speed and the first 200 characters |
| ModelCache.KeyMaterialText | app/services/models.py:27-30 | texts collide exactly when their first 200 characters agree |
| ModelCache.CacheSynthesis | app/services/models.py:33-46 | storing keeps at most 100 entries, evicting the oldest first |
| ModelCache.GetCachedSynthesis | app/services/models.py:49-56 | a hit returns the whole record and re-stamps it; entries never expire |
| ModelCache.CacheThenGetAnyTime | app/services/models.py:33-56 | a cached record is returned however much later it is asked for |
| ModelCache.HitProtectsFromEviction | app/services/models.py:33-56 | a hit makes the entry the newest, so it is not the next evicted while any other is older |
| Synthesize.HashKey | app/utils/synthesize.py:83-86 | the cache name is the first 16 hex digits of the digest of the five fields |
| Synthesize.HashMaterialInjective | app/utils/synthesize.py:83-86 | when voice, language and speed hold no `\|`, the hashed text determines all five fields |
| Synthesize.MissesUpToProperties | app/utils/synthesize.py:276-287 | the miss queue holds exactly the indices of chunks without a cache file, ascending |
| Synthesize.KokoroPartition | app/utils/synthesize.py:276-287 | a hit is read back at its own index; a miss leaves a placeholder and is queued with its text |
| Synthesize.KokoroReassemble | app/utils/synthesize.py:289-301 | the k-th batch result is placed unchanged at the k-th queued chunk's index, and its clipped 16-bit rendering is what that chunk's cache file reads back; queued chunks past the batch keep their placeholder; `zip` stops at the shortest input |
| Synthesize.KokoroChunks | app/utils/synthesize.py:242-309 | with a cache, one buffer per chunk with hits in place and the misses filled from one batch, whose results the cache then holds in 16-bit form; without one, the buffers the back-end yields for the newline-joined text and an untouched cache |
| Synthesize.KokoroCached | app/utils/synthesize.py:271-301 | hits are read back in place, each miss gets the batch result at its queue position or stays empty past the batch, and the cache gains every served miss in 16-bit form |
| Synthesize.SpeedRate | app/utils/synthesize.py:552-554 | the intermediate rate lies in [8000, 96000] and is `round(24000*speed)` inside that range |
| Synthesize.SpeedRateMonotone | app/utils/synthesize.py:552-554 | a faster speed never picks a lower intermediate rate |
| Synthesize.SpeedRateExamples | app/utils/synthesize.py:552-556 | speeds 1, 1.005 and 0 leave the audio alone; 1.02 and 0.98 change it; half speed goes through 12 kHz; extremes hit the clamp |
| Synthesize.CosyAudio | app/utils/synthesize.py:515-545 | no audio for a raised exception, a `None` result or an empty generator; a generator counts as its last item; plain samples at 24 kHz; a dict gives what its first audio key holds; a pair gives its array at its rate, or nothing when the array is `None` |
| Synthesize.DictAudio | app/utils/synthesize.py:527-534 | no audio exactly when no audio key present ahead of all others holds audio; otherwise that key's samples at the dict's `sr`, or 24 kHz without one |
| Synthesize.CosyChunk | app/utils/synthesize.py:542-568 | a chunk without audio becomes 12000 zero samples |
| Synthesize.CosyChunks | app/utils/synthesize.py:499-570 | one buffer per chunk, in order, a failing chunk becoming half a second of silence |
| Synthesize.CosyArrayAtTargetRate | app/utils/synthesize.py:538-558 | plain 24 kHz samples come back unchanged unless a speed change applies |
| Synthesize.CosyGeneratorLast | app/utils/synthesize.py:517-524 | a generator contributes exactly what its last item would, and an empty one is `None` |
| Synthesize.ConcatAudio | app/utils/synthesize.py:573-577 | the result is the buffers back to back; an empty list gives an empty buffer |
| Synthesize.ConcatAudioAppend | app/utils/synthesize.py:573-577 | concatenation distributes over splitting the list |
| Synthesize.ConcatAudioPlacement | app/utils/synthesize.py:573-577 | buffer i sits right after the buffers before it |
| CrossStream.Frames | app/utils/synthesize.py:417-423 | the pieces concatenate to the input, all but the last have exactly n items, none is empty |
| CrossStream.FrameIsThirtyMilliseconds | app/utils/synthesize.py:383-384 | a frame is 727 samples at 24 kHz, about 30 ms, and 1454 bytes |
| Synthesize.SampleValue | app/utils/synthesize.py:172-173 | a converted sample lies in [-32767, 32767] |
| Synthesize.Quantise | app/utils/synthesize.py:89-103 | a buffer written to a cache file and read back has the same length, samples in [-1, 1], each within 1/32767 of the clipped input and no farther from zero |
| Synthesize.QuantiseIdempotent | app/utils/synthesize.py:89-103 | audio read back from a cache file survives another write and read unchanged |
| Synthesize.QuantiseExamples | app/utils/synthesize.py:89-103 | 1.5 and -2.0 read back as 1.0 and -1.0, and 0.3 reads back as 9830/32767 |
| CrossStream.Pcm16 | app/utils/synthesize.py:172-173 | two bytes per sample, sample i at bytes 2i and 2i+1 |
| CrossStream.Pcm16Append | app/utils/synthesize.py:172-173 | converting a concatenation is concatenating the conversions |
| CrossStream.SampleBytesRoundTrip | app/utils/synthesize.py:172-173 | every sample reads back as the clipped, scaled and truncated value |
| CrossStream.Pcm16Frames | app/utils/synthesize.py:445-450 | converting frame by frame gives the conversion of the whole buffer |
| CrossStream.ByteBlocksShape | app/utils/synthesize.py:410-424 | a byte segment comes out as even pieces of at most 1454 bytes that concatenate to it plus one zero when its length is odd |
| CrossStream.SampleBlocksShape | app/utils/synthesize.py:445-450 | samples come out in order, in frames of at most 727 samples, two bytes each |
| CrossStream.IterBytes | app/utils/synthesize.py:386-450 | every block of the stream is non-empty, even and at most 1454 bytes |
| CrossStream.IterBytesAppend | app/utils/synthesize.py:386-450 | segments are handled independently: the stream of a concatenation is the concatenation of the streams |
| CrossStream.EmptySegmentsSkipped | app/utils/synthesize.py:413-432 | an empty segment, a dict without audio and an empty array yield nothing |
| Srt.Fields | app/utils/srt.py:4-9 | the hour, minute, second and millisecond fields recombine to the count, each below its bound |
| Srt.Fmt | app/utils/srt.py:4-10 | a non-negative count renders with the colons and the comma at their fixed places from the end, after an hour field of at least two digits |
| Srt.FmtRoundTrip | app/utils/srt.py:4-10 | a non-negative timestamp renders as the zero-padded fields, digit strings whose value is the timestamp |
| Srt.FmtParses | app/utils/srt.py:4-10 | parsing the rendering of a non-negative timestamp gives it back |
| Srt.FmtInjective | app/utils/srt.py:4-10 | distinct non-negative timestamps render differently |
| Srt.FmtNegative | app/utils/srt.py:4-10 | a negative count renders with a negative hour field, as floor division makes it |
| Srt.FmtDivmodAgrees | app/utils/align_subtitles.py:21-27 | the divmod chain and the srt.py formatter agree on every millisecond count |
| Srt.FmtSeconds | app/utils/align_subtitles.py:21-27 | a time in seconds renders as the SubRip timestamp of its millisecond count rounded half to even |
| Srt.FmtSecondsRoundTrip | app/utils/align_subtitles.py:21-27 | a non-negative time in seconds renders as its nearest millisecond, ties to even |
| Srt.SrtFromDurations | app/utils/srt.py:13-24 | the text is the cue lines of the paired sentences and durations joined by newlines |
| Srt.SrtLines | app/utils/srt.py:13-24 | n cues give exactly 4n lines |
| Srt.SrtLinesAt | app/utils/srt.py:13-24 | cue i occupies lines 4i to 4i+3: index, timing, text, empty |
| Srt.CueTiming | app/utils/srt.py:15-23 | the first cue starts at zero and each cue ends where the next starts |
| Srt.CuesContiguous | app/utils/srt.py:15-23 | the timing line of a cue ends with the timestamp the next cue's timing line starts with |
| Srt.SrtTextIsBlocks | app/utils/srt.py:13-24 | the file is the written cue blocks minus the final newline |
| Srt.SrtEndsWithLastText | app/utils/srt.py:13-24 | a non-empty file ends with the last cue's text and one newline |
| Vtt.IndexLineAt | app/utils/make_captions.py:10 | a match of the index pattern starts at a line start, covers whitespace, digits and whitespace, and ends at a line end |
| Vtt.DropWithoutDigits | app/utils/make_captions.py:10 | text without digits is left unchanged by the index-line removal |
| Vtt.CommaToDotChars | app/utils/make_captions.py:12 | the timestamp rewrite changes nothing but commas, into full stops |
| Vtt.CommaToDotExact | app/utils/make_captions.py:12 | only a timestamp's comma changes, and every timestamp not overlapping an earlier one has its comma changed |
| Vtt.CrlfLines | app/utils/make_captions.py:14 | lines joined with CRLF come out joined with LF |
| Vtt.SrtToVtt | app/utils/make_captions.py:10-18 | the output starts with the `WEBVTT` header and ends with a newline |
| Vtt.SrtToVttShape | app/utils/make_captions.py:10-18 | the output is the header alone, or the header, an empty line and the cue blocks joined by single newlines, with one final newline |
| Vtt.SrtToVttFraming | app/utils/make_captions.py:15-18 | the character before the final newline is not whitespace: the output ends with exactly one newline |
| Vtt.SrtToVttEmpty | app/utils/make_captions.py:10-18 | empty captions give the bare header |
| Vtt.SrtFileToVtt | app/utils/make_captions.py:4-18 | the converted file starts with the header and ends with a newline; text without carriage returns converts as written |
| Vtt.SrtFileReadTwice | app/utils/make_captions.py:6-7 | reading the file in text mode leaves no carriage return, so a second read changes nothing |
| Vtt.SrtFileLoneCr | app/utils/make_captions.py:6-7 | a lone carriage return in the written text reaches the converter as a line break |
| Vtt.SrtToVttSeparatedShape | app/utils/make_captions.py:10-18 | the corrected converter writes the header, an empty line and the body with its blank lines between cues kept |
| Vtt.SeparatedAgrees | app/utils/make_captions.py:10-18 | for a single cue block the corrected and as-written converters agree |
| VttCue.SingleCue | app/utils/make_captions.py:4-18 | a one-cue SubRip file becomes the header, an empty line, the timing line with full stops and the text: the index line is gone |
| VttCue.TwoDropParts | app/utils/make_captions.py:10 | of two cues the index lines go, the second together with the blank line before it |
| VttCue.TwoCues | app/utils/make_captions.py:10-18 | two SubRip cues come out as one WebVTT block: the second timing line follows the first text after a single newline |
| VttCue.TwoCuesSeparated | app/utils/make_captions.py:10-18 | with the corrected joining, two cues come out as two blocks separated by an empty line |
| VttCue.SrtToVttExample | app/utils/make_captions.py:4-18 | the first cue of a file as the SubRip writers emit it, converted |
| Align.UttNameInjective | app/utils/align_subtitles.py:80-82 | distinct utterance numbers give distinct corpus file names |
| Align.UttNameWidth | app/utils/align_subtitles.py:80-82 | numbers below 10000 give names of a fixed width |
| Align.Durations | app/utils/align_subtitles.py:83 | each duration is the sample count over the rate, and is non-negative |
| Align.KeepFiles | app/utils/align_subtitles.py:30-36 | the kept paths are exactly the listed paths that are files, none when no path is a file |
| Align.KeepFilesFirst | app/utils/align_subtitles.py:30-36 | the first kept path is the first listed path that is a file |
| Align.MfaPrefix | app/utils/align_subtitles.py:30-56 | an unset `CONDA_EXE` raises TypeError; otherwise the first of `CONDA_EXE` and the three fixed paths that is a file gives `conda run -n env mfa`; when none is, the MFA executable alone, and with no executable MFA is not found |
| Align.MfaPrefixSkippingUnset | app/utils/align_subtitles.py:30-56 | the intended launcher never raises TypeError, falls back on the MFA executable when no conda executable is a file, and agrees with the as-written one whenever `CONDA_EXE` is set |
| Align.CondaUnsetRaises | app/utils/align_subtitles.py:30-45 | with `CONDA_EXE` unset and `MFA_EXE` set, the as-written launcher raises TypeError and the intended one calls the executable |
| Align.MfaCommand | app/utils/align_subtitles.py:85-96 | the command is the prefix followed by eight arguments, nine with `--single_speaker` |
| Align.MfaCommandShape | app/utils/align_subtitles.py:85-96 | the command is the prefix, `align`, corpus, dictionary, acoustic model, output folder, `--clean`, `--num_jobs` with `max(1, jobs)`, and `--single_speaker` exactly when asked |
| Align.IsWordStripped | app/utils/align_subtitles.py:118 | an interval counts as a word exactly when its stripped mark is non-empty |
| Align.FirstWord | app/utils/align_subtitles.py:118-120 | the first word interval's index, or none when no interval is a word |
| Align.LastWord | app/utils/align_subtitles.py:118-120 | the last word interval's index, or none when no interval is a word |
| Align.Bounds | app/utils/align_subtitles.py:115-121 | a tier without words gives its own span; otherwise the bounds are the start of one word interval and the end of the same or a later one |
| Align.BoundsWords | app/utils/align_subtitles.py:115-121 | the bounds are the first word's start and the last word's end, or the tier's span when there are no words |
| Align.StripEach | app/utils/align_subtitles.py:126 | each cue text is the stripped chunk |
| Align.AlignEntries | app/utils/align_subtitles.py:123-127 | entry i is the word span of utterance i shifted by the durations of the utterances before it |
| Align.CuesOrdered | app/utils/align_subtitles.py:123-127 | with spans inside their utterances, cues are ordered and do not overlap |
| Align.SrtTextPrefix | app/utils/align_subtitles.py:131-133 | the file text for the first n entries is a prefix of that for the first m, at least 7 characters longer per cue |
| Common.FirstMissing | app/utils/align_subtitles.py:80-125 | the first slot that is absent or empty, with every earlier one present: the buffer `_write_wav` fails on, or the TextGrid that cannot be read; none exactly when all are present |
| Align.Spans | app/utils/align_subtitles.py:124-125 | utterance i's span is the bounds of its TextGrid |
| Align.MfaAlignChunksToSrt | app/utils/align_subtitles.py:59-135 | the error cases in order (length mismatch, a missing audio buffer, the launcher's error, which is TypeError for an unset `CONDA_EXE` or MFA not found, the executable not found, another `OSError` on launch propagated as it is, exit code, unreadable TextGrid), the scratch folder left behind exactly in the cases that skip cleanup, and on success the SubRip text of the offset entries |
| CliFlow.TotalCharsBound | app/main.py:128-129 | one chunk of 500 characters or more sends the text to the aligner unless fast mode is on |
| CliFlow.VttGate | app/main.py:143 | VTT is written exactly when one comma-separated field is literally `vtt` |
| CliFlow.VttGateExamples | app/main.py:143 | `srt,vtt` writes VTT, `srt, vtt` does not |
| CliFlow.SimpleCueAt | app/main.py:39-49 | cue i runs from the total duration of the chunks before it for its own duration |
| CliFlow.CreateSimpleSrt | app/main.py:27-49 | the file text is the cue blocks of the simple cues, the running offset equal to the sum of earlier durations |
| CliFlow.SimpleIsWholeSpans | app/main.py:27-49 | simple timing is the aligner's timing with each span covering the whole utterance |
| CliFlow.SimpleContiguous | app/main.py:39-49 | simple cues start at zero, follow one another without gap and end at the total duration |
| CliFlow.Captions | app/main.py:127-144 | simple timing under fast mode or fewer than 500 characters, failing on the first missing buffer; else the outcome of `Align.MfaAlignChunksToSrt`; VTT only after a successful SRT and when requested, and then the as-written conversion of the SubRip file read back in text mode |
| ApiFlow.PrimerSilence | app/api.py:169-172 | `int(sr*ms/1000)` zero samples, two bytes each; a negative count fails |
| ApiFlow.PrimerDefault | app/api.py:169-172 | the default 120 ms at 24 kHz is 5760 zero bytes |
| ApiFlow.PrimerVsStream | app/api.py:169-172 | the endpoint's primer and the raw stream's primer differ by at most one sample |
| ApiFlow.AlignLimit | app/api.py:427-432 | the limit is 300 characters when the recommended engine is kokoro, else 1000 |
| ApiFlow.RunsAligner | app/api.py:427-436 | the aligner runs exactly when `align` is true ignoring case and the text has at most 300 characters for kokoro, at most 1000 otherwise |
| ApiFlow.AlignFlagCase | app/api.py:436 | the `align` field is compared without regard to case |
| ApiFlow.AlignerLimits | app/api.py:427-436 | a text aligned on a modest machine is aligned on a capable one; over 1000 characters never |
| ApiFlow.ToolAndEndpointDiffer | app/api.py:434-436 | above 1000 characters the tool aligns and the endpoint does not; below 500 the tool never aligns |
| ApiFlow.AlignJobs | app/api.py:439 | the CPU count when it is between 1 and 8, 8 above that, 4 when unknown or zero; always between 1 and 8 |
| ApiFlow.DurationsMs | app/api.py:452-460 | each duration is the whole milliseconds of the chunk's audio, rounded down |
| ApiFlow.EndpointCaptions | app/api.py:420-466 | aligned exactly when asked, short enough and the aligner succeeds; otherwise the duration-based SubRip text; no captions exactly when a buffer is missing; VTT whenever SubRip is written, as the as-written conversion of the SubRip file read back in text mode |
| EnginePolicy.EnvWordCases | app/services/models.py:219-224 | the two word lists are disjoint; true, false or the default exactly as the word falls |
| EnginePolicy.EnvBool | app/services/models.py:215-224 | an unset variable gives the default; the answer differs from the default only for a recognised word, true exactly for the true words |
| EnginePolicy.EnvBoolUnset | app/services/models.py:216-218 | an unset variable gives the default |
| EnginePolicy.EnvBoolPadding | app/services/models.py:219 | surrounding whitespace does not change the answer |
| EnginePolicy.CosyAuto | app/services/models.py:238-266 | in automatic mode the GPU with half precision is chosen exactly for a CUDA device that is not a 970, has capability 6 or more and 6 GiB; otherwise the CPU |
| EnginePolicy.CosyOverrides | app/services/models.py:232-236 | `cpu` and `gpu` win over any probe, and half precision never goes with the CPU |
| EnginePolicy.CosyPolicy | app/services/models.py:227-266 | half precision never goes with the CPU; the GPU without half precision only when forced; half precision only for a CUDA device with capability 6 or more and 6 GiB |
| EnginePolicy.DeviceSettingPadding | app/services/models.py:229 | surrounding whitespace in `COSY_DEVICE` does not matter |
| EnginePolicy.DeviceUnset | app/services/models.py:229 | an unset `COSY_DEVICE` is automatic mode |
| EnginePolicy.RecommendedEngine | app/services/models.py:348-403 | the answer is kokoro or cosyvoice2, and kokoro whenever probing raises |
| EnginePolicy.RecommendsCosy | app/services/models.py:373-399 | cosyvoice2 exactly for Apple Silicon with 16 GiB, a CUDA card with 8 GiB, or 32 GiB and 16 known CPUs without a weak card |
| EnginePolicy.AppleIgnoresGpu | app/services/models.py:374-380 | on Apple Silicon the answer depends on memory alone |
| ExtractText.Name | app/utils/extract_text.py:36 | the name holds no slash |
| ExtractText.NameOf | app/utils/extract_text.py:36 | the name of a path is its last component |
| ExtractText.LastDot | app/utils/extract_text.py:37 | the position of the last dot, with no dot after it, or none when there is no dot |
| ExtractText.Suffix | app/utils/extract_text.py:37 | the suffix is empty or a dot followed by at least one character without dots, ending the name |
| ExtractText.SuffixOf | app/utils/extract_text.py:37 | a stem, a dot and a dot-free extension have that extension as suffix |
| ExtractText.Dispatch | app/utils/extract_text.py:37-45 | .txt, .epub and .pdf in any case pick their reader; anything else is an error naming the lower-cased suffix |
| ExtractText.CrLf | app/utils/extract_text.py:46 | no carriage return remains |
| ExtractText.CrLfNoop | app/utils/extract_text.py:46 | text without carriage returns is unchanged |
| ExtractText.CrLfPair | app/utils/extract_text.py:46 | each CRLF becomes one LF |
| ExtractText.CrLfLone | app/utils/extract_text.py:46 | a lone CR becomes one LF |
| ExtractText.Collapse | app/utils/extract_text.py:47 | no tab and no two adjacent spaces remain |
| ExtractText.CollapseRun | app/utils/extract_text.py:47 | a run of spaces and tabs between non-blank neighbours becomes exactly one space |
| ExtractText.CollapseNoop | app/utils/extract_text.py:47 | text without tabs or doubled spaces is unchanged |
| ExtractText.CollapseKeeps | app/utils/extract_text.py:47 | every character but spaces and tabs survives in order, line breaks included |
| ExtractText.StripKeeps | app/utils/extract_text.py:48 | stripping removes whitespace only |
| ExtractText.Normalize | app/utils/extract_text.py:46-48 | the result is empty or neither starts nor ends with whitespace |
| ExtractText.NormalizeClean | app/utils/extract_text.py:46-48 | the result has no CR, no tab, no double space and no whitespace at either end, and keeps every non-whitespace character in order |
| ExtractText.NormalizeFixes | app/utils/extract_text.py:46-48 | clean text is its own normal form |
| ExtractText.NormalizeIdempotent | app/utils/extract_text.py:46-48 | normalising twice is normalising once |
| ExtractText.Extract | app/utils/extract_text.py:35-48 | an unsupported suffix or a failing reader is an error; otherwise the text is clean and keeps every non-whitespace character the reader produced |
| Voices.FirstTruthy | app/services/voices.py:36-37 | the chained `or` gives the first truthy value, or the last one looked up when none is truthy |
| Voices.ItemVoice | app/services/voices.py:33-40 | a string item names itself; an object needs a truthy id under id, name, voice or key and takes its label if present, else the id; anything else is skipped |
| Voices.ItemIdOrder | app/services/voices.py:36-37 | an object's id is its first truthy id key in the order id, name, voice, key |
| Voices.ManifestItems | app/services/voices.py:28-31 | the items are the document's list or an object's "voices" list; anything else has none |
| Voices.Collect | app/services/voices.py:32-40 | no entries exactly when no item is usable, and each entry comes from an item |
| Voices.CollectAppend | app/services/voices.py:32-40 | items are handled one by one, in order |
| Voices.CollectNames | app/services/voices.py:33-34 | a list of strings gives one entry per string, empty strings included |
| Voices.Insert | app/services/voices.py:53 | inserting keeps the list strictly ascending and adds exactly the new element |
| Voices.SortUnique | app/services/voices.py:53 | `sorted(set(xs))` is strictly ascending with the elements of xs |
| Voices.AscendingUnique | app/services/voices.py:53 | a strictly ascending list is determined by its elements |
| Voices.BelowTransitive | app/services/voices.py:53 | Python string order is transitive |
| Voices.BelowTotal | app/services/voices.py:53 | distinct strings are ordered one way or the other |
| Voices.Stem | app/services/voices.py:52 | the stem followed by the suffix is the name |
| Voices.ScanEntry | app/services/voices.py:51-52 | a path contributes its stem exactly when its lower-cased suffix is a voice suffix |
| Voices.Present | app/services/voices.py:48-52 | the candidates are exactly the present stems |
| Voices.ScanVoices | app/services/voices.py:46-54 | no folder gives nothing; otherwise each voice-file stem once, ascending, with the id as label |
| Voices.ScanListsVoiceFiles | app/services/voices.py:50-54 | every voice file's stem is listed |
| Voices.Discover | app/services/voices.py:16-54 | the first manifest that yields entries wins; when none does, the folder scan answers |
| Voices.SkipsFruitless | app/services/voices.py:22-44 | a missing, unreadable or empty manifest passes to the next |
| Voices.RepoId | app/services/voices.py:62 | a non-empty argument wins, then the environment variable, then the default repository |
| Voices.GetVoices | app/services/voices.py:57-86 | a cached list is returned without refresh; otherwise the discovered list, or the fallback when the download raises, is stored for the repository and no other entry changes |
| Voices.CachedAnswerSticks | app/services/voices.py:65-86 | once cached, a call without refresh returns the same list whatever the hub would now give |
| Voices.EmptyIsNotFailure | app/services/voices.py:79-86 | a snapshot without voices gives an empty list, which is cached; the fallback is only for failures |

## Left out

- Floating point: sample counts and durations are computed over exact reals. `len(wav) / sr * 1000` is the exact quotient, so rounding of binary floats near a whole millisecond is not modelled.
- Character classes: `str.lower` covers ASCII letters only, and `\d` in the regular expressions is ASCII digits. `str.strip` and `str.isspace` use Python's whitespace set.
- Time, randomness and I/O: the clock is an argument, and so are the file contents, directory listings and readers. Digests (MD5, SHA-1) and back-ends (Kokoro, CosyVoice2, resamplers) are function parameters. Thread locks are dropped: each operation is one atomic step.
- Back-end results are one-dimensional sample sequences, so the channel mean `arr.mean(axis=1)` that the CosyVoice2 loop and the cross-lingual stream apply to multichannel arrays is not modelled.
- The forced aligner process, TextGrid parsing and `_write_wav` are outside the model. The aligner is its launch outcome and the tiers it produced. The verbose command print is not modelled.
- Align.MfaPrefix: `_mfa_cmd` also prepends the executable's `Library/bin` to `PATH` when that folder exists; the environment change is not modelled.
- Align.MfaAlignChunksToSrt, Align.Durations, CliFlow.Captions, ApiFlow.EndpointCaptions: these require a positive sample rate. The source divides by it; a zero rate raises there.
- ApiFlow.EndpointCaptions: the message printed when simple timing is chosen says "short text" although the texts sent there are the long ones. Only the print is wrong, and it is not modelled.
- Files are written as on POSIX, where text mode leaves line breaks alone. On Windows the writers turn every `\n` into `\r\n`, which reading back in text mode undoes unless the text already held a carriage return before a line break; that translation is not modelled.
- CliFlow.Captions, ApiFlow.EndpointCaptions: the VTT text is what the as-written converter `Vtt.SrtToVtt` makes of the SubRip file read back (`Vtt.SrtFileToVtt`), so multi-cue files inherit the defect under Findings. The corrected converter `Vtt.SrtToVttSeparated` is proved on its own.
- VttCue.SingleCue, VttCue.TwoCues: they are stated for cue texts that are one plain line (no comma, no line break, not starting like an index line) and for well-formed timestamps. Other inputs are covered only by the general `Vtt` lemmas.
- Synthesize.SpeedChangeApplies, Synthesize.SpeedRateExamples: the test `abs(speed - 1.0) > 0.01` is decided over exact reals. In binary floats 1.01 and 0.99 already differ from 1.0 by slightly more than 0.01 and get the speed change, while this model leaves them alone; only speeds that close to the boundary are affected.
- EnginePolicy.CosyPolicy: `COSY_FP16` is read and never used. The parameter is kept and has no effect.
- ApiCache.GetCachedResult: one `now` serves both the freshness test and the re-stamp, where the source reads the clock twice; the two reads differ by the time the lookup takes.
- EnginePolicy.RecommendedEngine: memory sizes are compared as exact bytes (`total >= k * 2^30`) rather than float gibibytes.
- ExtractText.Name: `Path` also drops `.` components and collapses repeated slashes. Only trailing slashes are removed here. The suffix rule is the one where a name ending in a dot has no suffix.
- The EPUB and PDF readers (ebooklib, BeautifulSoup, PyMuPDF, pypdf) are the `read` parameter of `ExtractText.Extract`.
- Voices.Json: numbers are exact reals; `NaN` and infinities, which the JSON parser accepts, are not modelled.
- The FastAPI routes, ZIP packaging, model loading and warm-up, reference-audio presets, loudness normalisation and the full-WAV writer are not part of this model.

## Findings

| source | as written | input that shows it | evidently intended | confidence | as-written member | corrected member |
|---|---|---|---|---|---|---|
| app/utils/make_captions.py:10-18 | the index-line pattern `^\s*\d+\s*$` in multi-line mode also consumes the blank line before each later cue index, so cue blocks are re-joined by a single newline | two cues `1`, `00:00:00,000 --> 00:00:01,000`, `A`, blank, `2`, `00:00:01,000 --> 00:00:02,000`, `B`, blank | cues separated by an empty line, as section 4.1 of the W3C WebVTT specification requires | high, from the proof; not executed | VttCue.TwoCues | Vtt.SrtToVttSeparated, VttCue.TwoCuesSeparated |
| app/utils/align_subtitles.py:30-45 | `_conda_exe_candidates` passes `os.environ.get("CONDA_EXE")` to `os.path.isfile`, and `os.path.isfile(None)` raises TypeError, so `_mfa_cmd` never reaches the `MFA_EXE` fallback when `CONDA_EXE` is unset | `CONDA_EXE` unset, `MFA_EXE=/x/mfa` | an unset `CONDA_EXE` is skipped and `/x/mfa` is run | high, from Python's path functions rejecting `None`; not executed | Align.MfaPrefix, Align.CondaUnsetRaises | Align.MfaPrefixSkippingUnset |

=== FILE: align.dfy ===
/** The forced-aligner path of caption generation (`mfa_align_chunks_to_srt`):
    every chunk and its audio become one utterance of a scratch corpus, the
    Montreal Forced Aligner is run over the corpus, and each utterance's
    TextGrid gives the span of its spoken words. A cue's times are that span
    shifted by the total duration of the utterances before it.

    The aligner process, the WAV and label writers and the TextGrid reader
    are not modelled: the process's outcome and the parsed first tier of each
    utterance are inputs. Seconds are exact reals. */
module Align {

  import opened Common
  import opened Text
  import opened Decimal
  import opened Srt

  /** One interval of a TextGrid tier. */
  datatype Interval = Interval(minTime: real, maxTime: real, mark: string)

  /** The first tier of an utterance's TextGrid. */
  datatype Tier = Tier(minTime: real, maxTime: real, intervals: seq<Interval>)

  /** What `subprocess.check_call` did with the aligner command. */
  datatype Launch =
    | NotLaunched          // the executable was not found (FileNotFoundError)
    | Refused              // any other OSError on starting it, such as PermissionError
    | Exited(code: int)    // the process ran and exited with `code`

  /** The exceptions the function raises. */
  datatype AlignError =
    | LengthMismatch                          // the length `assert`
    | CondaExeUnset                           // TypeError from `os.path.isfile(None)` when `$CONDA_EXE` is unset
    | MfaNotFound                             // neither conda nor an `mfa` executable
    | LaunchFailed(cmd: seq<string>)          // re-raised FileNotFoundError
    | LaunchRefused                           // another OSError from `check_call`, not caught
    | ExitCode(code: int, cmd: seq<string>)   // RuntimeError for a failing exit code
    | MissingAudio(chunk: nat)                // TypeError on the chunk (from 0) whose audio buffer is None
    | GridUnreadable(chunk: nat)              // the TextGrid of the chunk (from 0) is missing or unreadable

  /** The pronunciation dictionary and acoustic model used by default. */
  const DefaultDict: string := "english_us_arpa"
  const DefaultAcoustic: string := "english_mfa"

  /** A cue: start and end in seconds, and its text. */
  type Entry = (real, real, string)

  /** What a call leaves behind: the SRT text written or the exception, and
      whether the scratch directory is still on disk afterwards. */
  datatype Run = Run(outcome: Result<string, AlignError>, scratchLeft: bool)

  // ---------------------------------------------------------------- corpus

  /** `f"utt_{i:04}{ext}"`: the file name of utterance `i` (counted from 1). */
  function UttName(i: nat, ext: string): string
  {
    "utt_" + FormatPadded(i, 4) + ext
  }

  /** Different utterances get different files, also beyond 9999. */
  lemma UttNameInjective(i: nat, j: nat, ext: string)
    requires UttName(i, ext) == UttName(j, ext)
    ensures i == j
  {
    var a := FormatPadded(i, 4);
    var b := FormatPadded(j, 4);
    assert "utt_" + a + ext == "utt_" + b + ext;
    assert |a| == |b|;
    assert a == (UttName(i, ext))[4..4 + |a|];
    assert b == (UttName(j, ext))[4..4 + |b|];
    PaddedRoundTrip(i, 4);
    PaddedRoundTrip(j, 4);
  }

  /** Below 10000 the name has the fixed width `utt_dddd`. */
  lemma UttNameWidth(i: nat, ext: string)
    requires i < 10000
    ensures |UttName(i, ext)| == 8 + |ext|
  {
    assert Pow10(4) == 10000;
    PaddedWidth(i, 4);
  }

  /** The lengths of the audio buffers of the chunks; a missing buffer
      (a `None` placeholder) counts as 0 and only matters where the source
      never reaches it. */
  function Lengths(wavs: seq<Option<nat>>): (r: seq<nat>)
    ensures |r| == |wavs|
    ensures forall i :: 0 <= i < |wavs| && wavs[i].Some? ==> r[i] == wavs[i].value
  {
    seq(|wavs|, i requires 0 <= i < |wavs| => if wavs[i].Some? then wavs[i].value else 0)
  }

  /** `len(wav) / sr` for every utterance. */
  function Durations(wavLens: seq<nat>, sr: int): (r: seq<real>)
    requires sr > 0
    ensures |r| == |wavLens|
    ensures forall i :: 0 <= i < |r| ==> r[i] * (sr as real) == wavLens[i] as real && r[i] >= 0.0
  {
    seq(|wavLens|, i requires 0 <= i < |wavLens| => wavLens[i] as real / sr as real)
  }

  // --------------------------------------------------------------- command

  /** The conda executables `_conda_exe_candidates` tries after `$CONDA_EXE`:
      three fixed Windows install locations. */
  const FixedCondaPaths: seq<string> := [
    "C:\\Users\\hxchi\\miniconda3\\Scripts\\conda.exe",
    "C:\\ProgramData\\miniconda3\\Scripts\\conda.exe",
    "C:\\miniconda3\\Scripts\\conda.exe"
  ]

  /** The conda environment `mfa_align_chunks_to_srt` runs the aligner in by default. */
  const DefaultCondaEnv: string := "aligner"

  /** What `_mfa_cmd` looks at: `$CONDA_EXE` (`None` when unset), the file
      test `os.path.isfile`, and `os.environ.get("MFA_EXE") or
      shutil.which("mfa")`. */
  datatype Toolchain = Toolchain(condaExe: Option<string>, isFile: string -> bool, mfaExe: Option<string>)

  /** `list(filter(isFile, paths))`: the paths that are files, in order. */
  function KeepFiles(paths: seq<string>, isFile: string -> bool): (r: seq<string>)
    ensures forall c :: c in r <==> c in paths && isFile(c)
    ensures (forall c :: c in paths ==> !isFile(c)) ==> r == []
    decreases |paths|
  {
    if |paths| == 0 then []
    else
      var rest := KeepFiles(paths[1..], isFile);
      if isFile(paths[0]) then [paths[0]] + rest else rest
  }

  /** The first path kept is the first path that is a file. */
  lemma KeepFilesFirst(paths: seq<string>, isFile: string -> bool)
    ensures forall i :: (0 <= i < |paths| && isFile(paths[i]) && forall j :: 0 <= j < i ==> !isFile(paths[j])) ==>
      |KeepFiles(paths, isFile)| > 0 && KeepFiles(paths, isFile)[0] == paths[i]
  {
    forall i | 0 <= i < |paths| && isFile(paths[i]) && forall j :: 0 <= j < i ==> !isFile(paths[j])
      ensures |KeepFiles(paths, isFile)| > 0 && KeepFiles(paths, isFile)[0] == paths[i]
    {
      KeepFilesAt(paths, isFile, i);
    }
  }

  lemma {:induction false} KeepFilesAt(paths: seq<string>, isFile: string -> bool, i: nat)
    requires i < |paths| && isFile(paths[i]) && forall j :: 0 <= j < i ==> !isFile(paths[j])
    ensures |KeepFiles(paths, isFile)| > 0 && KeepFiles(paths, isFile)[0] == paths[i]
    decreases i
  {
    if i > 0 {
      assert !isFile(paths[0]);
      var tail := paths[1..];
      assert KeepFiles(paths, isFile) == KeepFiles(tail, isFile);
      assert tail[i - 1] == paths[i];
      forall j | 0 <= j < i - 1 ensures !isFile(tail[j]) {
        assert tail[j] == paths[j + 1];
      }
      hide KeepFiles;
      KeepFilesAt(tail, isFile, i - 1);
    }
  }

  /** The launcher `_mfa_cmd` builds from the conda executables found: the
      first one runs `mfa` in the environment; with none, the MFA executable
      is called directly; with neither, FileNotFoundError. */
  function Launcher(conda: seq<string>, mfaExe: Option<string>, env: string): Result<seq<string>, AlignError>
  {
    if |conda| > 0 then Ok([conda[0], "run", "-n", env, "mfa"])
    else if mfaExe.Some? && mfaExe.value != "" then Ok([mfaExe.value])
    else Err(MfaNotFound)
  }

  /** The paths `_conda_exe_candidates` tests when `$CONDA_EXE` is `exe`. */
  function CondaSearch(exe: string): (r: seq<string>)
    ensures |r| == 4 && r[0] == exe && r[1..] == FixedCondaPaths
  {
    [exe] + FixedCondaPaths
  }

  /** `_mfa_cmd(env)`, as written. `_conda_exe_candidates` hands `None` to
      `os.path.isfile` when `$CONDA_EXE` is unset, which raises TypeError, so
      the `MFA_EXE` fallback is reached only when `$CONDA_EXE` is set and no
      candidate is a file. */
  function MfaPrefix(t: Toolchain, env: string): (r: Result<seq<string>, AlignError>)
    ensures r == Err(CondaExeUnset) <==> t.condaExe.None?
    ensures r.Err? ==> r.error == CondaExeUnset || r.error == MfaNotFound
    ensures t.condaExe.Some? ==> forall i ::
      (0 <= i < 4 && t.isFile(CondaSearch(t.condaExe.value)[i]) &&
       forall j :: 0 <= j < i ==> !t.isFile(CondaSearch(t.condaExe.value)[j])) ==>
      r == Ok([CondaSearch(t.condaExe.value)[i], "run", "-n", env, "mfa"])
    ensures t.condaExe.Some? && (forall c :: c in CondaSearch(t.condaExe.value) ==> !t.isFile(c)) ==>
      (r.Ok? <==> t.mfaExe.Some? && t.mfaExe.value != "") &&
      (r.Ok? ==> r.value == [t.mfaExe.value]) && (r.Err? ==> r.error == MfaNotFound)
  {
    match t.condaExe
    case None => Err(CondaExeUnset)
    case Some(exe) =>
      KeepFilesFirst(CondaSearch(exe), t.isFile);
      Launcher(KeepFiles(CondaSearch(exe), t.isFile), t.mfaExe, env)
  }

  /** `_mfa_cmd(env)` as evidently intended: an unset `$CONDA_EXE` is skipped
      rather than tested. It never raises TypeError, falls back on the MFA
      executable when no conda executable is found, and agrees with the
      as-written launcher whenever `$CONDA_EXE` is set. */
  function MfaPrefixSkippingUnset(t: Toolchain, env: string): (r: Result<seq<string>, AlignError>)
    ensures r.Err? ==> r.error == MfaNotFound
    ensures (forall c :: c in FixedCondaPaths ==> !t.isFile(c)) && (t.condaExe.Some? ==> !t.isFile(t.condaExe.value)) ==>
      (r.Ok? <==> t.mfaExe.Some? && t.mfaExe.value != "") && (r.Ok? ==> r.value == [t.mfaExe.value])
    ensures t.condaExe.Some? ==> r == MfaPrefix(t, env)
  {
    match t.condaExe
    case None => Launcher(KeepFiles(FixedCondaPaths, t.isFile), t.mfaExe, env)
    case Some(exe) => Launcher(KeepFiles(CondaSearch(exe), t.isFile), t.mfaExe, env)
  }

  /** With `$CONDA_EXE` unset and `MFA_EXE` pointing at an executable, the
      as-written launcher raises TypeError where the intended one calls the
      executable. */
  lemma CondaUnsetRaises()
    ensures var t := Toolchain(None, (c: string) => false, Some("/x/mfa"));
      MfaPrefix(t, DefaultCondaEnv) == Err(CondaExeUnset) &&
      MfaPrefixSkippingUnset(t, DefaultCondaEnv) == Ok(["/x/mfa"])
  {
    var t := Toolchain(None, (c: string) => false, Some("/x/mfa"));
    assert forall c :: c in FixedCondaPaths ==> !t.isFile(c);
  }

  /** The aligner command line: the launcher, then `align` with the corpus,
      dictionary, acoustic model and output directory, `--clean`, the job
      count (at least 1), and `--single_speaker` when asked for. */
  function MfaCommand(prefix: seq<string>, corpus: string, dictName: string, acousticName: string,
                      aligned: string, numJobs: int, singleSpeaker: bool): (r: seq<string>)
    ensures |r| == |prefix| + 8 + (if singleSpeaker then 1 else 0) && r[..|prefix|] == prefix
  {
    prefix + ["align", corpus, dictName, acousticName, aligned, "--clean", "--num_jobs", IntToString(Max(1, numJobs))]
      + (if singleSpeaker then ["--single_speaker"] else [])
  }

  /** The command keeps the launcher in front and the arguments in order; the
      job count reads back as `max(1, num_jobs)`; `--single_speaker` is the
      last word exactly when requested. */
  lemma MfaCommandShape(prefix: seq<string>, corpus: string, dictName: string, acousticName: string,
                        aligned: string, numJobs: int, singleSpeaker: bool)
    ensures var c := MfaCommand(prefix, corpus, dictName, acousticName, aligned, numJobs, singleSpeaker);
      |c| == |prefix| + 8 + (if singleSpeaker then 1 else 0) &&
      c[..|prefix|] == prefix &&
      c[|prefix|..|prefix| + 7] == ["align", corpus, dictName, acousticName, aligned, "--clean", "--num_jobs"] &&
      AllDigits(c[|prefix| + 7]) && DigitsValue(c[|prefix| + 7]) == Max(1, numJobs) &&
      (singleSpeaker <==> "--single_speaker" in c[|prefix| + 8..])
  {
    NatToStringValue(Max(1, numJobs));
  }

  // ---------------------------------------------------------------- bounds

  /** An interval holding a word: its mark is not all whitespace. */
  predicate IsWord(itv: Interval)
  {
    !AllSpace(itv.mark)
  }

  /** This is the source's test, a mark whose `strip()` is not empty. */
  lemma IsWordStripped(itv: Interval)
    ensures IsWord(itv) <==> Strip(itv.mark) != ""
  {
    StripBlank(itv.mark);
  }

  /** `[itv for itv in tier if itv.mark.strip()]` */
  function Words(ivs: seq<Interval>): (r: seq<Interval>)
  {
    if |ivs| == 0 then []
    else (if IsWord(ivs[0]) then [ivs[0]] else []) + Words(ivs[1..])
  }

  /** Position of the first word interval. */
  function FirstWord(ivs: seq<Interval>): (r: Option<nat>)
    ensures r.Some? ==> r.value < |ivs| && IsWord(ivs[r.value])
    ensures r.Some? ==> forall k :: 0 <= k < r.value ==> !IsWord(ivs[k])
    ensures r.None? ==> forall k :: 0 <= k < |ivs| ==> !IsWord(ivs[k])
  {
    if |ivs| == 0 then None
    else if IsWord(ivs[0]) then Some(0)
    else match FirstWord(ivs[1..])
      case None => None
      case Some(k) => Some(k + 1)
  }

  /** Position of the last word interval. */
  function LastWord(ivs: seq<Interval>): (r: Option<nat>)
    ensures r.Some? ==> r.value < |ivs| && IsWord(ivs[r.value])
    ensures r.Some? ==> forall k :: r.value < k < |ivs| ==> !IsWord(ivs[k])
    ensures r.None? ==> forall k :: 0 <= k < |ivs| ==> !IsWord(ivs[k])
  {
    if |ivs| == 0 then None
    else if IsWord(ivs[|ivs| - 1]) then Some(|ivs| - 1)
    else LastWord(ivs[..|ivs| - 1])
  }

  /** `bounds(tg)`: from the start of the first word to the end of the last
      one; a tier with no words gives the tier's own span. */
  function Bounds(tier: Tier): (r: (real, real))
    ensures (forall k :: 0 <= k < |tier.intervals| ==> !IsWord(tier.intervals[k])) ==> r == (tier.minTime, tier.maxTime)
    ensures r == (tier.minTime, tier.maxTime) ||
      exists i, j :: 0 <= i <= j < |tier.intervals| && IsWord(tier.intervals[i]) && IsWord(tier.intervals[j]) &&
        r == (tier.intervals[i].minTime, tier.intervals[j].maxTime)
  {
    var ivs := tier.intervals;
    match (FirstWord(ivs), LastWord(ivs))
    case (Some(i), Some(j)) => (ivs[i].minTime, ivs[j].maxTime)
    case _ => (tier.minTime, tier.maxTime)
  }

  lemma {:induction false} WordsEmpty(ivs: seq<Interval>)
    ensures Words(ivs) == [] <==> forall k :: 0 <= k < |ivs| ==> !IsWord(ivs[k])
  {
    if |ivs| > 0 {
      WordsEmpty(ivs[1..]);
      if forall k :: 0 <= k < |ivs[1..]| ==> !IsWord(ivs[1..][k]) {
        assert forall k :: 1 <= k < |ivs| ==> !IsWord(ivs[k]) by {
          forall k | 1 <= k < |ivs| ensures !IsWord(ivs[k]) { assert ivs[k] == ivs[1..][k - 1]; }
        }
      } else {
        var k :| 0 <= k < |ivs[1..]| && IsWord(ivs[1..][k]);
        assert ivs[k + 1] == ivs[1..][k];
      }
    }
  }

  lemma {:induction false} WordsHead(ivs: seq<Interval>, i: nat)
    requires FirstWord(ivs) == Some(i)
    ensures |Words(ivs)| > 0 && Words(ivs)[0] == ivs[i]
  {
    if !IsWord(ivs[0]) {
      WordsHead(ivs[1..], i - 1);
    }
  }

  lemma {:induction false} WordsSnoc(ivs: seq<Interval>, x: Interval)
    ensures Words(ivs + [x]) == Words(ivs) + (if IsWord(x) then [x] else [])
  {
    if |ivs| > 0 {
      assert (ivs + [x])[1..] == ivs[1..] + [x];
      WordsSnoc(ivs[1..], x);
    } else {
      assert (ivs + [x])[1..] == [];
    }
  }

  lemma {:induction false} WordsLast(ivs: seq<Interval>, j: nat)
    requires LastWord(ivs) == Some(j)
    ensures |Words(ivs)| > 0 && Words(ivs)[|Words(ivs)| - 1] == ivs[j]
  {
    var n := |ivs|;
    assert ivs == ivs[..n - 1] + [ivs[n - 1]];
    WordsSnoc(ivs[..n - 1], ivs[n - 1]);
    if j < n - 1 {
      WordsLast(ivs[..n - 1], j);
    }
  }

  /** The span runs from the first word's start to the last word's end when
      the tier has words, and is the tier's span otherwise. */
  lemma BoundsWords(tier: Tier)
    ensures var w := Words(tier.intervals);
      Bounds(tier) == if |w| > 0 then (w[0].minTime, w[|w| - 1].maxTime) else (tier.minTime, tier.maxTime)
  {
    var ivs := tier.intervals;
    WordsEmpty(ivs);
    match FirstWord(ivs)
    case Some(i) =>
      var j := LastWord(ivs).value;
      WordsHead(ivs, i);
      WordsLast(ivs, j);
    case None =>
  }

  // --------------------------------------------------------------- entries

  /** Sum of the first `i` durations: the offset the loop has reached
      before utterance `i`. */
  function SumTo(xs: seq<real>, i: nat): real
    requires i <= |xs|
  {
    if i == 0 then 0.0 else SumTo(xs, i - 1) + xs[i - 1]
  }

  /** Each cue `i` is the aligned span of utterance `i` shifted by the full
      durations of the utterances before it, with the chunk's text stripped. */
  predicate EntriesFor(entries: seq<Entry>, texts: seq<string>, durs: seq<real>, spans: seq<(real, real)>)
    requires |durs| >= |texts| && |spans| == |texts|
  {
    |entries| == |texts| &&
    forall i :: 0 <= i < |entries| ==>
      entries[i] == (SumTo(durs, i) + spans[i].0, SumTo(durs, i) + spans[i].1, texts[i])
  }

  /** `chunk.strip()` for every chunk. */
  function StripEach(chunks: seq<string>): (r: seq<string>)
    ensures |r| == |chunks|
  {
    seq(|chunks|, i requires 0 <= i < |chunks| => Strip(chunks[i]))
  }

  /** The loop of `entries, offset = [], 0.0` over the stripped chunk texts. */
  method AlignEntries(texts: seq<string>, durs: seq<real>, spans: seq<(real, real)>) returns (entries: seq<Entry>)
    requires |durs| >= |texts| && |spans| == |texts|
    ensures EntriesFor(entries, texts, durs, spans)
  {
    entries := [];
    var offset := 0.0;
    var i := 0;
    while i < |texts|
      invariant 0 <= i <= |texts|
      invariant offset == SumTo(durs, i)
      invariant |entries| == i
      invariant forall k :: 0 <= k < i ==>
        entries[k] == (SumTo(durs, k) + spans[k].0, SumTo(durs, k) + spans[k].1, texts[k])
    {
      var e := (offset + spans[i].0, offset + spans[i].1, texts[i]);
      assert forall k :: 0 <= k < i ==> (entries + [e])[k] == entries[k];
      entries := entries + [e];
      offset := offset + durs[i];
      i := i + 1;
    }
  }

  /** When every aligned span lies inside its own utterance, the cues are in
      order and do not overlap: each ends no later than the next begins. */
  lemma CuesOrdered(entries: seq<Entry>, texts: seq<string>, durs: seq<real>, spans: seq<(real, real)>)
    requires |durs| >= |texts| && |spans| == |texts|
    requires EntriesFor(entries, texts, durs, spans)
    requires forall i :: 0 <= i < |spans| ==> 0.0 <= spans[i].0 <= spans[i].1 <= durs[i]
    ensures forall i :: 0 <= i < |entries| ==> entries[i].0 <= entries[i].1
    ensures forall i :: 0 <= i < |entries| - 1 ==> entries[i].1 <= entries[i + 1].0
  {
    forall i | 0 <= i < |entries| - 1
      ensures entries[i].1 <= entries[i + 1].0
    {
    }
  }

  // ------------------------------------------------------------------ file

  /** `f"{idx}\n{fmt(st)} --> {fmt(et)}\n{txt}\n\n"` */
  function CueText(idx: nat, e: Entry, fmt: real -> string): string
  {
    CueBlock(idx, fmt(e.0), fmt(e.1), e.2)
  }

  /** The blocks of the first `n` cues, numbered from 1, with `fmt` writing
      the timestamps. */
  function SrtTextTo(entries: seq<Entry>, n: nat, fmt: real -> string): string
    requires n <= |entries|
  {
    if n == 0 then "" else SrtTextTo(entries, n - 1, fmt) + CueText(n, entries[n - 1], fmt)
  }

  /** The text written to the SRT file: timestamps by `_fmt_srt`. */
  function SrtText(entries: seq<Entry>): string
  {
    SrtTextTo(entries, |entries|, FmtSeconds)
  }

  /** The file grows cue by cue: what is written for the first `n` cues is
      the start of what is written for more, and each further cue adds at
      least a block's worth of characters. */
  lemma {:induction false} SrtTextPrefix(entries: seq<Entry>, n: nat, m: nat, fmt: real -> string)
    requires n <= m <= |entries|
    ensures SrtTextTo(entries, n, fmt) <= SrtTextTo(entries, m, fmt)
    ensures |SrtTextTo(entries, m, fmt)| >= |SrtTextTo(entries, n, fmt)| + 7 * (m - n)
  {
    if n < m {
      SrtTextPrefix(entries, n, m - 1, fmt);
    }
  }

  /** `bounds(...)` of the first `n` utterances, all of whose TextGrids were read. */
  function Spans(grids: seq<Option<Tier>>, n: nat): (r: seq<(real, real)>)
    requires AllSome(grids, n)
    ensures |r| == n
  {
    seq(n, i requires 0 <= i < n => if i < |grids| && grids[i].Some? then Bounds(grids[i].value) else (0.0, 0.0))
  }

  // ----------------------------------------------------------------- whole

  /** The command for a scratch directory: the corpus and the aligner output
      are its `corpus` and `aligned` sub-directories. */
  function AlignCommand(prefix: seq<string>, scratch: string, dictName: string, acousticName: string,
                        numJobs: int, singleSpeaker: bool): seq<string>
  {
    MfaCommand(prefix, scratch + "/corpus", dictName, acousticName, scratch + "/aligned", numJobs, singleSpeaker)
  }

  /** `mfa_align_chunks_to_srt`. `wavs` holds the length of each chunk's
      audio buffer, `None` for a missing one. `scratch` is the directory
      `mkdtemp` made, `tools` what `_mfa_cmd(condaEnv)` looks at, `launch` what running
      the command did, and `grids[i]` the first tier of chunk `i`'s TextGrid
      (the file of utterance `i + 1`), if it could be read. The checks come in
      the source's order: the length assertion, writing the corpus, finding
      the aligner, running it, reading the TextGrids. Returns the run and the
      cues it computed. */
  method MfaAlignChunksToSrt(chunks: seq<string>, wavs: seq<Option<nat>>, sr: int, scratch: string,
                             tools: Toolchain, condaEnv: string, dictName: string, acousticName: string,
                             numJobs: int, singleSpeaker: bool, launch: Launch, grids: seq<Option<Tier>>)
    returns (run: Run, entries: seq<Entry>)
    requires sr > 0
    ensures |chunks| != |wavs| ==> run == Run(Err(LengthMismatch), false)
    ensures |chunks| == |wavs| && !AllSome(wavs, |wavs|) ==>
      run == Run(Err(MissingAudio(FirstMissing(wavs, |wavs|).value)), true)
    ensures |chunks| == |wavs| && AllSome(wavs, |wavs|) && MfaPrefix(tools, condaEnv).Err? ==>
      run == Run(Err(MfaPrefix(tools, condaEnv).error), true)
    ensures |chunks| == |wavs| && AllSome(wavs, |wavs|) && MfaPrefix(tools, condaEnv).Ok? && launch == NotLaunched ==>
      run == Run(Err(LaunchFailed(AlignCommand(MfaPrefix(tools, condaEnv).value, scratch, dictName, acousticName, numJobs, singleSpeaker))), false)
    ensures |chunks| == |wavs| && AllSome(wavs, |wavs|) && MfaPrefix(tools, condaEnv).Ok? && launch == Refused ==>
      run == Run(Err(LaunchRefused), true)
    ensures |chunks| == |wavs| && AllSome(wavs, |wavs|) && MfaPrefix(tools, condaEnv).Ok? && launch.Exited? && launch.code != 0 ==>
      run == Run(Err(ExitCode(launch.code, AlignCommand(MfaPrefix(tools, condaEnv).value, scratch, dictName, acousticName, numJobs, singleSpeaker))), false)
    ensures run.outcome.Err? && run.outcome.error.GridUnreadable? ==>
      run.scratchLeft && FirstMissing(grids, |chunks|) == Some(run.outcome.error.chunk)
    ensures run.outcome.Ok? <==>
      |chunks| == |wavs| && AllSome(wavs, |wavs|) && MfaPrefix(tools, condaEnv).Ok? && launch == Exited(0) && AllSome(grids, |chunks|)
    ensures run.outcome.Ok? ==> !run.scratchLeft
    ensures run.outcome.Ok? ==> run.outcome.value == SrtText(entries)
    ensures run.outcome.Ok? ==>
      EntriesFor(entries, StripEach(chunks), Durations(Lengths(wavs), sr), Spans(grids, |chunks|))
  {
    entries := [];
    if |chunks| != |wavs| {
      return Run(Err(LengthMismatch), false), entries;
    }
    match FirstMissing(wavs, |wavs|) {
      case Some(k) =>
        return Run(Err(MissingAudio(k)), true), entries;
      case None =>
    }
    var durs := Durations(Lengths(wavs), sr);
    var launcher := MfaPrefix(tools, condaEnv);
    if launcher.Err? {
      return Run(Err(launcher.error), true), entries;
    }
    var cmd := AlignCommand(launcher.value, scratch, dictName, acousticName, numJobs, singleSpeaker);
    match launch {
      case NotLaunched =>
        return Run(Err(LaunchFailed(cmd)), false), entries;
      case Refused =>
        return Run(Err(LaunchRefused), true), entries;
      case Exited(code) =>
        if code != 0 {
          return Run(Err(ExitCode(code, cmd)), false), entries;
        }
    }
    match FirstMissing(grids, |chunks|) {
      case Some(k) =>
        return Run(Err(GridUnreadable(k)), true), entries;
      case None =>
    }
    entries := AlignEntries(StripEach(chunks), durs, Spans(grids, |chunks|));
    run := Run(Ok(SrtText(entries)), false);
  }
}

=== FILE: api_cache.dfy ===
/** The API server's in-memory cache of finished synthesis results: at most
    50 entries, each valid for an hour after its last use. */
module ApiCache {

  import opened Common
  import opened CacheTable

  const MAX_CACHE_SIZE: nat := 50
  const CACHE_TTL: real := 3600.0
  const KEY_TEXT_CHARS: nat := 500

  type Cache = Table<seq<byte>>

  /** Python's `str(bool)`. */
  function BoolRepr(b: bool): string
  {
    if b then "True" else "False"
  }

  /** The part of the text that enters the key. */
  function TextKey(text: string): (r: string)
    ensures r == text[..Min(|text|, KEY_TEXT_CHARS)]
  {
    if |text| > KEY_TEXT_CHARS then text[..KEY_TEXT_CHARS] else text
  }

  /** The string that is hashed; `speedRepr` is Python's rendering of the
      speed float. */
  function KeyMaterial(text: string, engine: string, voice: string, speedRepr: string, align: bool): string
  {
    engine + ":" + voice + ":" + speedRepr + ":" + BoolRepr(align) + ":" + TextKey(text)
  }

  /** The cache key is the MD5 hex digest of the key material; the digest
      function is a parameter. */
  function CacheKey(md5: string -> string, text: string, engine: string, voice: string,
                    speedRepr: string, align: bool): (r: string)
    ensures r == md5(KeyMaterial(text, engine, voice, speedRepr, align))
  {
    md5(KeyMaterial(text, engine, voice, speedRepr, align))
  }

  /** With the other parameters fixed, two texts give the same key material
      exactly when their first 500 characters agree. */
  lemma KeyMaterialText(t1: string, t2: string, engine: string, voice: string, speedRepr: string, align: bool)
    ensures KeyMaterial(t1, engine, voice, speedRepr, align) == KeyMaterial(t2, engine, voice, speedRepr, align)
        <==> t1[..Min(|t1|, KEY_TEXT_CHARS)] == t2[..Min(|t2|, KEY_TEXT_CHARS)]
  {
    var p := engine + ":" + voice + ":" + speedRepr + ":" + BoolRepr(align) + ":";
    assert KeyMaterial(t1, engine, voice, speedRepr, align) == p + TextKey(t1);
    assert KeyMaterial(t2, engine, voice, speedRepr, align) == p + TextKey(t2);
    if p + TextKey(t1) == p + TextKey(t2) {
      assert TextKey(t1) == (p + TextKey(t1))[|p|..];
      assert TextKey(t2) == (p + TextKey(t2))[|p|..];
    }
  }

  /** Texts longer than 500 characters that share their first 500 share a
      cache entry, whatever digest is used. */
  lemma CacheKeyIgnoresTail(md5: string -> string, t1: string, t2: string, engine: string,
                            voice: string, speedRepr: string, align: bool)
    requires |t1| >= KEY_TEXT_CHARS && |t2| >= KEY_TEXT_CHARS
    requires t1[..KEY_TEXT_CHARS] == t2[..KEY_TEXT_CHARS]
    ensures CacheKey(md5, t1, engine, voice, speedRepr, align) == CacheKey(md5, t2, engine, voice, speedRepr, align)
  {
    KeyMaterialText(t1, t2, engine, voice, speedRepr, align);
  }

  /** `cache_result`: evict the oldest entry when full, then store `data`
      stamped with `now`. */
  function CacheResult(c: Cache, key: string, data: seq<byte>, now: real): (r: Cache)
    ensures Lookup(r, key) == Some(Entry(data, now))
    ensures DistinctKeys(c) ==> DistinctKeys(r)
    ensures DistinctKeys(c) && |c| <= MAX_CACHE_SIZE ==> |r| <= MAX_CACHE_SIZE
  {
    Insert(c, key, Entry(data, now), MAX_CACHE_SIZE)
  }

  /** A hit is an entry younger than the TTL. */
  predicate Fresh(e: Entry<seq<byte>>, now: real)
  {
    now - e.timestamp < CACHE_TTL
  }

  /** `get_cached_result`: the cached bytes when present and fresh (the
      entry's timestamp is then refreshed to `now`); a stale entry is deleted
      and reported as a miss. Returns the result and the updated cache. */
  function GetCachedResult(c: Cache, key: string, now: real): (r: (Option<seq<byte>>, Cache))
    ensures r.0.Some? <==> Lookup(c, key).Some? && Fresh(Lookup(c, key).value, now)
    ensures r.0.Some? ==> r.0.value == Lookup(c, key).value.payload
    ensures r.0.Some? ==> Lookup(r.1, key) == Some(Entry(r.0.value, now)) && |r.1| == |c|
    ensures r.0.None? ==> Lookup(r.1, key) == None
    ensures DistinctKeys(c) ==> DistinctKeys(r.1)
    ensures DistinctKeys(c) ==> forall x :: x != key ==> Lookup(r.1, x) == Lookup(c, x)
  {
    match Lookup(c, key)
    case None => (None, c)
    case Some(e) =>
      if Fresh(e, now) then (Some(e.payload), Put(c, key, Entry(e.payload, now)))
      else (None, Delete(c, key))
  }

  /** `clear_old_cache`: drop every entry older than the TTL. */
  function ClearOldCache(c: Cache, now: real): (r: Cache)
    ensures |r| <= |c|
    ensures forall i :: 0 <= i < |r| ==> now - r[i].1.timestamp <= CACHE_TTL
    ensures forall i :: 0 <= i < |c| && now - c[i].1.timestamp <= CACHE_TTL ==> c[i] in r
    ensures forall i :: 0 <= i < |r| ==> r[i] in c
  {
    Filter(c, (e: Entry<seq<byte>>) => !(now - e.timestamp > CACHE_TTL))
  }

  /** The sweep goes entry by entry: sweeping a concatenation is sweeping
      each part, so the kept entries stay in their order. */
  lemma ClearOldCacheAppend(a: Cache, b: Cache, now: real)
    ensures ClearOldCache(a + b, now) == ClearOldCache(a, now) + ClearOldCache(b, now)
  {
    FilterAppend(a, b, (e: Entry<seq<byte>>) => !(now - e.timestamp > CACHE_TTL));
  }

  /** A single entry is kept exactly when it is at most an hour old. */
  lemma ClearOldCacheOne(key: string, e: Entry<seq<byte>>, now: real)
    ensures ClearOldCache([(key, e)], now) == if now - e.timestamp > CACHE_TTL then [] else [(key, e)]
  {
    assert [(key, e)][1..] == [];
  }

  /** A stored result is returned by a lookup within the hour, and the entry
      is gone after a lookup once the hour has passed. */
  lemma CacheThenGet(c: Cache, key: string, data: seq<byte>, t0: real, t1: real)
    ensures var r := GetCachedResult(CacheResult(c, key, data, t0), key, t1);
      (t1 - t0 < CACHE_TTL ==> r.0 == Some(data)) &&
      (t1 - t0 >= CACHE_TTL ==> r.0 == None && Lookup(r.1, key) == None)
  {
  }

  /** Storing into a full cache removes the least recently stamped entry
      (the first such in insertion order) and keeps every other one; when the
      key was already cached the eviction still happens, so the cache shrinks
      to 49 entries. */
  lemma CacheResultEvictsOldest(c: Cache, key: string, data: seq<byte>, now: real)
    requires DistinctKeys(c) && |c| == MAX_CACHE_SIZE
    ensures var old_ := OldestKey(c);
      var r := CacheResult(c, key, data, now);
      (forall i :: 0 <= i < |c| ==> Lookup(c, old_).value.timestamp <= c[i].1.timestamp) &&
      (old_ != key ==> Lookup(r, old_) == None) &&
      (old_ != key ==> |r| == if key in Keys(c) then MAX_CACHE_SIZE - 1 else MAX_CACHE_SIZE) &&
      (forall x :: x != key && x != old_ ==> Lookup(r, x) == Lookup(c, x))
  {
    LookupAt(c, OldestIndex(c));
    var d := Delete(c, OldestKey(c));
    if OldestKey(c) != key {
      assert OldestKey(c) in Keys(c);
    }
  }

  /** The background sweep never removes an entry a lookup would still
      accept, and it removes every entry more than an hour old. */
  lemma ClearKeepsHits(c: Cache, now: real, key: string)
    requires DistinctKeys(c)
    ensures var r := ClearOldCache(c, now);
      (Lookup(c, key).Some? && Fresh(Lookup(c, key).value, now) ==> Lookup(r, key) == Lookup(c, key)) &&
      (Lookup(c, key).Some? && now - Lookup(c, key).value.timestamp > CACHE_TTL ==> Lookup(r, key) == None)
  {
    FilterLookup(c, (e: Entry<seq<byte>>) => !(now - e.timestamp > CACHE_TTL), key);
  }

  /** An entry exactly one hour old survives the sweep but is already a miss
      for a lookup: the two comparisons differ at the boundary. */
  lemma TtlBoundary(data: seq<byte>)
    ensures var c := [("k", Entry(data, 0.0))];
      ClearOldCache(c, CACHE_TTL) == c && GetCachedResult(c, "k", CACHE_TTL).0 == None
  {
    var c := [("k", Entry(data, 0.0))];
    assert c[0] in ClearOldCache(c, CACHE_TTL);
  }
}

=== FILE: api_flow.dfy ===
/** The caption step of the `/synthesize` endpoint and its primer helper.
    After synthesis the endpoint writes `captions.srt` either through the
    forced aligner or from the chunk durations, and always converts it to
    `captions.vtt`. Unlike the command-line tool it sends only SHORT texts to
    the aligner, with a length bound that depends on the recommended engine.
    The ZIP packaging, the temporary files and FastAPI are not modelled. */
module ApiFlow {

  import opened Common
  import opened Text
  import opened Srt
  import opened Vtt
  import opened Align
  import opened CliFlow
  import Streaming

  // --------------------------------------------------------------- primer

  /** `_primer_silence(sr, ms)`: `int(sr * ms / 1000.0)` zero samples of
      16-bit audio; numpy refuses a negative count. */
  function PrimerSilence(sr: int, ms: int): (r: Option<seq<byte>>)
    ensures r.Some? <==> TruncDiv(sr * ms, 1000) >= 0
    ensures r.Some? ==> |r.value| == 2 * TruncDiv(sr * ms, 1000)
    ensures r.Some? ==> forall i :: 0 <= i < |r.value| ==> r.value[i] == 0
  {
    var n := TruncDiv(sr * ms, 1000);
    if n < 0 then None else Some(Zeros(2 * n))
  }

  /** The default 120 ms at 24 kHz is 2880 samples, 5760 bytes. */
  lemma PrimerDefault()
    ensures PrimerSilence(24000, 120) == Some(Zeros(5760))
  {
    assert TruncDiv(24000 * 120, 1000) == 2880;
  }

  /** The endpoint's primer and the raw stream's primer (which counts bytes
      first and rounds up to a whole sample) differ by at most one sample:
      the stream's is never shorter. */
  lemma PrimerVsStream(sr: nat, ms: nat)
    requires ms > 0
    ensures PrimerSilence(sr, ms).Some?
    ensures var api := |PrimerSilence(sr, ms).value|;
      var stream := Flatten(Streaming.PcmPrimer(sr, ms));
      |stream| == api || |stream| == api + 2
  {
    var n := (sr * ms) / 1000;
    var n0 := (sr * 2 * ms) / 1000;
    assert 2 * n <= n0 <= 2 * n + 1 by {
      assert sr * 2 * ms == 2 * (sr * ms);
      assert n * 1000 <= sr * ms < (n + 1) * 1000;
      assert 2 * n * 1000 <= sr * 2 * ms < (2 * n + 2) * 1000;
    }
    Streaming.PcmPrimerShape(sr, ms);
    var e := if n0 % 2 == 1 then n0 + 1 else n0;
    if e > 0 {
      assert Streaming.PcmPrimer(sr, ms) == [Zeros(e)];
      assert Flatten([Zeros(e)]) == Zeros(e) + Flatten([]);
    }
  }

  // ------------------------------------------------------------ decision

  /** Characters the aligner may handle when the recommended engine is
      `kokoro` (a modest machine) and otherwise. */
  const KokoroAlignLimit: int := 300
  const DefaultAlignLimit: int := 1000

  function AlignLimit(recommended: string): (r: int)
    ensures r == KokoroAlignLimit <==> recommended == "kokoro"
    ensures r == KokoroAlignLimit || r == DefaultAlignLimit
  {
    if recommended == "kokoro" then KokoroAlignLimit else DefaultAlignLimit
  }

  /** `align.lower() == "true" and not total_chars > mfa_threshold` */
  function RunsAligner(align: string, recommended: string, chunks: seq<string>): (r: bool)
    ensures r ==> Lower(align) == "true" && TotalChars(chunks) <= DefaultAlignLimit
    ensures TotalChars(chunks) <= KokoroAlignLimit ==> (r <==> Lower(align) == "true")
    ensures recommended == "kokoro" ==> (r <==> Lower(align) == "true" && TotalChars(chunks) <= KokoroAlignLimit)
    ensures recommended != "kokoro" ==> (r <==> Lower(align) == "true" && TotalChars(chunks) <= DefaultAlignLimit)
  {
    Lower(align) == "true" && TotalChars(chunks) <= AlignLimit(recommended)
  }

  /** The `align` form field is read without regard to case. */
  lemma AlignFlagCase()
    ensures forall chunks, rec :: RunsAligner("True", rec, chunks) == RunsAligner("true", rec, chunks)
    ensures forall chunks, rec :: RunsAligner("TRUE", rec, chunks) == RunsAligner("true", rec, chunks)
    ensures forall chunks, rec :: !RunsAligner("false", rec, chunks) && !RunsAligner("yes", rec, chunks)
  {
    assert Lower("True") == "true";
    assert Lower("TRUE") == "true";
    assert Lower("false") != "true" by { assert Lower("false")[0] == 'f'; }
    assert Lower("yes") != "true" by { assert |Lower("yes")| == 3; }
  }

  /** Whatever the recommended engine, a text the aligner takes on a modest
      machine is also taken on a capable one, and a text over 1000
      characters never reaches the aligner. */
  lemma AlignerLimits(align: string, recommended: string, chunks: seq<string>)
    ensures RunsAligner(align, "kokoro", chunks) ==> RunsAligner(align, recommended, chunks)
    ensures TotalChars(chunks) > DefaultAlignLimit ==> !RunsAligner(align, recommended, chunks)
  {
  }

  /** The command-line tool and the endpoint choose oppositely on long
      texts: above 1000 characters the tool (without fast mode) aligns and
      the endpoint never does; below 500 the tool never aligns. */
  lemma ToolAndEndpointDiffer(align: string, recommended: string, chunks: seq<string>)
    ensures TotalChars(chunks) > DefaultAlignLimit ==>
      !UseSimpleTiming(false, chunks) && !RunsAligner(align, recommended, chunks)
    ensures TotalChars(chunks) < AlignMinChars ==> UseSimpleTiming(false, chunks)
  {
  }

  /** `min(os.cpu_count() or 4, 8)`: the aligner's job count. */
  function AlignJobs(cpuCount: Option<nat>): (r: int)
    ensures cpuCount.Some? && 0 < cpuCount.value <= 8 ==> r == cpuCount.value
    ensures cpuCount.Some? && cpuCount.value > 8 ==> r == 8
    ensures 1 <= r <= 8
    ensures cpuCount.None? || cpuCount.value == 0 ==> r == 4
  {
    var c := if cpuCount.None? || cpuCount.value == 0 then 4 else cpuCount.value;
    Min(c, 8)
  }

  // ----------------------------------------------------------- durations

  /** `int(len(wav) / sr * 1000)` for every chunk: whole milliseconds,
      rounded down. */
  function DurationsMs(wavLens: seq<nat>, sr: int): (r: seq<int>)
    requires sr > 0
    ensures |r| == |wavLens|
    ensures forall i :: 0 <= i < |r| ==> 0 <= r[i] * sr <= wavLens[i] * 1000 < (r[i] + 1) * sr
  {
    seq(|wavLens|, i requires 0 <= i < |wavLens| => (wavLens[i] * 1000) / sr)
  }

  // ----------------------------------------------------------------- flow

  /** The caption files of `synthesize_full`. `wavs` holds the length of
      each chunk's audio buffer, `None` where synthesis left a placeholder.
      When the aligner is chosen it is run with the default models,
      `AlignJobs(cpuCount)` jobs and a single speaker (its inputs as in
      `Align.MfaAlignChunksToSrt`); if it fails for any reason, or is not
      chosen, the cues come from the whole-millisecond durations of all the
      buffers. Measuring a missing buffer raises TypeError, which the
      endpoint answers with an error response: no caption files (`None`).
      The VTT file is what `srt_to_vtt` makes of the SubRip file read back
      in text mode. */
  method EndpointCaptions(align: string, recommended: string, chunks: seq<string>, wavs: seq<Option<nat>>, sr: int,
                  cpuCount: Option<nat>, scratch: string, tools: Toolchain,
                  launch: Launch, grids: seq<Option<Tier>>)
    returns (srt: Option<string>, vtt: Option<string>, aligned: bool, cues: seq<Entry>)
    requires sr > 0
    ensures aligned <==> (RunsAligner(align, recommended, chunks) &&
      |chunks| == |wavs| && AllSome(wavs, |wavs|) && MfaPrefix(tools, DefaultCondaEnv).Ok? && launch == Exited(0) && AllSome(grids, |chunks|))
    ensures srt.None? <==> !AllSome(wavs, |wavs|)
    ensures aligned ==> srt == Some(SrtText(cues))
    ensures aligned ==> EntriesFor(cues, StripEach(chunks), Durations(Lengths(wavs), sr), Spans(grids, |chunks|))
    ensures !aligned && srt.Some? ==>
      srt.value == Join(SrtLines(chunks, DurationsMs(Lengths(wavs), sr), Min(|chunks|, |wavs|), Fmt), "\n")
    ensures vtt.Some? <==> srt.Some?
    ensures vtt.Some? ==> vtt.value == SrtFileToVtt(srt.value)
  {
    aligned := false;
    cues := [];
    srt := None;
    if RunsAligner(align, recommended, chunks) {
      var run, entries := MfaAlignChunksToSrt(chunks, wavs, sr, scratch, tools, DefaultCondaEnv, DefaultDict, DefaultAcoustic,
                                        AlignJobs(cpuCount), true, launch, grids);
      if run.outcome.Ok? {
        srt := Some(run.outcome.value);
        aligned := true;
        cues := entries;
      }
    }
    if !aligned && AllSome(wavs, |wavs|) {
      var text := SrtFromDurations(chunks, DurationsMs(Lengths(wavs), sr));
      srt := Some(text);
    }
    vtt := if srt.Some? then Some(SrtFileToVtt(srt.value)) else None;
  }
}

=== FILE: cache_table.dfy ===
/** The in-memory result caches of the source are Python dicts from key to
    {payload, timestamp}. A dict iterates in insertion order, `min(...)` picks
    the first entry with the smallest timestamp in that order, and assigning
    to an existing key keeps its position; so a table is modelled as an
    insertion-ordered sequence of (key, entry) pairs with distinct keys. */
module CacheTable {

  import opened Common

  datatype Entry<P> = Entry(payload: P, timestamp: real)

  type Table<P> = seq<(string, Entry<P>)>

  predicate DistinctKeys<P>(t: Table<P>)
  {
    forall i, j :: 0 <= i < j < |t| ==> t[i].0 != t[j].0
  }

  function Keys<P>(t: Table<P>): set<string>
  {
    set i | 0 <= i < |t| :: t[i].0
  }

  /** Position of `k` in the table. */
  function Find<P>(t: Table<P>, k: string): (r: Option<nat>)
    ensures r.Some? ==> r.value < |t| && t[r.value].0 == k
    ensures r.None? <==> k !in Keys(t)
  {
    if |t| == 0 then None
    else if t[0].0 == k then Some(0)
    else
      match Find(t[1..], k)
      case None =>
        KeysCons(t);
        None
      case Some(i) => Some(i + 1)
  }

  /** `k in d` then `d[k]` */
  function Lookup<P>(t: Table<P>, k: string): Option<Entry<P>>
  {
    match Find(t, k)
    case None => None
    case Some(i) => Some(t[i].1)
  }

  /** In a table with distinct keys the entry at any position is what a lookup
      of its key returns. */
  lemma LookupAt<P>(t: Table<P>, i: nat)
    requires DistinctKeys(t) && i < |t|
    ensures Lookup(t, t[i].0) == Some(t[i].1)
  {
    assert t[i].0 in Keys(t);
  }

  /** `d[k] = e`: overwrite in place when present, append otherwise. */
  function Put<P>(t: Table<P>, k: string, e: Entry<P>): (r: Table<P>)
    ensures Keys(r) == Keys(t) + {k}
    ensures |r| == if k in Keys(t) then |t| else |t| + 1
    ensures DistinctKeys(t) ==> DistinctKeys(r)
    ensures Lookup(r, k) == Some(e)
    ensures forall x :: x != k ==> Lookup(r, x) == Lookup(t, x)
  {
    match Find(t, k)
    case Some(i) =>
      var r := t[i := (k, e)];
      assert Keys(r) == Keys(t) by {
        forall x | x in Keys(t) ensures x in Keys(r) {
          var j :| 0 <= j < |t| && t[j].0 == x;
          assert r[j].0 == x;
        }
      }
      PutFind(t, i, k, e);
      r
    case None =>
      var r := t + [(k, e)];
      assert Keys(r) == Keys(t) + {k} by {
        assert r[|t|].0 == k;
        forall x | x in Keys(r) ensures x in Keys(t) + {k} {
          var j :| 0 <= j < |r| && r[j].0 == x;
          if j < |t| { assert t[j].0 == x; }
        }
        forall x | x in Keys(t) ensures x in Keys(r) {
          var j :| 0 <= j < |t| && t[j].0 == x;
          assert r[j].0 == x;
        }
      }
      AppendFind(t, k, e);
      r
  }

  lemma {:induction false} PutFind<P>(t: Table<P>, i: nat, k: string, e: Entry<P>)
    requires Find(t, k) == Some(i)
    ensures Find(t[i := (k, e)], k) == Some(i)
    ensures forall x :: x != k ==> Find(t[i := (k, e)], x) == Find(t, x)
  {
    if i > 0 {
      PutFind(t[1..], i - 1, k, e);
      assert t[i := (k, e)][1..] == t[1..][i - 1 := (k, e)];
    }
  }

  lemma {:induction false} AppendFind<P>(t: Table<P>, k: string, e: Entry<P>)
    requires k !in Keys(t)
    ensures Find(t + [(k, e)], k) == Some(|t|)
    ensures forall x :: x != k ==> Find(t + [(k, e)], x) == Find(t, x)
  {
    if |t| > 0 {
      assert (t + [(k, e)])[1..] == t[1..] + [(k, e)];
      KeysCons(t);
      AppendFind(t[1..], k, e);
    }
  }

  lemma KeysCons<P>(t: Table<P>)
    requires |t| > 0
    ensures Keys(t) == {t[0].0} + Keys(t[1..])
  {
    forall x | x in Keys(t) ensures x in {t[0].0} + Keys(t[1..]) {
      var i :| 0 <= i < |t| && t[i].0 == x;
      if i > 0 { assert t[1..][i - 1].0 == x; }
    }
    forall x | x in Keys(t[1..]) ensures x in Keys(t) {
      var i :| 0 <= i < |t[1..]| && t[1..][i].0 == x;
      assert t[i + 1].0 == x;
    }
  }

  lemma LookupCons<P>(t: Table<P>, x: string)
    requires |t| > 0
    ensures Lookup(t, x) == if t[0].0 == x then Some(t[0].1) else Lookup(t[1..], x)
  {
  }

  lemma DistinctCons<P>(t: Table<P>)
    requires |t| > 0
    ensures DistinctKeys(t) ==> DistinctKeys(t[1..]) && t[0].0 !in Keys(t[1..])
  {
    if DistinctKeys(t) {
      forall j | 0 <= j < |t[1..]| ensures t[1..][j].0 != t[0].0 {
        assert t[1..][j] == t[j + 1];
      }
    }
  }

  /** `del d[k]` */
  function Delete<P>(t: Table<P>, k: string): (r: Table<P>)
    ensures Keys(r) == Keys(t) - {k}
    ensures DistinctKeys(t) ==> |r| == if k in Keys(t) then |t| - 1 else |t|
    ensures |r| <= |t|
    ensures DistinctKeys(t) ==> DistinctKeys(r)
    ensures Lookup(r, k) == None
    ensures DistinctKeys(t) ==> forall x :: x != k ==> Lookup(r, x) == Lookup(t, x)
  {
    if |t| == 0 then []
    else
      var rest := Delete(t[1..], k);
      KeysCons(t);
      DistinctCons(t);
      if t[0].0 == k then
        assert DistinctKeys(t) ==> forall x :: x != k ==> Lookup(rest, x) == Lookup(t, x) by {
          forall x | x != k { LookupCons(t, x); }
        }
        rest
      else
        var r := [t[0]] + rest;
        assert r[1..] == rest;
        KeysCons(r);
        assert DistinctKeys(t) ==> DistinctKeys(r) by {
          if DistinctKeys(t) {
            forall i, j | 0 <= i < j < |r| ensures r[i].0 != r[j].0 {
              if i == 0 {
                assert r[j].0 in Keys(rest);
              }
            }
          }
        }
        assert forall x :: Lookup(r, x) == if t[0].0 == x then Some(t[0].1) else Lookup(rest, x) by {
          forall x { LookupCons(r, x); }
        }
        assert forall x :: Lookup(t, x) == if t[0].0 == x then Some(t[0].1) else Lookup(t[1..], x) by {
          forall x { LookupCons(t, x); }
        }
        r
  }

  /** Index of the entry `min(d.items(), key=timestamp)` returns: the first
      entry, in table order, whose timestamp is smallest. */
  function OldestIndex<P>(t: Table<P>): (r: nat)
    requires |t| > 0
    ensures r < |t|
    ensures forall i :: 0 <= i < |t| ==> t[r].1.timestamp <= t[i].1.timestamp
    ensures forall i :: 0 <= i < r ==> t[i].1.timestamp > t[r].1.timestamp
  {
    if |t| == 1 then 0
    else
      var j := OldestIndex(t[1..]) + 1;
      if t[0].1.timestamp <= t[j].1.timestamp then 0 else j
  }

  /** The key that capacity eviction removes. */
  function OldestKey<P>(t: Table<P>): string
    requires |t| > 0
  {
    t[OldestIndex(t)].0
  }

  /** `if len(d) >= capacity: del d[min(...)]` then `d[k] = e`. The eviction
      happens even when `k` is already present. */
  function Insert<P>(t: Table<P>, k: string, e: Entry<P>, capacity: nat): (r: Table<P>)
    requires capacity > 0
    ensures Lookup(r, k) == Some(e)
    ensures DistinctKeys(t) ==> DistinctKeys(r)
    ensures DistinctKeys(t) && |t| <= capacity ==> |r| <= capacity
    ensures |t| < capacity ==> forall x :: x != k ==> Lookup(r, x) == Lookup(t, x)
    ensures DistinctKeys(t) && |t| >= capacity ==>
      Lookup(r, OldestKey(t)) == (if OldestKey(t) == k then Some(e) else None) &&
      forall x :: x != k && x != OldestKey(t) ==> Lookup(r, x) == Lookup(t, x)
  {
    if |t| >= capacity then Put(Delete(t, OldestKey(t)), k, e)
    else Put(t, k, e)
  }

  /** Keeps exactly the entries satisfying `keep`, in order. */
  function Filter<P>(t: Table<P>, keep: Entry<P> -> bool): (r: Table<P>)
    ensures |r| <= |t|
    ensures forall i :: 0 <= i < |r| ==> keep(r[i].1)
    ensures forall i :: 0 <= i < |r| ==> r[i] in t
    ensures forall i :: 0 <= i < |t| && keep(t[i].1) ==> t[i] in r
  {
    if |t| == 0 then []
    else
      var rest := Filter(t[1..], keep);
      assert forall i :: 1 <= i < |t| ==> t[i] == t[1..][i - 1];
      if keep(t[0].1) then [t[0]] + rest else rest
  }

  /** Filtering a concatenation filters each part. */
  lemma {:induction false} FilterAppend<P>(a: Table<P>, b: Table<P>, keep: Entry<P> -> bool)
    ensures Filter(a + b, keep) == Filter(a, keep) + Filter(b, keep)
    decreases |a|
  {
    if |a| > 0 {
      assert (a + b)[1..] == a[1..] + b;
      assert (a + b)[0] == a[0];
      FilterAppend(a[1..], b, keep);
    } else {
      assert a + b == b;
    }
  }

  /** On a table with distinct keys, filtering keeps a key's entry exactly
      when the entry satisfies `keep`. */
  lemma {:induction false} FilterLookup<P>(t: Table<P>, keep: Entry<P> -> bool, x: string)
    requires DistinctKeys(t)
    ensures DistinctKeys(Filter(t, keep))
    ensures Lookup(Filter(t, keep), x) ==
      if Lookup(t, x).Some? && keep(Lookup(t, x).value) then Lookup(t, x) else None
  {
    if |t| > 0 {
      DistinctCons(t);
      FilterLookup(t[1..], keep, x);
      LookupCons(t, x);
      var rest := Filter(t[1..], keep);
      if keep(t[0].1) {
        var r := [t[0]] + rest;
        assert r[1..] == rest;
        LookupCons(r, x);
        KeysCons(r);
        FilterLookup(t[1..], keep, t[0].0);
        forall i, j | 0 <= i < j < |r| ensures r[i].0 != r[j].0 {
          if i == 0 { assert r[j].0 in Keys(rest); }
        }
      }
    }
  }
}

=== FILE: chunk_text.dfy ===
/** Greedy packing of sentences into synthesis chunks (app/utils/chunk_text.py).
    The sentence tokenizer is outside the model: the packer receives the
    tokenizer's output. A chunk is a run of consecutive sentences joined by
    single spaces; `PackRuns` is the run-level reference definition and
    `SplitSentences` is the source's string-buffer loop. */
module ChunkText {

  import opened Common
  import opened Text

  /** `[s.strip() for s in sents if s.strip()]` */
  function CleanSentences(sents: seq<string>): (r: seq<string>)
    ensures |r| <= |sents|
    ensures forall i :: 0 <= i < |r| ==> |r[i]| > 0 && !IsSpace(r[i][0]) && !IsSpace(r[i][|r[i]| - 1])
    ensures |sents| == 1 ==> r == if |Strip(sents[0])| > 0 then [Strip(sents[0])] else []
  {
    if |sents| == 0 then []
    else
      var rest := CleanSentences(sents[1..]);
      var s := Strip(sents[0]);
      if |s| > 0 then [s] + rest else rest
  }

  /** No sentences survive cleaning exactly when every tokenized sentence is blank. */
  lemma {:induction false} CleanSentencesEmpty(sents: seq<string>)
    ensures CleanSentences(sents) == [] <==> forall i :: 0 <= i < |sents| ==> |Strip(sents[i])| == 0
  {
    if |sents| > 0 {
      CleanSentencesEmpty(sents[1..]);
      assert forall i :: 1 <= i < |sents| ==> sents[i] == sents[1..][i - 1];
    }
  }

  /** Cleaning works sentence by sentence: the kept sentences of a
      concatenation are those of each part, in order. With the one-sentence
      case of `CleanSentences`, this says the result is exactly the stripped
      non-blank sentences in their original order. */
  lemma {:induction false} CleanSentencesAppend(a: seq<string>, b: seq<string>)
    ensures CleanSentences(a + b) == CleanSentences(a) + CleanSentences(b)
    decreases |a|
  {
    if |a| > 0 {
      assert (a + b)[1..] == a[1..] + b;
      assert (a + b)[0] == a[0];
      CleanSentencesAppend(a[1..], b);
    } else {
      assert a + b == b;
    }
  }

  predicate AllNonEmpty(sents: seq<string>)
  {
    forall i :: 0 <= i < |sents| ==> |sents[i]| > 0
  }

  /** The text of a chunk: its sentences joined by single spaces. */
  function Chunk(run: seq<string>): string
  {
    Join(run, " ")
  }

  /** Packing state after some sentences: closed runs and the open run (`buf`). */
  datatype PackState = PackState(done: seq<seq<string>>, cur: seq<string>)

  /** One iteration of the packing loop. */
  function Step(st: PackState, s: string, maxChars: int): PackState
  {
    if |st.cur| == 0 then PackState(st.done, [s])
    else if |Chunk(st.cur)| + 1 + |s| <= maxChars then PackState(st.done, st.cur + [s])
    else PackState(st.done + [st.cur], [s])
  }

  /** The state after the loop has consumed all of `sents`. */
  function Fold(sents: seq<string>, maxChars: int): PackState
  {
    if |sents| == 0 then PackState([], [])
    else Step(Fold(sents[..|sents| - 1], maxChars), sents[|sents| - 1], maxChars)
  }

  /** Runs of sentences, one per chunk: the final `if buf: chunks.append(buf)`. */
  function PackRuns(sents: seq<string>, maxChars: int): seq<seq<string>>
  {
    var st := Fold(sents, maxChars);
    if |st.cur| > 0 then st.done + [st.cur] else st.done
  }

  function Chunks(runs: seq<seq<string>>): (r: seq<string>)
    ensures |r| == |runs|
    ensures forall i :: 0 <= i < |r| ==> r[i] == Chunk(runs[i])
  {
    seq(|runs|, i requires 0 <= i < |runs| => Chunk(runs[i]))
  }

  // ---------------------------------------------------------------------------
  // Lengths of joined runs

  lemma {:induction false} JoinSnoc(xs: seq<string>, s: string)
    requires |xs| >= 1
    ensures Join(xs + [s], " ") == Join(xs, " ") + " " + s
    decreases |xs|
  {
    var ys := xs + [s];
    assert ys[0] == xs[0];
    if |xs| == 1 {
      assert ys[1..] == [s];
      assert Join(ys, " ") == xs[0] + " " + Join([s], " ");
    } else {
      assert ys[1..] == xs[1..] + [s];
      JoinSnoc(xs[1..], s);
      assert Join(ys, " ") == xs[0] + " " + Join(xs[1..] + [s], " ");
      assert Join(xs, " ") == xs[0] + " " + Join(xs[1..], " ");
    }
  }

  /** A chunk is at least as long as any of its sentences. */
  lemma {:induction false} ChunkCoversSentence(run: seq<string>, k: nat)
    requires k < |run|
    ensures |Chunk(run)| >= |run[k]|
    ensures |run| >= 2 ==> |Chunk(run)| > |run[k]|
    decreases |run|
  {
    if |run| > 1 {
      if k > 0 {
        ChunkCoversSentence(run[1..], k - 1);
      }
    }
  }

  /** A chunk of non-empty sentences is non-empty. */
  lemma ChunkNonEmpty(run: seq<string>)
    requires |run| >= 1 && |run[0]| > 0
    ensures |Chunk(run)| > 0
  {
    ChunkCoversSentence(run, 0);
  }

  // ---------------------------------------------------------------------------
  // Invariant of the packing loop

  /** What holds after every iteration: the runs, closed and open, are the
      consumed sentences in order; none is empty; multi-sentence runs fit;
      and each closed run was closed because the next sentence did not fit. */
  ghost predicate PackInv(st: PackState, consumed: seq<string>, maxChars: int)
  {
    && Flatten(st.done) + st.cur == consumed
    && (forall i :: 0 <= i < |st.done| ==> |st.done[i]| > 0)
    && (|consumed| > 0 <==> |st.cur| > 0)
    && (forall i :: 0 <= i < |st.done| ==> |st.done[i]| >= 2 ==> |Chunk(st.done[i])| <= maxChars)
    && (|st.cur| >= 2 ==> |Chunk(st.cur)| <= maxChars)
    && (forall i :: 0 <= i < |st.done| - 1 ==>
         |Chunk(st.done[i])| + 1 + |st.done[i + 1][0]| > maxChars)
    && (|st.done| > 0 ==> |Chunk(st.done[|st.done| - 1])| + 1 + |st.cur[0]| > maxChars)
  }

  /** One iteration keeps the invariant. */
  lemma StepInv(st: PackState, consumed: seq<string>, s: string, maxChars: int)
    requires PackInv(st, consumed, maxChars)
    ensures PackInv(Step(st, s, maxChars), consumed + [s], maxChars)
  {
    if |st.cur| == 0 {
      StepOpens(st, consumed, s, maxChars);
    } else if |Chunk(st.cur)| + 1 + |s| <= maxChars {
      StepExtends(st, consumed, s, maxChars);
    } else {
      StepCloses(st, consumed, s, maxChars);
    }
  }

  lemma StepOpens(st: PackState, consumed: seq<string>, s: string, maxChars: int)
    requires PackInv(st, consumed, maxChars) && |st.cur| == 0
    ensures PackInv(Step(st, s, maxChars), consumed + [s], maxChars)
  {
    assert consumed == [];
    assert st.done == [] by {
      if |st.done| > 0 {
        RunsCount(st.done);
      }
    }
  }

  lemma StepExtends(st: PackState, consumed: seq<string>, s: string, maxChars: int)
    requires PackInv(st, consumed, maxChars) && |st.cur| > 0
    requires |Chunk(st.cur)| + 1 + |s| <= maxChars
    ensures PackInv(Step(st, s, maxChars), consumed + [s], maxChars)
  {
    var st' := Step(st, s, maxChars);
    assert st' == PackState(st.done, st.cur + [s]);
    JoinSnoc(st.cur, s);
    assert st'.cur[0] == st.cur[0];
    assert |Chunk(st'.cur)| <= maxChars;
    assert Flatten(st'.done) + st'.cur == consumed + [s];
  }

  lemma StepCloses(st: PackState, consumed: seq<string>, s: string, maxChars: int)
    requires PackInv(st, consumed, maxChars) && |st.cur| > 0
    requires |Chunk(st.cur)| + 1 + |s| > maxChars
    ensures PackInv(Step(st, s, maxChars), consumed + [s], maxChars)
  {
    var st' := Step(st, s, maxChars);
    var d := st.done + [st.cur];
    assert st' == PackState(d, [s]);
    FlattenSnoc(st.done, st.cur);
    hide Step, Chunk, Flatten;
    assert Flatten(d) + [s] == consumed + [s];
    forall i | 0 <= i < |d|
      ensures |d[i]| > 0 && (|d[i]| >= 2 ==> |Chunk(d[i])| <= maxChars)
    {
      if i < |st.done| {
        assert d[i] == st.done[i];
      } else {
        assert d[i] == st.cur;
      }
    }
    forall i | 0 <= i < |d| - 1
      ensures |Chunk(d[i])| + 1 + |d[i + 1][0]| > maxChars
    {
      assert d[i] == st.done[i];
      if i + 1 < |st.done| {
        assert d[i + 1] == st.done[i + 1];
      } else {
        assert d[i + 1] == st.cur;
      }
    }
    assert d[|d| - 1] == st.cur;
  }

  lemma {:induction false} FoldInv(sents: seq<string>, maxChars: int)
    ensures PackInv(Fold(sents, maxChars), sents, maxChars)
    decreases |sents|
  {
    if |sents| == 0 {
      assert Flatten<string>([]) == [];
    } else {
      var pre := sents[..|sents| - 1];
      var s := sents[|sents| - 1];
      assert sents == pre + [s];
      FoldInv(pre, maxChars);
      StepInv(Fold(pre, maxChars), pre, s, maxChars);
    }
  }

  /** Properties of the packing, stated on runs of sentences. */
  lemma PackRunsProperties(sents: seq<string>, maxChars: int)
    ensures var runs := PackRuns(sents, maxChars);
      && Flatten(runs) == sents
      && (forall i :: 0 <= i < |runs| ==> |runs[i]| > 0)
      && (forall i :: 0 <= i < |runs| ==> |runs[i]| >= 2 ==> |Chunk(runs[i])| <= maxChars)
      && (forall i :: 0 <= i < |runs| - 1 ==> |Chunk(runs[i])| + 1 + |runs[i + 1][0]| > maxChars)
  {
    FoldInv(sents, maxChars);
    var st := Fold(sents, maxChars);
    assert PackRuns(sents, maxChars) == if |st.cur| > 0 then st.done + [st.cur] else st.done;
    hide PackRuns, Fold;
    if |st.cur| > 0 {
      ClosedRuns(st, sents, maxChars);
    } else {
      assert Flatten(st.done) == sents;
    }
  }

  /** Closing the open run of a packing state gives runs with the packing's properties. */
  lemma ClosedRuns(st: PackState, sents: seq<string>, maxChars: int)
    requires PackInv(st, sents, maxChars) && |st.cur| > 0
    ensures var runs := st.done + [st.cur];
      && Flatten(runs) == sents
      && (forall i :: 0 <= i < |runs| ==> |runs[i]| > 0)
      && (forall i :: 0 <= i < |runs| ==> |runs[i]| >= 2 ==> |Chunk(runs[i])| <= maxChars)
      && (forall i :: 0 <= i < |runs| - 1 ==> |Chunk(runs[i])| + 1 + |runs[i + 1][0]| > maxChars)
  {
    var runs := st.done + [st.cur];
    FlattenSnoc(st.done, st.cur);
    assert forall i :: 0 <= i < |st.done| ==> runs[i] == st.done[i];
    assert runs[|runs| - 1] == st.cur;
  }

  /** The number of runs is between 1 and the number of sentences (none for no sentences). */
  lemma PackRunsCount(sents: seq<string>, maxChars: int)
    requires AllNonEmpty(sents)
    ensures |sents| == 0 ==> PackRuns(sents, maxChars) == []
    ensures |sents| > 0 ==> 1 <= |PackRuns(sents, maxChars)| <= |sents|
  {
    PackRunsProperties(sents, maxChars);
    var runs := PackRuns(sents, maxChars);
    FoldInv(sents, maxChars);
    RunsCount(runs);
  }

  /** Non-empty runs cannot outnumber the items they flatten to. */
  lemma {:induction false} RunsCount(runs: seq<seq<string>>)
    requires forall i :: 0 <= i < |runs| ==> |runs[i]| > 0
    ensures |runs| <= |Flatten(runs)|
  {
    if |runs| > 0 {
      RunsCount(runs[1..]);
    }
  }

  /** A sentence longer than `maxChars` is always a chunk on its own. */
  lemma LongSentenceAlone(sents: seq<string>, maxChars: int, i: nat, k: nat)
    requires i < |PackRuns(sents, maxChars)| && k < |PackRuns(sents, maxChars)[i]|
    requires |PackRuns(sents, maxChars)[i][k]| > maxChars
    ensures PackRuns(sents, maxChars)[i] == [PackRuns(sents, maxChars)[i][k]]
  {
    PackRunsProperties(sents, maxChars);
    var run := PackRuns(sents, maxChars)[i];
    ChunkCoversSentence(run, k);
    assert |run| == 1;
  }

  // ---------------------------------------------------------------------------
  // The source's loop over a string buffer

  /** The open run never starts with an empty sentence, so the source's test
      `if not buf` is the same as "no open run". */
  lemma BufEmptyIffNoRun(sents: seq<string>, i: nat, maxChars: int)
    requires AllNonEmpty(sents) && i <= |sents|
    ensures var st := Fold(sents[..i], maxChars);
      |Chunk(st.cur)| == 0 <==> |st.cur| == 0
  {
    var st := Fold(sents[..i], maxChars);
    FoldInv(sents[..i], maxChars);
    if |st.cur| > 0 {
      assert st.cur[0] == sents[..i][|Flatten(st.done)|];
      ChunkNonEmpty(st.cur);
    }
  }

  /** Every chunk of non-empty sentences is non-empty. */
  lemma ChunksNonEmpty(sents: seq<string>, maxChars: int)
    requires AllNonEmpty(sents)
    ensures forall j :: 0 <= j < |PackRuns(sents, maxChars)| ==> |Chunk(PackRuns(sents, maxChars)[j])| > 0
  {
    var runs := PackRuns(sents, maxChars);
    PackRunsProperties(sents, maxChars);
    forall j | 0 <= j < |runs|
      ensures |Chunk(runs[j])| > 0
    {
      FlattenMember(runs, j, 0);
      ChunkNonEmpty(runs[j]);
    }
  }

  /** `split_sentences(text, max_chars)` given the tokenizer's sentences:
      the loop keeps the open chunk as a string `buf`, exactly as the source does. */
  method SplitSentences(tokenized: seq<string>, maxChars: int) returns (chunks: seq<string>)
    ensures chunks == Chunks(PackRuns(CleanSentences(tokenized), maxChars))
    ensures forall i :: 0 <= i < |chunks| ==> |chunks[i]| > 0
    ensures |chunks| <= |CleanSentences(tokenized)|
    ensures CleanSentences(tokenized) == [] <==> chunks == []
  {
    var sents := CleanSentences(tokenized);
    chunks := [];
    var buf := "";
    var i := 0;
    while i < |sents|
      invariant 0 <= i <= |sents|
      invariant chunks == Chunks(Fold(sents[..i], maxChars).done)
      invariant buf == Chunk(Fold(sents[..i], maxChars).cur)
    {
      ghost var st := Fold(sents[..i], maxChars);
      var s := sents[i];
      FoldSnoc(sents, i, maxChars);
      BufEmptyIffNoRun(sents, i, maxChars);
      StepChunks(st, s, maxChars);
      hide Fold, Step, Chunk, Chunks;
      if |buf| == 0 {
        buf := s;
      } else if |buf| + 1 + |s| <= maxChars {
        buf := buf + " " + s;
      } else {
        chunks := chunks + [buf];
        buf := s;
      }
      i := i + 1;
    }
    assert sents[..i] == sents;
    PackRunsChunks(sents, maxChars);
    if |buf| > 0 {
      chunks := chunks + [buf];
    }
    ChunksNonEmpty(sents, maxChars);
    PackRunsCount(sents, maxChars);
  }

  /** The loop consumes one more sentence. */
  lemma FoldSnoc(sents: seq<string>, i: nat, maxChars: int)
    requires i < |sents|
    ensures Fold(sents[..i + 1], maxChars) == Step(Fold(sents[..i], maxChars), sents[i], maxChars)
  {
    assert sents[..i + 1][..i] == sents[..i];
  }

  /** The chunk texts after one step, branch by branch. */
  lemma StepChunks(st: PackState, s: string, maxChars: int)
    ensures |st.cur| == 0 ==>
      Chunks(Step(st, s, maxChars).done) == Chunks(st.done) && Chunk(Step(st, s, maxChars).cur) == s
    ensures |st.cur| > 0 && |Chunk(st.cur)| + 1 + |s| <= maxChars ==>
      Chunks(Step(st, s, maxChars).done) == Chunks(st.done) &&
      Chunk(Step(st, s, maxChars).cur) == Chunk(st.cur) + " " + s
    ensures |st.cur| > 0 && |Chunk(st.cur)| + 1 + |s| > maxChars ==>
      Chunks(Step(st, s, maxChars).done) == Chunks(st.done) + [Chunk(st.cur)] &&
      Chunk(Step(st, s, maxChars).cur) == s
  {
    if |st.cur| > 0 && |Chunk(st.cur)| + 1 + |s| <= maxChars {
      JoinSnoc(st.cur, s);
    }
  }

  /** The chunk texts of the final runs: the closed runs, then the open one
      when it holds any text. */
  lemma PackRunsChunks(sents: seq<string>, maxChars: int)
    requires AllNonEmpty(sents)
    ensures var st := Fold(sents, maxChars);
      Chunks(PackRuns(sents, maxChars)) ==
      if |Chunk(st.cur)| > 0 then Chunks(st.done) + [Chunk(st.cur)] else Chunks(st.done)
  {
    BufEmptyIffNoRun(sents, |sents|, maxChars);
    assert sents[..|sents|] == sents;
  }

  /** Each item of each run appears in the flattened sequence. */
  lemma {:induction false} FlattenMember(runs: seq<seq<string>>, j: nat, k: nat)
    requires j < |runs| && k < |runs[j]|
    ensures runs[j][k] in Flatten(runs)
  {
    if j > 0 {
      FlattenMember(runs[1..], j - 1, k);
    }
  }
}

=== FILE: cli_flow.dfy ===
/** The caption step of the command-line tool: after synthesis it writes
    `captions.srt` either with simple timing (each chunk lasts exactly as long
    as its audio) or through the forced aligner, and then `captions.vtt`
    when the format list asks for it. Argument parsing, text extraction,
    synthesis and the full WAV file are outside this module. */
module CliFlow {

  import opened Common
  import opened Text
  import opened Srt
  import opened Vtt
  import opened Align

  /** Texts shorter than this (in characters, over all chunks) skip the aligner. */
  const AlignMinChars: int := 500

  /** `sum(len(chunk) for chunk in chunks)` */
  function TotalChars(chunks: seq<string>): (r: nat)
  {
    if |chunks| == 0 then 0 else TotalChars(chunks[..|chunks| - 1]) + |chunks[|chunks| - 1]|
  }

  /** `args.fast_mode or total_chars < 500` */
  predicate UseSimpleTiming(fastMode: bool, chunks: seq<string>)
  {
    fastMode || TotalChars(chunks) < AlignMinChars
  }

  /** Fast mode always uses simple timing; without it the aligner runs from
      500 characters on, whatever the number of chunks. */
  lemma {:induction false} TotalCharsBound(chunks: seq<string>, i: nat)
    requires i < |chunks|
    ensures TotalChars(chunks) >= |chunks[i]|
    ensures |chunks[i]| >= AlignMinChars ==> !UseSimpleTiming(false, chunks)
  {
    var n := |chunks| - 1;
    if i < n {
      TotalCharsBound(chunks[..n], i);
    }
  }

  /** `"vtt" in args.format.split(",")`: an exact field, spaces included. */
  predicate VttRequested(format: string)
  {
    "vtt" in Split(format, ",")
  }

  /** For a comma-joined list of fields without commas, VTT is written exactly
      when one field is literally `vtt`. */
  lemma VttGate(fields: seq<string>)
    requires |fields| >= 1
    requires forall i :: 0 <= i < |fields| ==> ',' !in fields[i]
    ensures VttRequested(Join(fields, ",")) <==> "vtt" in fields
  {
    JoinSplit(fields, ',');
  }

  /** The default `srt,vtt` writes both files; `srt, vtt` (with a space) does
      not write the VTT file. */
  lemma VttGateExamples()
    ensures VttRequested("srt,vtt")
    ensures !VttRequested("srt, vtt")
  {
    VttGate(["srt", "vtt"]);
    VttGate(["srt", " vtt"]);
    assert Join(["srt", "vtt"], ",") == "srt,vtt";
    assert Join(["srt", " vtt"], ",") == "srt, vtt";
  }

  // ------------------------------------------------------- simple timing

  /** The cues `_create_simple_srt` writes: chunk `i` runs from the total
      duration of the chunks before it for its own duration. Only as many
      cues as there are pairs of chunk and audio. */
  function SimpleCues(texts: seq<string>, durs: seq<real>): (r: seq<Entry>)
  {
    var n := Min(|texts|, |durs|);
    seq(n, i requires 0 <= i < n => (SumTo(durs, i), SumTo(durs, i) + durs[i], texts[i]))
  }

  lemma SimpleCueAt(texts: seq<string>, durs: seq<real>, i: nat)
    requires i < |texts| && i < |durs|
    ensures |SimpleCues(texts, durs)| == Min(|texts|, |durs|)
    ensures SimpleCues(texts, durs)[i] == (SumTo(durs, i), SumTo(durs, i) + durs[i], texts[i])
  {
  }

  /** `_create_simple_srt`: the loop that writes one cue per chunk, carrying
      the running offset; `texts` are the stripped chunks, `durs` the
      durations of their audio and `fmt` the timestamp formatter (the
      source's `fmt_srt`, which is `FmtSeconds`). */
  method CreateSimpleSrt(texts: seq<string>, durs: seq<real>, fmt: real -> string) returns (text: string)
    ensures text == SrtTextTo(SimpleCues(texts, durs), Min(|texts|, |durs|), fmt)
  {
    hide SimpleCues, SrtTextTo, SumTo, CueText;
    var cues := SimpleCues(texts, durs);
    var n := Min(|texts|, |durs|);
    SimpleStart(texts, durs, fmt);
    text := "";
    var offset := 0.0;
    var i := 0;
    while i < n
      invariant 0 <= i <= n == |cues|
      invariant offset == SumTo(durs, i)
      invariant text == SrtTextTo(cues, i, fmt)
    {
      var duration := durs[i];
      SimpleStep(texts, durs, fmt, i);
      var cue := (offset, offset + duration, texts[i]);
      text := text + CueText(i + 1, cue, fmt);
      offset := offset + duration;
      i := i + 1;
    }
  }

  /** Before the loop: no cue written, no time elapsed. */
  lemma SimpleStart(texts: seq<string>, durs: seq<real>, fmt: real -> string)
    ensures |SimpleCues(texts, durs)| == Min(|texts|, |durs|)
    ensures SrtTextTo(SimpleCues(texts, durs), 0, fmt) == "" && SumTo(durs, 0) == 0.0
  {
  }

  /** One turn of the loop: cue `i` starts at the running offset. */
  lemma SimpleStep(texts: seq<string>, durs: seq<real>, fmt: real -> string, i: nat)
    requires i < |texts| && i < |durs|
    ensures |SimpleCues(texts, durs)| == Min(|texts|, |durs|)
    ensures SrtTextTo(SimpleCues(texts, durs), i + 1, fmt) ==
      SrtTextTo(SimpleCues(texts, durs), i, fmt) + CueText(i + 1, (SumTo(durs, i), SumTo(durs, i) + durs[i], texts[i]), fmt)
    ensures SumTo(durs, i + 1) == SumTo(durs, i) + durs[i]
  {
    SimpleCueAt(texts, durs, i);
  }

  /** Simple timing is the aligner's timing for spans that cover each whole
      utterance: `(0, duration)`. */
  lemma SimpleIsWholeSpans(texts: seq<string>, durs: seq<real>)
    requires |durs| >= |texts|
    ensures EntriesFor(SimpleCues(texts, durs), texts, durs,
                       seq(|texts|, i requires 0 <= i < |texts| => (0.0, durs[i])))
  {
  }

  /** Simple cues start at zero, follow one another without gap or overlap,
      and the last ends at the total audio duration. */
  lemma SimpleContiguous(texts: seq<string>, durs: seq<real>)
    requires |texts| == |durs| && |durs| > 0
    requires forall i :: 0 <= i < |durs| ==> durs[i] >= 0.0
    ensures SimpleCues(texts, durs)[0].0 == 0.0
    ensures forall i :: 0 <= i < |durs| - 1 ==> SimpleCues(texts, durs)[i].1 == SimpleCues(texts, durs)[i + 1].0
    ensures SimpleCues(texts, durs)[|durs| - 1].1 == SumTo(durs, |durs|)
    ensures forall i :: 0 <= i < |durs| ==> SimpleCues(texts, durs)[i].0 <= SimpleCues(texts, durs)[i].1
  {
  }

  // ---------------------------------------------------------------- flow

  /** The caption files `main` writes once the audio is synthesised. `wavs`
      holds the length of each chunk's audio buffer, `None` where synthesis
      left a placeholder. With simple timing, `_create_simple_srt` pairs
      chunks and buffers with `zip` and raises TypeError on the first missing
      buffer it meets. Otherwise the aligner runs with the default models,
      `--num-jobs` jobs and `--single-speaker` (its other inputs as in
      `Align.MfaAlignChunksToSrt`). Any exception ends the run before a VTT
      file is written; when asked for, the VTT file is what `srt_to_vtt`
      makes of the SubRip file read back in text mode. */
  method Captions(fastMode: bool, format: string, chunks: seq<string>, wavs: seq<Option<nat>>, sr: int,
                  numJobs: int, singleSpeaker: bool, scratch: string, tools: Toolchain,
                  launch: Launch, grids: seq<Option<Tier>>)
    returns (srt: Result<string, AlignError>, vtt: Option<string>, cues: seq<Entry>)
    requires sr > 0
    ensures srt.Ok? ==> srt.value == SrtText(cues)
    ensures UseSimpleTiming(fastMode, chunks) ==> (srt.Ok? <==> AllSome(wavs, Min(|chunks|, |wavs|)))
    ensures UseSimpleTiming(fastMode, chunks) && srt.Ok? ==>
      cues == SimpleCues(StripEach(chunks), Durations(Lengths(wavs), sr))
    ensures UseSimpleTiming(fastMode, chunks) && srt.Err? ==>
      srt.error == MissingAudio(FirstMissing(wavs, Min(|chunks|, |wavs|)).value)
    ensures !UseSimpleTiming(fastMode, chunks) ==> (srt.Ok? <==>
      |chunks| == |wavs| && AllSome(wavs, |wavs|) && MfaPrefix(tools, DefaultCondaEnv).Ok? && launch == Exited(0) && AllSome(grids, |chunks|))
    ensures !UseSimpleTiming(fastMode, chunks) && srt.Ok? ==>
      EntriesFor(cues, StripEach(chunks), Durations(Lengths(wavs), sr), Spans(grids, |chunks|))
    ensures !UseSimpleTiming(fastMode, chunks) && |chunks| != |wavs| ==> srt == Err(LengthMismatch)
    ensures !UseSimpleTiming(fastMode, chunks) && |chunks| == |wavs| && !AllSome(wavs, |wavs|) ==>
      srt == Err(MissingAudio(FirstMissing(wavs, |wavs|).value))
    ensures vtt.Some? <==> srt.Ok? && VttRequested(format)
    ensures vtt.Some? ==> vtt.value == SrtFileToVtt(srt.value)
  {
    cues := [];
    if UseSimpleTiming(fastMode, chunks) {
      match FirstMissing(wavs, Min(|chunks|, |wavs|)) {
        case Some(k) =>
          srt := Err(MissingAudio(k));
        case None =>
          var texts, durs := StripEach(chunks), Durations(Lengths(wavs), sr);
          var text := CreateSimpleSrt(texts, durs, FmtSeconds);
          cues := SimpleCues(texts, durs);
          srt := Ok(text);
      }
    } else {
      var run, entries := MfaAlignChunksToSrt(chunks, wavs, sr, scratch, tools, DefaultCondaEnv, DefaultDict, DefaultAcoustic,
                                              numJobs, singleSpeaker, launch, grids);
      srt := run.outcome;
      cues := entries;
    }
    if srt.Ok? && VttRequested(format) {
      vtt := Some(SrtFileToVtt(srt.value));
    } else {
      vtt := None;
    }
  }
}

=== FILE: common.dfy ===
/** Shared vocabulary of the model: bytes, optional values and the small
    sequence functions (flattening, sums, zero blocks) every component uses. */
module Common {

  /** An unsigned 8-bit value, as Python's `bytes` holds them. */
  type byte = b: int | 0 <= b < 256

  datatype Option<+T> = None | Some(value: T)

  /** A value or the exception the source raises instead of returning. */
  datatype Result<+T, +E> = Ok(value: T) | Err(error: E)

  /** The first `n` slots exist and hold a value. */
  predicate AllSome<T>(xs: seq<Option<T>>, n: nat)
  {
    forall k :: 0 <= k < n ==> k < |xs| && xs[k].Some?
  }

  /** The first of the first `n` slots that is absent or holds nothing: where
      a loop over them that needs every value stops. */
  function FirstMissing<T>(xs: seq<Option<T>>, n: nat): (r: Option<nat>)
    ensures r.Some? ==> r.value < n && (r.value >= |xs| || xs[r.value].None?)
    ensures r.Some? ==> AllSome(xs, r.value)
    ensures r.None? <==> AllSome(xs, n)
  {
    if n == 0 then None
    else
      AllSomeStep(xs, n);
      match FirstMissing(xs, n - 1)
      case Some(k) => Some(k)
      case None => if n - 1 >= |xs| || xs[n - 1].None? then Some(n - 1) else None
  }

  lemma AllSomeStep<T>(xs: seq<Option<T>>, n: nat)
    requires n > 0
    ensures AllSome(xs, n) <==> AllSome(xs, n - 1) && n - 1 < |xs| && xs[n - 1].Some?
  {
  }

  /** Concatenation of all blocks in order (`b"".join(blocks)`). */
  function Flatten<T>(xss: seq<seq<T>>): seq<T>
  {
    if |xss| == 0 then [] else xss[0] + Flatten(xss[1..])
  }

  lemma {:induction false} FlattenAppend<T>(a: seq<seq<T>>, b: seq<seq<T>>)
    ensures Flatten(a + b) == Flatten(a) + Flatten(b)
  {
    if |a| == 0 {
      assert a + b == b;
    } else {
      assert (a + b)[1..] == a[1..] + b;
      FlattenAppend(a[1..], b);
    }
  }

  /** Flattening distributes over a split point. */
  lemma FlattenSplit<T>(xs: seq<seq<T>>, k: nat)
    requires k <= |xs|
    ensures Flatten(xs) == Flatten(xs[..k]) + Flatten(xs[k..])
  {
    assert xs == xs[..k] + xs[k..];
    FlattenAppend(xs[..k], xs[k..]);
  }

  lemma FlattenSingle<T>(x: seq<T>)
    ensures Flatten([x]) == x
  {
    assert [x][1..] == [];
  }

  /** The blocks "`x` if it is non-empty, then `tail`" concatenate to `x + Flatten(tail)`. */
  lemma FlattenMaybeCons<T>(x: seq<T>, tail: seq<seq<T>>)
    ensures Flatten((if |x| > 0 then [x] else []) + tail) == x + Flatten(tail)
  {
    if |x| > 0 {
      FlattenAppend([x], tail);
      FlattenSingle(x);
    } else {
      assert [] + tail == tail;
    }
  }

  /** Flatten of a prefix extended by one block. */
  lemma FlattenSnoc<T>(a: seq<seq<T>>, x: seq<T>)
    ensures Flatten(a + [x]) == Flatten(a) + x
  {
    FlattenAppend(a, [x]);
    FlattenSingle(x);
  }

  function Sum(xs: seq<int>): int
  {
    if |xs| == 0 then 0 else xs[0] + Sum(xs[1..])
  }

  lemma {:induction false} SumSnoc(xs: seq<int>, x: int)
    ensures Sum(xs + [x]) == Sum(xs) + x
  {
    if |xs| == 0 {
      assert xs + [x] == [x];
    } else {
      assert (xs + [x])[1..] == xs[1..] + [x];
      SumSnoc(xs[1..], x);
    }
  }

  /** The sum of a prefix grows by the next element. */
  lemma SumPrefixStep(xs: seq<int>, i: nat)
    requires i < |xs|
    ensures Sum(xs[..i + 1]) == Sum(xs[..i]) + xs[i]
  {
    assert xs[..i + 1] == xs[..i] + [xs[i]];
    SumSnoc(xs[..i], xs[i]);
  }

  /** `b"\x00" * n` */
  function Zeros(n: nat): seq<byte>
  {
    seq(n, _ => 0)
  }

  function Min(a: int, b: int): int { if a <= b then a else b }

  function Max(a: int, b: int): int { if a >= b then a else b }

  /** Python's `int(q)` applied to the exact quotient `a / b`: truncation toward zero. */
  function TruncDiv(a: int, b: int): int
    requires b > 0
  {
    if a >= 0 then a / b else -((-a) / b)
  }

  /** Python's `round()` on an exact value: nearest integer, ties to even. */
  function RoundHalfEven(x: real): (r: int)
    ensures -0.5 <= x - r as real <= 0.5
    ensures x - r as real == 0.5 ==> r % 2 == 0
    ensures x - r as real == -0.5 ==> r % 2 == 0
  {
    var f := x.Floor;
    var d := x - f as real;
    if d < 0.5 then f
    else if d > 0.5 then f + 1
    else if f % 2 == 0 then f else f + 1
  }

  /** Rounding never reverses the order of its arguments. */
  lemma RoundMonotone(x: real, y: real)
    requires x <= y
    ensures RoundHalfEven(x) <= RoundHalfEven(y)
  {
  }

  /** A slice of a window of `s` is the matching slice of `s`. */
  lemma SliceWithin<T>(s: seq<T>, p: nat, w: seq<T>, i: nat, j: nat)
    requires p + |w| <= |s| && s[p..p + |w|] == w && i <= j <= |w|
    ensures s[p + i..p + j] == w[i..j]
  {
    forall k | 0 <= k < j - i ensures s[p + i..p + j][k] == w[i..j][k] {
      assert s[p + i + k] == s[p..p + |w|][i + k];
    }
  }

  /** A sequence is its three consecutive slices put back together. */
  lemma ThreeSlices<T>(s: seq<T>, i: nat, j: nat)
    requires i <= j <= |s|
    ensures s == s[..i] + s[i..j] + s[j..]
  {
    assert s[..i] + s[i..j] == s[..j];
  }

  /** Concatenation is associative. */
  lemma ConcatAssoc<T>(a: seq<T>, b: seq<T>, c: seq<T>)
    ensures a + (b + c) == (a + b) + c
  {
  }
}

=== FILE: cross_stream.dfy ===
/** The cross-lingual CosyVoice2 stream re-framer (`_iter_bytes`): whatever
    the back-end yields per segment (raw bytes, dicts, pairs or arrays) is cut
    into PCM16 blocks of about 30 ms. The generator is modelled as the full
    sequence of blocks it yields. */
module CrossStream {

  import opened Common
  import opened Streaming
  import opened Synthesize

  /** `max(1, target_sr // 33)` samples, about 30 ms at 24 kHz. */
  const FRAME: nat := 727

  /** Bytes per frame of mono 16-bit samples. */
  const STEP: nat := 2 * FRAME

  lemma FrameIsThirtyMilliseconds()
    ensures Max(1, TARGET_SR / 33) == FRAME && STEP == 1454
  {
  }

  /** Consecutive pieces of at most `n` items: `s[i:i+n]` for `i` in
      `range(0, len(s), n)`, which is also what the `while i < n` sample
      loop cuts. */
  function Frames<T>(s: seq<T>, n: nat): (r: seq<seq<T>>)
    requires n > 0
    ensures Flatten(r) == s
    ensures forall i :: 0 <= i < |r| ==> 0 < |r[i]| <= n
    ensures forall i :: 0 <= i < |r| - 1 ==> |r[i]| == n
    ensures |r| == 0 <==> |s| == 0
    decreases |s|
  {
    if |s| == 0 then []
    else if |s| <= n then
      FlattenSingle(s);
      [s]
    else
      var rest := Frames(s[n..], n);
      FlattenAppend([s[..n]], rest);
      FlattenSingle(s[..n]);
      assert s == s[..n] + s[n..];
      [s[..n]] + rest
  }

  // ---------------------------------------------------------------------
  // float32 to little-endian int16

  /** The two little-endian bytes of a sample, in two's complement. */
  function SampleBytes(x: real): (r: seq<byte>)
    ensures |r| == 2
  {
    LE16(SampleValue(x) % 65536)
  }

  /** Reading two bytes back as a signed 16-bit value (`"<i2"`). */
  function ReadSigned16(b: seq<byte>): int
    requires |b| == 2
  {
    var u := ReadLE16(b);
    if u >= 32768 then u - 65536 else u
  }

  /** Every sample reads back as the value it was quantised to. */
  lemma SampleBytesRoundTrip(x: real)
    ensures ReadSigned16(SampleBytes(x)) == SampleValue(x)
  {
    var v := SampleValue(x);
    LE16RoundTrip(v % 65536);
  }

  /** `_float_to_pcm16_bytes` */
  function Pcm16(x: Audio): (r: seq<byte>)
    ensures |r| == 2 * |x|
    ensures forall i :: 0 <= i < |x| ==> r[2 * i..2 * i + 2] == SampleBytes(x[i])
  {
    if |x| == 0 then []
    else
      var rest := Pcm16(x[1..]);
      var r := SampleBytes(x[0]) + rest;
      assert forall i :: 1 <= i < |x| ==> r[2 * i..2 * i + 2] == rest[2 * (i - 1)..2 * (i - 1) + 2];
      r
  }

  /** Converting a buffer piecewise gives the conversion of the whole. */
  lemma {:induction false} Pcm16Append(a: Audio, b: Audio)
    ensures Pcm16(a + b) == Pcm16(a) + Pcm16(b)
  {
    if |a| == 0 {
      assert a + b == b;
    } else {
      assert (a + b)[1..] == a[1..] + b;
      Pcm16Append(a[1..], b);
    }
  }

  /** Converting frame by frame gives the conversion of the buffer. */
  lemma {:induction false} Pcm16Frames(frames: seq<Audio>)
    ensures Flatten(seq(|frames|, i requires 0 <= i < |frames| => Pcm16(frames[i]))) == Pcm16(Flatten(frames))
  {
    var conv := seq(|frames|, i requires 0 <= i < |frames| => Pcm16(frames[i]));
    if |frames| > 0 {
      Pcm16Frames(frames[1..]);
      assert conv[1..] == seq(|frames[1..]|, i requires 0 <= i < |frames[1..]| => Pcm16(frames[1..][i]));
      Pcm16Append(frames[0], Flatten(frames[1..]));
    }
  }

  // ---------------------------------------------------------------------
  // Segments

  /** `int(sr)` either succeeds or raises (and the rate stays at 24 kHz). */
  datatype SrField = SrInt(v: int) | SrUnconvertible

  /** What the streaming back-end may yield. */
  datatype Segment =
    | SegBytes(b: seq<byte>)
    | SegDict(fields: map<string, Payload>, sr: Option<SrField>)
    | SegPair(arr: Payload, rate: SrField)
    | SegOther(arr: Payload)

  function RateOf(f: SrField): int
  {
    if f.SrInt? then f.v else TARGET_SR
  }

  /** A raw byte segment: skipped when empty, padded to even length, then cut
      into `STEP`-byte pieces, each re-padded if odd (which never happens). */
  function ByteBlocks(b: seq<byte>): (r: seq<seq<byte>>)
  {
    if |b| == 0 then []
    else
      var pieces := Frames(PadEven(b), STEP);
      seq(|pieces|, i requires 0 <= i < |pieces| => PadEven(pieces[i]))
  }

  /** The numeric path: the samples found in the segment and the rate they
      claim, or `None` when there are none. */
  function SegmentAudio(seg: Segment): Option<(Audio, int)>
    requires !seg.SegBytes?
  {
    var (arr, sr) := match seg
      case SegDict(fields, sr) =>
        (FirstField(fields, AUDIO_KEYS), if sr.Some? then RateOf(sr.value) else TARGET_SR)
      case SegPair(arr, rate) => (arr, RateOf(rate))
      case SegOther(arr) => (arr, TARGET_SR);
    if arr.PAudio? && |arr.samples| > 0 then Some((arr.samples, sr)) else None
  }

  /** Resampled audio, emitted frame by frame as PCM16. */
  function SampleBlocks(x: Audio): (r: seq<seq<byte>>)
  {
    var frames := Frames(x, FRAME);
    seq(|frames|, i requires 0 <= i < |frames| => Pcm16(frames[i]))
  }

  /** Everything yielded for one segment. */
  function SegmentBlocks(seg: Segment, speed: real, resample: (Audio, int, int) -> Audio): seq<seq<byte>>
  {
    if seg.SegBytes? then ByteBlocks(seg.b)
    else match SegmentAudio(seg)
      case None => []
      case Some((arr, sr)) => SampleBlocks(PostProcess(arr, sr, speed, resample))
  }

  /** `_iter_bytes()` over everything the back-end yields. */
  function IterBytes(segs: seq<Segment>, speed: real, resample: (Audio, int, int) -> Audio): (r: seq<seq<byte>>)
    ensures forall i :: 0 <= i < |r| ==> 0 < |r[i]| <= STEP && |r[i]| % 2 == 0
  {
    if |segs| == 0 then []
    else
      SegmentBlocksShape(segs[0], speed, resample);
      SegmentBlocks(segs[0], speed, resample) + IterBytes(segs[1..], speed, resample)
  }

  /** A byte segment comes out as even pieces of 1454 bytes (the last may be
      shorter) that concatenate to the segment plus one zero when its length
      is odd; the defensive re-padding never changes a piece. */
  lemma ByteBlocksShape(b: seq<byte>)
    ensures |b| == 0 ==> ByteBlocks(b) == []
    ensures |b| > 0 ==> ByteBlocks(b) == Frames(PadEven(b), STEP)
    ensures Flatten(ByteBlocks(b)) == if |b| == 0 then [] else PadEven(b)
    ensures forall i :: 0 <= i < |ByteBlocks(b)| ==>
      0 < |ByteBlocks(b)[i]| <= STEP && |ByteBlocks(b)[i]| % 2 == 0
    ensures forall i :: 0 <= i < |ByteBlocks(b)| - 1 ==> |ByteBlocks(b)[i]| == STEP
  {
    if |b| > 0 {
      var pieces := Frames(PadEven(b), STEP);
      PiecesEven(b, pieces);
      RepaddingNoop(b, pieces);
      hide *;
    }
  }

  /** The defensive re-padding of each piece changes nothing. */
  lemma RepaddingNoop(b: seq<byte>, pieces: seq<seq<byte>>)
    requires |b| > 0 && pieces == Frames(PadEven(b), STEP)
    requires forall i :: 0 <= i < |pieces| ==> |pieces[i]| % 2 == 0
    ensures ByteBlocks(b) == pieces
  {
    var r := ByteBlocks(b);
    forall i | 0 <= i < |pieces| ensures r[i] == pieces[i] {
      PadEvenNoop(pieces[i]);
    }
  }

  /** Padding leaves an even-length buffer as it is. */
  lemma PadEvenNoop(x: seq<byte>)
    requires |x| % 2 == 0
    ensures PadEven(x) == x
  {
  }

  /** Cutting an even-length buffer into `STEP`-byte pieces leaves every
      piece even, the last one included. */
  lemma PiecesEven(b: seq<byte>, pieces: seq<seq<byte>>)
    requires pieces == Frames(PadEven(b), STEP)
    ensures forall i :: 0 <= i < |pieces| ==> |pieces[i]| % 2 == 0
  {
    if |pieces| > 0 {
      LastPieceEven(pieces, PadEven(b));
    }
  }

  /** Pieces of `STEP` items but the last, making up an even total, end in
      an even piece. */
  lemma LastPieceEven(pieces: seq<seq<byte>>, total: seq<byte>)
    requires |pieces| > 0 && Flatten(pieces) == total && |total| % 2 == 0
    requires forall i :: 0 <= i < |pieces| - 1 ==> |pieces[i]| == STEP
    ensures |pieces[|pieces| - 1]| % 2 == 0
  {
    var i := |pieces| - 1;
    var front := pieces[..i];
    assert pieces == front + [pieces[i]];
    assert forall k :: 0 <= k < |front| ==> |front[k]| == STEP;
    hide *;
    FlattenSnoc(front, pieces[i]);
    FlattenLength(front, STEP);
    assert |total| == STEP * i + |pieces[i]|;
  }

  /** Blocks of exactly `n` items flatten to `n` items each. */
  lemma {:induction false} FlattenLength<T>(xs: seq<seq<T>>, n: nat)
    requires forall i :: 0 <= i < |xs| ==> |xs[i]| == n
    ensures |Flatten(xs)| == n * |xs|
  {
    if |xs| > 0 {
      FlattenLength(xs[1..], n);
    }
  }

  /** Samples come out in order, in frames of at most 727 samples, two bytes
      per sample, and together they are the conversion of the whole buffer. */
  lemma SampleBlocksShape(x: Audio)
    ensures Flatten(SampleBlocks(x)) == Pcm16(x)
    ensures |SampleBlocks(x)| == 0 <==> |x| == 0
    ensures forall i :: 0 <= i < |SampleBlocks(x)| ==>
      0 < |SampleBlocks(x)[i]| <= STEP && |SampleBlocks(x)[i]| % 2 == 0
  {
    var frames := Frames(x, FRAME);
    Pcm16Frames(frames);
  }

  /** Every block one segment yields is a non-empty whole number of samples
      and at most 1454 bytes long. */
  lemma SegmentBlocksShape(seg: Segment, speed: real, resample: (Audio, int, int) -> Audio)
    ensures forall i :: 0 <= i < |SegmentBlocks(seg, speed, resample)| ==>
      0 < |SegmentBlocks(seg, speed, resample)[i]| <= STEP && |SegmentBlocks(seg, speed, resample)[i]| % 2 == 0
  {
    if seg.SegBytes? {
      ByteBlocksShape(seg.b);
    } else if SegmentAudio(seg).Some? {
      var (arr, sr) := SegmentAudio(seg).value;
      SampleBlocksShape(PostProcess(arr, sr, speed, resample));
    }
  }

  /** Segments are handled independently: the stream of a concatenation is
      the concatenation of the streams. */
  lemma {:induction false} IterBytesAppend(a: seq<Segment>, b: seq<Segment>, speed: real,
                                           resample: (Audio, int, int) -> Audio)
    ensures IterBytes(a + b, speed, resample) == IterBytes(a, speed, resample) + IterBytes(b, speed, resample)
  {
    if |a| == 0 {
      assert a + b == b;
    } else {
      assert (a + b)[1..] == a[1..] + b;
      IterBytesAppend(a[1..], b, speed, resample);
    }
  }

  /** An empty segment, a dict without audio and an empty array yield
      nothing. */
  lemma EmptySegmentsSkipped(fields: map<string, Payload>, speed: real, resample: (Audio, int, int) -> Audio)
    requires forall k :: k in AUDIO_KEYS ==> k !in fields
    ensures SegmentBlocks(SegBytes([]), speed, resample) == []
    ensures SegmentBlocks(SegDict(fields, None), speed, resample) == []
    ensures SegmentBlocks(SegOther(PAudio([])), speed, resample) == []
    ensures SegmentBlocks(SegOther(PNone), speed, resample) == []
  {
    assert ByteBlocks([]) == [];
    assert FirstField(fields, AUDIO_KEYS) == PNone;
    hide FirstField, Frames, Pcm16, PostProcess;
    NoAudio(SegDict(fields, None), speed, resample);
    NoAudio(SegOther(PAudio([])), speed, resample);
    NoAudio(SegOther(PNone), speed, resample);
  }

  /** A segment without samples yields nothing. */
  lemma NoAudio(seg: Segment, speed: real, resample: (Audio, int, int) -> Audio)
    requires !seg.SegBytes? && SegmentAudio(seg).None?
    ensures SegmentBlocks(seg, speed, resample) == []
  {
  }
}

=== FILE: decimal.dfy ===
/** Decimal rendering of integers as Python's `str(n)` and `f"{n:0W}"` produce
    them, and the matching parser used to state round-trip properties. */
module Decimal {

  predicate IsDigit(c: char) { '0' <= c <= '9' }

  predicate AllDigits(s: string)
  {
    forall i :: 0 <= i < |s| ==> IsDigit(s[i])
  }

  function DigitChar(d: nat): (c: char)
    requires d < 10
    ensures IsDigit(c)
  {
    ('0' as int + d) as char
  }

  function DigitValue(c: char): nat
    requires IsDigit(c)
  {
    c as int - '0' as int
  }

  /** Value of a string of decimal digits (the empty string reads as 0). */
  function DigitsValue(s: string): nat
    requires AllDigits(s)
  {
    if |s| == 0 then 0 else 10 * DigitsValue(s[..|s| - 1]) + DigitValue(s[|s| - 1])
  }

  function Pow10(k: nat): nat
  {
    if k == 0 then 1 else 10 * Pow10(k - 1)
  }

  /** `str(n)` for a non-negative integer: its shortest decimal rendering. */
  function NatToString(n: nat): (r: string)
    ensures |r| >= 1 && AllDigits(r)
    ensures |r| == 1 || r[0] != '0'
  {
    if n < 10 then [DigitChar(n)] else NatToString(n / 10) + [DigitChar(n % 10)]
  }

  /** `str(n)` for any integer. */
  function IntToString(n: int): string
  {
    if n < 0 then "-" + NatToString(-n) else NatToString(n)
  }

  /** Left-pads with '0' to at least `width` characters. */
  function PadLeft(s: string, width: int): (r: string)
    ensures |r| == if |s| >= width then |s| else width
    ensures r[|r| - |s|..] == s
  {
    if |s| >= width then s else seq(width - |s|, _ => '0') + s
  }

  /** Python's `f"{n:0W}"`: zero-padded to `width` characters, sign included. */
  function FormatPadded(n: int, width: nat): string
  {
    if n < 0 then "-" + PadLeft(NatToString(-n), width - 1) else PadLeft(NatToString(n), width)
  }

  /** Reading back what `NatToString` wrote gives the number. */
  lemma {:induction false} NatToStringValue(n: nat)
    ensures DigitsValue(NatToString(n)) == n
  {
    if n >= 10 {
      NatToStringValue(n / 10);
      var s := NatToString(n);
      assert s[..|s| - 1] == NatToString(n / 10);
    }
  }

  /** Leading zeros do not change the value of a digit string. */
  lemma {:induction false} LeadingZeroValue(s: string)
    requires AllDigits(s)
    ensures AllDigits("0" + s) && DigitsValue("0" + s) == DigitsValue(s)
    decreases |s|
  {
    if |s| > 0 {
      var t := "0" + s;
      assert t[..|t| - 1] == "0" + s[..|s| - 1];
      LeadingZeroValue(s[..|s| - 1]);
    }
  }

  lemma {:induction false} PadLeftValue(s: string, width: int)
    requires AllDigits(s)
    ensures AllDigits(PadLeft(s, width)) && DigitsValue(PadLeft(s, width)) == DigitsValue(s)
    decreases width - |s|
  {
    if |s| < width {
      LeadingZeroValue(s);
      PadLeftValue("0" + s, width);
      assert PadLeft(s, width) == PadLeft("0" + s, width);
    }
  }

  /** A number below `10^k` needs at most `k` digits. */
  lemma {:induction false} NatToStringLength(n: nat, k: nat)
    requires k >= 1 && n < Pow10(k)
    ensures |NatToString(n)| <= k
  {
    if n >= 10 {
      assert k >= 2;
      NatToStringLength(n / 10, k - 1);
    }
  }

  /** A zero-padded rendering of a non-negative number reads back as the number. */
  lemma PaddedRoundTrip(n: nat, width: nat)
    ensures AllDigits(FormatPadded(n, width))
    ensures DigitsValue(FormatPadded(n, width)) == n
    ensures |FormatPadded(n, width)| >= width
  {
    NatToStringValue(n);
    PadLeftValue(NatToString(n), width);
  }

  /** A number below `10^k`, padded to `k`, is exactly `k` characters. */
  lemma PaddedWidth(n: nat, k: nat)
    requires k >= 1 && n < Pow10(k)
    ensures |FormatPadded(n, k)| == k
  {
    NatToStringLength(n, k);
  }

  /** `str(n)` determines `n`. */
  lemma IntToStringInjective(a: int, b: int)
    requires IntToString(a) == IntToString(b)
    ensures a == b
  {
    if a < 0 && b < 0 {
      assert NatToString(-a) == IntToString(a)[1..];
      assert NatToString(-b) == IntToString(b)[1..];
      NatToStringValue(-a);
      NatToStringValue(-b);
    } else if a >= 0 && b >= 0 {
      NatToStringValue(a);
      NatToStringValue(b);
    }
  }

  /** `str(n)` consists of digits and at most a leading minus sign. */
  lemma IntToStringChars(n: int, c: char)
    requires c != '-' && !IsDigit(c)
    ensures c !in IntToString(n)
  {
  }
}

=== FILE: engine_policy.dfy ===
/** The capability policies of the model service: reading a boolean switch
    from the environment, choosing CPU or GPU (and half precision) for the
    CosyVoice2 model, and recommending an engine for the machine. The live
    probes (environment, torch, psutil, platform) are replaced by explicit
    records; a probe that raises is its own case. Memory sizes are bytes;
    the source's `total / 1024**3 >= k` is `total >= k * GiB`. */
module EnginePolicy {

  import opened Common
  import opened Text

  const GiB: nat := 1073741824

  /** `x in s` for strings: `x` occurs somewhere in `s`. */
  predicate Contains(s: string, x: string)
  {
    exists j: nat :: j <= |s| && OccursAt(s, x, j)
  }

  // ------------------------------------------------------------ _env_bool

  const TrueWords: set<string> := {"1", "true", "yes", "y", "on"}
  const FalseWords: set<string> := {"0", "false", "no", "n", "off"}

  /** `v.strip().lower()` */
  function Normalize(v: string): string
  {
    Lower(Strip(v))
  }

  /** The answer for a normalised value. */
  function EnvWord(v: string, default: Option<bool>): (r: Option<bool>)
  {
    if v in TrueWords then Some(true)
    else if v in FalseWords then Some(false)
    else default
  }

  /** `_env_bool(name, default)` given the variable's value (`None` when unset). */
  function EnvBool(value: Option<string>, default: Option<bool>): (r: Option<bool>)
    ensures value.None? ==> r == default
    ensures r != default ==>
      value.Some? && Normalize(value.value) in TrueWords + FalseWords && r == Some(Normalize(value.value) in TrueWords)
  {
    if value.None? then default else EnvWord(Normalize(value.value), default)
  }

  /** The two word lists share nothing, so the order of the checks does not
      matter, and the answer is the default exactly when the variable is
      unset or holds neither kind of word. */
  lemma EnvWordCases(v: string, default: Option<bool>)
    ensures TrueWords * FalseWords == {}
    ensures EnvWord(v, default) == Some(true) <==>
      v in TrueWords || (default == Some(true) && v !in TrueWords + FalseWords)
    ensures EnvWord(v, default) == Some(false) <==>
      v in FalseWords || (default == Some(false) && v !in TrueWords + FalseWords)
  {
    assert TrueWords * FalseWords == {} by {
      forall w | w in TrueWords ensures w !in FalseWords { }
    }
  }

  /** Unset gives the default; a set variable is read through its
      normalised value. */
  lemma EnvBoolUnset(default: Option<bool>)
    ensures EnvBool(None, default) == default
  {
  }

  /** Surrounding whitespace and letter case are ignored: a word read with
      blanks around it gives the same answer as the word alone. */
  lemma EnvBoolPadding(a: string, w: string, c: string, default: Option<bool>)
    requires AllSpace(a) && AllSpace(c)
    requires |w| > 0 && !IsSpace(w[0]) && !IsSpace(w[|w| - 1])
    ensures EnvBool(Some(a + w + c), default) == EnvBool(Some(w), default)
  {
    StripFrame(a, w, c);
    StripNoop(w);
  }

  // ------------------------------------------------------- cosy policy

  /** What probing CUDA found: torch raised, no CUDA, or device 0. */
  datatype CudaProbe =
    | ProbeFailed
    | NoCuda
    | CudaDevice(name: string, major: int, minor: int, vramBytes: int)

  /** `(use_cpu, fp16)` */
  type Policy = (bool, bool)

  /** The normalised `COSY_DEVICE` setting; unset means "auto". */
  function DeviceSetting(device: Option<string>): string
  {
    Normalize(if device.None? then "auto" else device.value)
  }

  /** The decision for a normalised device setting. */
  function CosyDecision(setting: string, probe: CudaProbe): (r: Policy)
  {
    if setting == "cpu" then (true, false)
    else if setting == "gpu" then (false, false)
    else match probe
      case ProbeFailed => (true, false)
      case NoCuda => (true, false)
      case CudaDevice(name, major, minor, vram) =>
        if Contains(Lower(name), "970") || (major == 5 && minor == 2) then (true, false)
        else if major < 6 then (true, false)
        else if vram < 6 * GiB then (true, false)
        else (false, true)
  }

  /** `_decide_cosy_policy()`: `device` is `COSY_DEVICE` and `fp16` is
      `COSY_FP16`, which the source reads and then never uses. */
  function CosyPolicy(device: Option<string>, fp16: Option<string>, probe: CudaProbe): (r: Policy)
    ensures r.1 ==> !r.0
    ensures !r.0 && !r.1 ==> DeviceSetting(device) == "gpu"
    ensures r.1 ==> probe.CudaDevice? && probe.major >= 6 && probe.vramBytes >= 6 * GiB
  {
    var setting := DeviceSetting(device);
    CosyOverrides(setting, probe);
    if setting == "cpu" || setting == "gpu" then CosyDecision(setting, probe)
    else
      CosyAuto(setting, probe);
      CosyDecision(setting, probe)
  }

  /** In automatic mode (any setting but "cpu" and "gpu") half precision on
      the GPU is chosen exactly for a CUDA device that is not a "970", has
      compute capability 6 or more and at least 6 GiB; every other machine
      runs on the CPU. The (5, 2) capability test is already covered by the
      capability bound. */
  lemma CosyAuto(setting: string, probe: CudaProbe)
    requires setting != "cpu" && setting != "gpu"
    ensures CosyDecision(setting, probe) == (false, true) <==>
      probe.CudaDevice? && !Contains(Lower(probe.name), "970") && probe.major >= 6 && probe.vramBytes >= 6 * GiB
    ensures CosyDecision(setting, probe) != (false, true) ==> CosyDecision(setting, probe) == (true, false)
  {
  }

  /** The policy never asks for half precision on the CPU, and the overrides
      win over any probe. */
  lemma CosyOverrides(setting: string, probe: CudaProbe)
    ensures CosyDecision(setting, probe).1 ==> !CosyDecision(setting, probe).0
    ensures CosyDecision("cpu", probe) == (true, false)
    ensures CosyDecision("gpu", probe) == (false, false)
  {
  }

  /** `COSY_DEVICE` is read like the switches: surrounding blanks do not
      matter. */
  lemma DeviceSettingPadding(a: string, w: string, c: string)
    requires AllSpace(a) && AllSpace(c)
    requires |w| > 0 && !IsSpace(w[0]) && !IsSpace(w[|w| - 1])
    ensures DeviceSetting(Some(a + w + c)) == DeviceSetting(Some(w))
  {
    StripFrame(a, w, c);
    StripNoop(w);
  }

  /** An unset `COSY_DEVICE` is automatic mode. */
  lemma DeviceUnset()
    ensures DeviceSetting(None) == "auto"
  {
    StripNoop("auto");
    LowerNoUpper("auto");
    hide Strip, Lower;
  }

  // --------------------------------------------------- recommended engine

  /** A CUDA device 0 as `get_recommended_engine` sees it. */
  datatype Gpu = Gpu(name: string, vramBytes: nat)

  /** What probing the machine found; `ProbeError` is any exception raised
      while probing or comparing (psutil's CPU count may be unknown, and
      comparing it then raises). */
  datatype Machine =
    | ProbeError
    | Machine(system: string, processor: string, ramBytes: nat, cpuCount: Option<nat>, gpu: Option<Gpu>)

  const Kokoro: string := "kokoro"
  const CosyVoice2: string := "cosyvoice2"

  predicate AppleSilicon(m: Machine)
    requires m.Machine?
  {
    m.system == "Darwin" && m.processor == "arm"
  }

  /** `get_recommended_engine()`: the checks in their order. */
  function RecommendedEngine(m: Machine): (r: string)
    ensures r == Kokoro || r == CosyVoice2
    ensures m.ProbeError? ==> r == Kokoro
  {
    match m
    case ProbeError => Kokoro
    case Machine(_, _, ram, cpus, gpu) =>
      if AppleSilicon(m) then (if ram >= 16 * GiB then CosyVoice2 else Kokoro)
      else if gpu.Some? && gpu.value.vramBytes >= 8 * GiB then CosyVoice2
      else if gpu.Some? && (Contains(Lower(gpu.value.name), "970") || gpu.value.vramBytes <= 4 * GiB) then Kokoro
      else if ram >= 32 * GiB then
        (match cpus
         case None => Kokoro          // `None >= 16` raises: the fallback answer
         case Some(n) => if n >= 16 then CosyVoice2 else Kokoro)
      else Kokoro
  }

  /** CosyVoice2 is recommended exactly for Apple Silicon with 16 GiB, for a
      CUDA card with 8 GiB (a "970" included), and for a machine with 32 GiB
      and 16 known CPUs whose card, if any, is neither a "970" nor at most
      4 GiB. */
  lemma RecommendsCosy(m: Machine)
    requires m.Machine?
    ensures RecommendedEngine(m) == CosyVoice2 <==>
      (AppleSilicon(m) && m.ramBytes >= 16 * GiB) ||
      (!AppleSilicon(m) && m.gpu.Some? && m.gpu.value.vramBytes >= 8 * GiB) ||
      (!AppleSilicon(m) && (m.gpu.None? || (!Contains(Lower(m.gpu.value.name), "970") && m.gpu.value.vramBytes > 4 * GiB)) &&
       m.ramBytes >= 32 * GiB && m.cpuCount.Some? && m.cpuCount.value >= 16)
  {
  }

  /** Apple Silicon is decided by memory alone, whatever else is present. */
  lemma AppleIgnoresGpu(m: Machine, g: Option<Gpu>, c: Option<nat>)
    requires m.Machine? && AppleSilicon(m)
    ensures RecommendedEngine(m) == RecommendedEngine(m.(gpu := g, cpuCount := c))
  {
  }
}

=== FILE: extract_text.dfy ===
/** `extract_text(path)`: choose a reader by the file's suffix and normalise
    what it returns. The readers themselves (UTF-8 text, EPUB documents, PDF
    pages) are a parameter `read`; a reader that raises is an `Err` carrying
    its message. Normalisation is three steps: every `"\r\n"` or lone `"\r"`
    becomes `"\n"`, every run of spaces and tabs becomes one space, and the
    ends are stripped. */
module ExtractText {

  import opened Common
  import opened Text

  // ---------------------------------------------------------------- paths

  /** The path without its trailing slashes (`Path` drops them). */
  function TrimSlashes(p: string): (r: string)
    ensures |r| <= |p| && r == p[..|r|]
    ensures |r| == 0 || r[|r| - 1] != '/'
    decreases |p|
  {
    if |p| > 0 && p[|p| - 1] == '/' then TrimSlashes(p[..|p| - 1]) else p
  }

  /** What follows the last `/`. */
  function AfterLastSlash(p: string): (r: string)
    ensures |r| <= |p| && r == p[|p| - |r|..]
    ensures '/' !in r
    ensures |r| < |p| ==> p[|p| - |r| - 1] == '/'
    decreases |p|
  {
    if |p| == 0 then ""
    else if p[|p| - 1] == '/' then ""
    else
      var r := AfterLastSlash(p[..|p| - 1]);
      assert p[..|p| - 1][|p| - 1 - |r|..] == p[|p| - 1 - |r|..|p| - 1];
      r + [p[|p| - 1]]
  }

  /** `Path(path).name`: the last component. */
  function Name(path: string): (r: string)
    ensures '/' !in r
  {
    AfterLastSlash(TrimSlashes(path))
  }

  /** `name.rfind('.')` */
  function LastDot(name: string): (r: Option<nat>)
    ensures r.Some? ==> r.value < |name| && name[r.value] == '.'
    ensures r.Some? ==> '.' !in name[r.value + 1..]
    ensures r.None? ==> '.' !in name
    decreases |name|
  {
    if |name| == 0 then None
    else if name[|name| - 1] == '.' then Some(|name| - 1)
    else
      var r := LastDot(name[..|name| - 1]);
      LastDotStep(name, r);
      r
  }

  /** A name not ending in a dot has its last dot where the name without
      its final character has it. */
  lemma LastDotStep(name: string, r: Option<nat>)
    requires |name| > 0 && name[|name| - 1] != '.'
    requires var front := name[..|name| - 1];
      (r.Some? ==> r.value < |front| && front[r.value] == '.' && '.' !in front[r.value + 1..]) &&
      (r.None? ==> '.' !in front)
    ensures r.Some? ==> r.value < |name| && name[r.value] == '.' && '.' !in name[r.value + 1..]
    ensures r.None? ==> '.' !in name
  {
    var front := name[..|name| - 1];
    if r.Some? {
      assert name[r.value + 1..] == front[r.value + 1..] + [name[|name| - 1]];
    } else {
      assert name == front + [name[|name| - 1]];
    }
  }

  /** `PurePath.suffix`: from the last dot, unless that dot opens the name
      (a hidden file) or closes it. */
  function Suffix(name: string): (r: string)
    ensures r == "" || (r[0] == '.' && 1 < |r| < |name| && r == name[|name| - |r|..] && '.' !in r[1..])
  {
    var i := LastDot(name);
    if i.Some? && 0 < i.value < |name| - 1 then name[i.value..] else ""
  }

  /** The name of a path is its last component, whatever directories come
      before. */
  lemma NameOf(dir: string, base: string)
    requires |base| > 0 && '/' !in base
    ensures Name(dir + "/" + base) == base
  {
    var p := dir + "/" + base;
    assert p[|p| - 1] == base[|base| - 1];
    assert TrimSlashes(p) == p;
    AfterLastSlashOf(dir, base);
  }

  /** A stem followed by a dot and an extension without dots has that
      extension as its suffix. */
  lemma SuffixOf(stem: string, ext: string)
    requires |stem| > 0 && |ext| > 0 && '.' !in ext
    ensures Suffix(stem + "." + ext) == "." + ext
  {
    var base := stem + "." + ext;
    var i := LastDot(base);
    assert base[|stem|] == '.';
    assert base[|stem| + 1..] == ext;
    assert i == Some(|stem|);
    assert base[|stem|..] == "." + ext;
  }

  lemma {:induction false} AfterLastSlashOf(dir: string, base: string)
    requires |base| > 0 && '/' !in base
    ensures AfterLastSlash(dir + "/" + base) == base
    decreases |base|
  {
    var p := dir + "/" + base;
    var n := |base| - 1;
    assert p[..|p| - 1] == dir + "/" + base[..n];
    assert p[|p| - 1] == base[n];
    if n == 0 {
      assert p[..|p| - 1][|p| - 2] == '/';
    } else {
      AfterLastSlashOf(dir, base[..n]);
      assert base == base[..n] + [base[n]];
    }
  }

  // ------------------------------------------------------------- dispatch

  datatype Format = Txt | Epub | Pdf

  /** The reader for a path, or the `ValueError` message for any other
      suffix (its lower-cased form). */
  function Dispatch(path: string): (r: Result<Format, string>)
    ensures r == Ok(Txt) <==> Lower(Suffix(Name(path))) == ".txt"
    ensures r == Ok(Epub) <==> Lower(Suffix(Name(path))) == ".epub"
    ensures r == Ok(Pdf) <==> Lower(Suffix(Name(path))) == ".pdf"
    ensures r.Err? ==> r.error == "Unsupported file type: " + Lower(Suffix(Name(path)))
  {
    var ext := Lower(Suffix(Name(path)));
    if ext == ".txt" then Ok(Txt)
    else if ext == ".epub" then Ok(Epub)
    else if ext == ".pdf" then Ok(Pdf)
    else Err("Unsupported file type: " + ext)
  }

  // -------------------------------------------------------------- step 1

  /** `re.sub(r"\r\n?", "\n", txt)`, scanning from the left. */
  function CrLf(s: string): (r: string)
    ensures '\r' !in r
    ensures |r| <= |s|
    decreases |s|
  {
    if |s| == 0 then ""
    else if s[0] == '\r' then
      if |s| >= 2 && s[1] == '\n' then "\n" + CrLf(s[2..]) else "\n" + CrLf(s[1..])
    else [s[0]] + CrLf(s[1..])
  }

  /** Text without carriage returns is left alone. */
  lemma {:induction false} CrLfNoop(s: string)
    requires '\r' !in s
    ensures CrLf(s) == s
    decreases |s|
  {
    if |s| > 0 {
      CrLfNoop(s[1..]);
    }
  }

  /** Step 1 works piece by piece, unless the cut separates a `"\r"` from
      the `"\n"` after it. */
  lemma {:induction false} CrLfAppend(x: string, z: string)
    requires |x| == 0 || x[|x| - 1] != '\r' || |z| == 0 || z[0] != '\n'
    ensures CrLf(x + z) == CrLf(x) + CrLf(z)
    decreases |x|
  {
    if |x| == 0 {
      assert x + z == z;
      CrLfEmpty();
    } else if x[0] == '\r' && |x| >= 2 && x[1] == '\n' {
      CrLfAppend(x[2..], z);
      CrLfAppendPair(x, z);
    } else if x[0] == '\r' && |x| == 1 {
      CrLfAppendLone(x, z);
    } else {
      CrLfAppend(x[1..], z);
      CrLfAppendOne(x, z);
    }
  }

  /** The appending step when `x` opens with `"\r\n"`. */
  lemma CrLfAppendPair(x: string, z: string)
    requires |x| >= 2 && x[0] == '\r' && x[1] == '\n'
    requires CrLf(x[2..] + z) == CrLf(x[2..]) + CrLf(z)
    ensures CrLf(x + z) == CrLf(x) + CrLf(z)
  {
    var s := x + z;
    assert s[0] == '\r' && s[1] == '\n' && s[2..] == x[2..] + z;
    hide *;
    CrLfHead(s);
    CrLfHead(x);
    assert CrLf(s) == "\n" + CrLf(x[2..] + z);
    assert CrLf(x) == "\n" + CrLf(x[2..]);
    ConcatAssoc("\n", CrLf(x[2..]), CrLf(z));
  }

  /** The appending step when `x` is a lone `"\r"` not followed by `"\n"`. */
  lemma CrLfAppendLone(x: string, z: string)
    requires x == "\r" && (|z| == 0 || z[0] != '\n')
    ensures CrLf(x + z) == CrLf(x) + CrLf(z)
  {
    var s := x + z;
    assert s[0] == '\r' && s[1..] == z && x[1..] == "";
    assert |s| >= 2 ==> s[1] == z[0];
    hide *;
    CrLfHead(s);
    CrLfHead(x);
    CrLfEmpty();
    assert CrLf(s) == "\n" + CrLf(z);
    assert CrLf(x) == "\n";
  }

  /** The appending step when `x` opens with one character that is kept or
      replaced on its own. */
  lemma CrLfAppendOne(x: string, z: string)
    requires |x| >= 2 || (|x| == 1 && x[0] != '\r')
    requires !(x[0] == '\r' && x[1] == '\n')
    requires CrLf(x[1..] + z) == CrLf(x[1..]) + CrLf(z)
    ensures CrLf(x + z) == CrLf(x) + CrLf(z)
  {
    var s := x + z;
    assert s[0] == x[0] && s[1..] == x[1..] + z;
    assert |x| >= 2 ==> s[1] == x[1];
    var h := if x[0] == '\r' then "\n" else [x[0]];
    hide *;
    CrLfHead(s);
    CrLfHead(x);
    assert CrLf(s) == h + CrLf(x[1..] + z);
    assert CrLf(x) == h + CrLf(x[1..]);
    ConcatAssoc(h, CrLf(x[1..]), CrLf(z));
  }

  /** One step of the left-to-right scan. */
  lemma CrLfHead(s: string)
    requires |s| > 0
    ensures s[0] == '\r' && |s| >= 2 && s[1] == '\n' ==> CrLf(s) == "\n" + CrLf(s[2..])
    ensures s[0] == '\r' && !(|s| >= 2 && s[1] == '\n') ==> CrLf(s) == "\n" + CrLf(s[1..])
    ensures s[0] != '\r' ==> CrLf(s) == [s[0]] + CrLf(s[1..])
  {
  }

  lemma CrLfEmpty()
    ensures CrLf("") == ""
  {
  }

  /** Each `"\r\n"` becomes one `"\n"`. */
  lemma CrLfPair(x: string, y: string)
    requires |x| == 0 || x[|x| - 1] != '\r'
    ensures CrLf(x + "\r\n" + y) == CrLf(x) + "\n" + CrLf(y)
  {
    var w := "\r\n" + y;
    assert x + "\r\n" + y == x + w;
    CrLfAppend(x, w);
    assert w[0] == '\r' && w[1] == '\n' && w[2..] == y;
    assert CrLf(w) == "\n" + CrLf(y);
  }

  /** A lone `"\r"` (not followed by `"\n"`) becomes one `"\n"`. */
  lemma CrLfLone(x: string, y: string)
    requires |x| == 0 || x[|x| - 1] != '\r'
    requires |y| == 0 || y[0] != '\n'
    ensures CrLf(x + "\r" + y) == CrLf(x) + "\n" + CrLf(y)
  {
    var w := "\r" + y;
    assert x + "\r" + y == x + w;
    CrLfAppend(x, w);
    LoneHead(y);
  }

  lemma LoneHead(y: string)
    requires |y| == 0 || y[0] != '\n'
    ensures CrLf("\r" + y) == "\n" + CrLf(y)
  {
    var w := "\r" + y;
    assert w[1..] == y;
    if |y| > 0 {
      assert w[1] == y[0];
    }
  }

  // -------------------------------------------------------------- step 2

  predicate IsBlank(c: char)
  {
    c == ' ' || c == '\t'
  }

  /** `re.sub(r"[ \t]+", " ", txt)`, with `inRun` telling whether a run of
      blanks has already been replaced. */
  function CollapseFrom(s: string, inRun: bool): (r: string)
    ensures '\t' !in r
    ensures '\r' !in s ==> '\r' !in r
    ensures inRun ==> |r| == 0 || r[0] != ' '
    ensures forall i :: 0 <= i < |r| - 1 ==> !(r[i] == ' ' && r[i + 1] == ' ')
    decreases |s|
  {
    if |s| == 0 then ""
    else if IsBlank(s[0]) then
      var rest := CollapseFrom(s[1..], true);
      if inRun then rest else " " + rest
    else
      var rest := CollapseFrom(s[1..], false);
      assert '\r' !in s ==> '\r' !in s[1..] by {
        if '\r' in s[1..] {
          var k :| 0 <= k < |s[1..]| && s[1..][k] == '\r';
          assert s[k + 1] == '\r';
        }
      }
      [s[0]] + rest
  }

  function Collapse(s: string): (r: string)
    ensures '\t' !in r
    ensures '\r' !in s ==> '\r' !in r
    ensures forall i :: 0 <= i < |r| - 1 ==> !(r[i] == ' ' && r[i + 1] == ' ')
  {
    CollapseFrom(s, false)
  }

  /** Whether a blank run is open after reading `x`. */
  function AfterRun(x: string, inRun: bool): bool
  {
    if |x| == 0 then inRun else IsBlank(x[|x| - 1])
  }

  /** Step 2 works piece by piece, carrying whether a run is open. */
  lemma {:induction false} CollapseAppend(x: string, z: string, inRun: bool)
    ensures CollapseFrom(x + z, inRun) == CollapseFrom(x, inRun) + CollapseFrom(z, AfterRun(x, inRun))
    decreases |x|
  {
    if |x| == 0 {
      assert x + z == z;
      CollapseEmpty(inRun);
    } else {
      var s := x + z;
      assert s[0] == x[0] && s[1..] == x[1..] + z;
      var next := IsBlank(x[0]);
      var h := if next then (if inRun then "" else " ") else [x[0]];
      assert AfterRun(x[1..], next) == AfterRun(x, inRun);
      hide *;
      CollapseStep(s, inRun);
      CollapseStep(x, inRun);
      CollapseAppend(x[1..], z, next);
      ConcatAssoc(h, CollapseFrom(x[1..], next), CollapseFrom(z, AfterRun(x, inRun)));
    }
  }

  /** One step of the scan: a blank opens a run (one space) or continues
      one (nothing); any other character is copied. */
  lemma CollapseStep(s: string, inRun: bool)
    requires |s| > 0
    ensures CollapseFrom(s, inRun) ==
      (if IsBlank(s[0]) then (if inRun then "" else " ") else [s[0]]) + CollapseFrom(s[1..], IsBlank(s[0]))
  {
  }

  lemma CollapseIs(s: string)
    ensures Collapse(s) == CollapseFrom(s, false)
  {
  }

  lemma AfterRunLast(x: string, inRun: bool)
    ensures AfterRun(x, inRun) == if |x| == 0 then inRun else IsBlank(x[|x| - 1])
  {
  }

  lemma CollapseEmpty(inRun: bool)
    ensures CollapseFrom("", inRun) == ""
  {
  }

  /** A run of blanks between two non-blank neighbours becomes exactly one
      space. */
  lemma CollapseRun(x: string, b: string, y: string)
    requires |b| > 0 && forall i :: 0 <= i < |b| ==> IsBlank(b[i])
    requires |x| == 0 || !IsBlank(x[|x| - 1])
    requires |y| == 0 || !IsBlank(y[0])
    ensures Collapse(x + b + y) == Collapse(x) + " " + Collapse(y)
  {
    hide *;
    ConcatAssoc(x, b, y);
    AfterRunLast(x, false);
    AfterRunLast(b, false);
    assert IsBlank(b[|b| - 1]);
    CollapseIs(x + b + y);
    CollapseIs(x);
    CollapseIs(y);
    CollapseAppend(x, b + y, false);
    CollapseAppend(b, y, false);
    BlankRun(b);
    if |y| > 0 {
      CollapseStep(y, true);
      CollapseStep(y, false);
    } else {
      CollapseEmpty(true);
      CollapseEmpty(false);
    }
  }

  /** A non-empty run of blanks alone is one space. */
  lemma {:induction false} BlankRun(b: string)
    requires |b| > 0 && forall i :: 0 <= i < |b| ==> IsBlank(b[i])
    ensures CollapseFrom(b, false) == " "
    ensures CollapseFrom(b, true) == ""
    decreases |b|
  {
    if |b| > 1 {
      BlankRun(b[1..]);
    }
  }

  /** Text without tabs and doubled spaces is left alone. */
  lemma {:induction false} CollapseNoop(s: string, inRun: bool)
    requires '\t' !in s
    requires forall i :: 0 <= i < |s| - 1 ==> !(s[i] == ' ' && s[i + 1] == ' ')
    requires inRun ==> |s| == 0 || s[0] != ' '
    ensures CollapseFrom(s, inRun) == s
    decreases |s|
  {
    if |s| > 0 {
      var t := s[1..];
      assert forall i :: 0 <= i < |t| - 1 ==> !(t[i] == ' ' && t[i + 1] == ' ') by {
        forall i | 0 <= i < |t| - 1 ensures !(t[i] == ' ' && t[i + 1] == ' ') {
          assert t[i] == s[i + 1] && t[i + 1] == s[i + 2];
        }
      }
      if s[0] == ' ' {
        assert |t| == 0 || t[0] != ' ' by {
          if |t| > 0 {
            assert t[0] == s[1];
          }
        }
      }
      CollapseNoop(t, IsBlank(s[0]));
    }
  }

  // ------------------------------------------------------- what survives

  predicate NotSpace(c: char)
  {
    !IsSpace(c)
  }

  predicate NotBlank(c: char)
  {
    !IsBlank(c)
  }

  /** The characters of `s` that satisfy `p`, in order. */
  function Keep(s: string, p: char -> bool): (r: string)
    ensures |r| <= |s|
    ensures forall i :: 0 <= i < |r| ==> p(r[i])
    decreases |s|
  {
    if |s| == 0 then "" else (if p(s[0]) then [s[0]] else "") + Keep(s[1..], p)
  }

  lemma {:induction false} KeepAppend(x: string, y: string, p: char -> bool)
    ensures Keep(x + y, p) == Keep(x, p) + Keep(y, p)
    decreases |x|
  {
    if |x| == 0 {
      assert x + y == y;
    } else {
      assert (x + y)[0] == x[0] && (x + y)[1..] == x[1..] + y;
      KeepAppend(x[1..], y, p);
    }
  }

  lemma {:induction false} KeepNone(s: string)
    requires AllSpace(s)
    ensures Keep(s, NotSpace) == ""
    decreases |s|
  {
    if |s| > 0 {
      KeepNone(s[1..]);
    }
  }

  /** Step 1 changes only line breaks, which are whitespace. */
  lemma {:induction false} CrLfKeeps(s: string)
    ensures Keep(CrLf(s), NotSpace) == Keep(s, NotSpace)
    decreases |s|
  {
    if |s| > 0 {
      if s[0] == '\r' && |s| >= 2 && s[1] == '\n' {
        CrLfKeeps(s[2..]);
        assert s[1..][1..] == s[2..];
      } else {
        CrLfKeeps(s[1..]);
      }
    }
  }

  /** Step 2 keeps every character except spaces and tabs, line breaks
      included, in order. */
  lemma {:induction false} CollapseKeeps(s: string, inRun: bool)
    ensures Keep(CollapseFrom(s, inRun), NotBlank) == Keep(s, NotBlank)
    decreases |s|
  {
    if |s| > 0 {
      CollapseKeeps(s[1..], IsBlank(s[0]));
    }
  }

  /** ... and so every non-whitespace character in particular. */
  lemma {:induction false} CollapseKeepsText(s: string, inRun: bool)
    ensures Keep(CollapseFrom(s, inRun), NotSpace) == Keep(s, NotSpace)
    decreases |s|
  {
    if |s| > 0 {
      CollapseKeepsText(s[1..], IsBlank(s[0]));
    }
  }

  /** Stripping removes whitespace only. */
  lemma StripKeeps(s: string)
    ensures Keep(Strip(s), NotSpace) == Keep(s, NotSpace)
  {
    var r := Strip(s);
    var a := StripAt(s);
    var lead, trail := s[..a], s[a + |r|..];
    hide *;
    ThreeSlices(s, a, a + |r|);
    KeepAppend(lead + r, trail, NotSpace);
    KeepAppend(lead, r, NotSpace);
    KeepNone(lead);
    KeepNone(trail);
  }

  /** Where `Strip(s)` sits in `s`. */
  lemma StripAt(s: string) returns (a: nat)
    ensures a + |Strip(s)| <= |s| && Strip(s) == s[a..a + |Strip(s)|]
    ensures AllSpace(s[..a]) && AllSpace(s[a + |Strip(s)|..])
  {
    hide *;
    StripSlice(s);
    a := |s| - |LStrip(s)|;
  }

  // ------------------------------------------------------------ the whole

  /** Steps 1 to 3. */
  function Normalize(txt: string): (r: string)
    ensures |r| == 0 || (!IsSpace(r[0]) && !IsSpace(r[|r| - 1]))
  {
    Strip(Collapse(CrLf(txt)))
  }

  /** The shape of normalised text: no carriage return, no tab, no two
      adjacent spaces, no whitespace at either end. */
  predicate Clean(s: string)
  {
    '\r' !in s && '\t' !in s &&
    (forall i :: 0 <= i < |s| - 1 ==> !(s[i] == ' ' && s[i + 1] == ' ')) &&
    (|s| == 0 || (!IsSpace(s[0]) && !IsSpace(s[|s| - 1])))
  }

  /** Normalised text is clean, and its non-whitespace characters are
      exactly those of the input, in order. */
  lemma NormalizeClean(txt: string)
    ensures Clean(Normalize(txt))
    ensures Keep(Normalize(txt), NotSpace) == Keep(txt, NotSpace)
  {
    hide Strip, CrLf, Keep, CollapseFrom, LStrip, RStrip;
    var u := Collapse(CrLf(txt));
    var r := Strip(u);
    var a := StripAt(u);
    forall k | 0 <= k < |r| ensures r[k] == u[a + k] && r[k] != '\r' && r[k] != '\t' {
      assert r[k] == u[a + k];
    }
    forall i | 0 <= i < |r| - 1 ensures !(r[i] == ' ' && r[i + 1] == ' ') {
      assert r[i] == u[a + i] && r[i + 1] == u[a + i + 1];
    }
    CrLfKeeps(txt);
    CollapseKeepsText(CrLf(txt), false);
    StripKeeps(u);
  }

  /** Clean text is its own normal form. */
  lemma NormalizeFixes(s: string)
    requires Clean(s)
    ensures Normalize(s) == s
  {
    CrLfNoop(s);
    CollapseNoop(s, false);
    StripNoop(s);
  }

  /** Normalising twice is normalising once. */
  lemma NormalizeIdempotent(txt: string)
    ensures Normalize(Normalize(txt)) == Normalize(txt)
  {
    NormalizeClean(txt);
    NormalizeFixes(Normalize(txt));
  }

  /** `extract_text(path)`: an unsupported suffix or a failing reader is an
      error; otherwise the text is clean and keeps every non-whitespace
      character the reader produced. */
  function Extract(path: string, read: Format -> Result<string, string>): (r: Result<string, string>)
    ensures Dispatch(path).Err? ==> r == Err(Dispatch(path).error)
    ensures r.Ok? <==> Dispatch(path).Ok? && read(Dispatch(path).value).Ok?
    ensures r.Ok? ==> Clean(r.value)
    ensures r.Ok? ==> Keep(r.value, NotSpace) == Keep(read(Dispatch(path).value).value, NotSpace)
  {
    match Dispatch(path)
    case Err(e) => Err(e)
    case Ok(f) =>
      match read(f)
      case Err(e) => Err(e)
      case Ok(txt) => NormalizeClean(txt); Ok(Normalize(txt))
  }
}

=== FILE: model_cache.dfy ===
/** The model service's cache of synthesis results: at most 100 entries of
    audio plus duration, with no expiry. */
module ModelCache {

  import opened Common
  import opened CacheTable

  const MODEL_CACHE_SIZE: nat := 100
  const MODEL_KEY_TEXT_CHARS: nat := 200

  /** The cached dict minus its timestamp; durations are exact reals. */
  datatype Synthesis = Synthesis(audio: seq<byte>, duration: real)

  type Cache = Table<Synthesis>

  /** The string hashed by the model service: engine, voice, speed and the
      first 200 characters of the text, colon-separated. */
  function KeyMaterial(text: string, voice: string, speedRepr: string, engine: string): string
  {
    engine + ":" + voice + ":" + speedRepr + ":" + text[..Min(|text|, MODEL_KEY_TEXT_CHARS)]
  }

  function CacheKey(md5: string -> string, text: string, voice: string, speedRepr: string, engine: string): (r: string)
    ensures r == md5(KeyMaterial(text, voice, speedRepr, engine))
  {
    md5(KeyMaterial(text, voice, speedRepr, engine))
  }

  /** With the other parameters fixed, texts collide exactly when their first
      200 characters agree. */
  lemma KeyMaterialText(t1: string, t2: string, voice: string, speedRepr: string, engine: string)
    ensures KeyMaterial(t1, voice, speedRepr, engine) == KeyMaterial(t2, voice, speedRepr, engine)
        <==> t1[..Min(|t1|, MODEL_KEY_TEXT_CHARS)] == t2[..Min(|t2|, MODEL_KEY_TEXT_CHARS)]
  {
    var p := engine + ":" + voice + ":" + speedRepr + ":";
    var a := t1[..Min(|t1|, MODEL_KEY_TEXT_CHARS)];
    var b := t2[..Min(|t2|, MODEL_KEY_TEXT_CHARS)];
    if p + a == p + b {
      assert a == (p + a)[|p|..];
      assert b == (p + b)[|p|..];
    }
  }

  /** `cache_synthesis` */
  function CacheSynthesis(c: Cache, key: string, audio: seq<byte>, duration: real, now: real): (r: Cache)
    ensures Lookup(r, key) == Some(Entry(Synthesis(audio, duration), now))
    ensures DistinctKeys(c) ==> DistinctKeys(r)
    ensures DistinctKeys(c) && |c| <= MODEL_CACHE_SIZE ==> |r| <= MODEL_CACHE_SIZE
  {
    Insert(c, key, Entry(Synthesis(audio, duration), now), MODEL_CACHE_SIZE)
  }

  /** `get_cached_synthesis`: the whole cached record, with its timestamp
      refreshed to `now`; entries never expire. */
  function GetCachedSynthesis(c: Cache, key: string, now: real): (r: (Option<Entry<Synthesis>>, Cache))
    ensures r.0.Some? <==> key in Keys(c)
    ensures r.0.Some? ==> r.0.value == Entry(Lookup(c, key).value.payload, now)
    ensures r.0.Some? ==> Lookup(r.1, key) == r.0 && |r.1| == |c|
    ensures r.0.None? ==> r.1 == c
    ensures DistinctKeys(c) ==> DistinctKeys(r.1)
    ensures forall x :: x != key ==> Lookup(r.1, x) == Lookup(c, x)
  {
    match Lookup(c, key)
    case None => (None, c)
    case Some(e) =>
      var refreshed := Entry(e.payload, now);
      (Some(refreshed), Put(c, key, refreshed))
  }

  /** A cached record is returned unchanged however much later it is asked
      for, as long as nothing else evicted it. */
  lemma CacheThenGetAnyTime(c: Cache, key: string, audio: seq<byte>, duration: real, t0: real, t1: real)
    ensures GetCachedSynthesis(CacheSynthesis(c, key, audio, duration, t0), key, t1).0
         == Some(Entry(Synthesis(audio, duration), t1))
  {
    assert key in Keys(CacheSynthesis(c, key, audio, duration, t0));
  }

  /** A lookup hit moves the entry to the newest timestamp, so while any
      other entry is older it is not the next one evicted. */
  lemma HitProtectsFromEviction(c: Cache, key: string, now: real)
    requires DistinctKeys(c) && key in Keys(c)
    requires forall i :: 0 <= i < |c| ==> c[i].1.timestamp <= now
    requires exists i :: 0 <= i < |c| && c[i].0 != key && c[i].1.timestamp < now
    ensures OldestKey(GetCachedSynthesis(c, key, now).1) != key
  {
    var r := GetCachedSynthesis(c, key, now).1;
    var i :| 0 <= i < |c| && c[i].0 != key && c[i].1.timestamp < now;
    LookupAt(c, i);
    assert c[i].0 in Keys(r);
    var j :| 0 <= j < |r| && r[j].0 == c[i].0;
    LookupAt(r, j);
    var o := OldestIndex(r);
    assert r[o].1.timestamp <= r[j].1.timestamp;
    LookupAt(r, o);
  }
}

=== FILE: srt.dfy ===
/** SubRip timestamps and the duration-driven caption writer
    (app/utils/srt.py), plus the divmod-chain formatter used by the CLI and
    the aligner, which renders the same text. */
module Srt {

  import opened Common
  import opened Text
  import opened Decimal

  /** Hours, minutes, seconds and milliseconds of a millisecond count, with
      floor division as Python's `//` and `%` do. */
  function Fields(t: int): (r: (int, int, int, int))
    ensures r.0 * 3600000 + r.1 * 60000 + r.2 * 1000 + r.3 == t
    ensures 0 <= r.1 < 60 && 0 <= r.2 < 60 && 0 <= r.3 < 1000
    ensures t >= 0 ==> r.0 >= 0
  {
    FieldsArith(t);
    var ts := t / 1000;
    (ts / 3600, (ts % 3600) / 60, ts % 60, t % 1000)
  }

  /** The floor divisions of `Fields` recombine: seconds taken as `ts % 60`
      are the seconds left over after the minutes of `ts % 3600`. */
  lemma FieldsArith(t: int)
    ensures var ts := t / 1000;
      (ts / 3600) * 3600000 + ((ts % 3600) / 60) * 60000 + (ts % 60) * 1000 + t % 1000 == t
  {
    var ts := t / 1000;
    var h, rem := ts / 3600, ts % 3600;
    var m, sec := rem / 60, rem % 60;
    assert t == 1000 * ts + t % 1000;
    assert ts == 3600 * h + rem;
    assert rem == 60 * m + sec;
    assert ts == 60 * (60 * h + m) + sec;
    assert ts % 60 == sec;
  }

  /** `H:MM:SS,mmm` from its four field texts. */
  function Layout(hh: string, mm: string, ss: string, ms: string): string
  {
    hh + ":" + mm + ":" + ss + "," + ms
  }

  /** The separators of `H:MM:SS,mmm`, counted from the end, with at least
      two hour digits before them. */
  predicate Separated(f: string)
  {
    |f| >= 12 && f[|f| - 10] == ':' && f[|f| - 7] == ':' && f[|f| - 4] == ','
  }

  /** `_fmt(ts_ms)`: `HH:MM:SS,mmm`, the hours padded to at least two digits.
      For a non-negative count the separators sit at fixed places from the
      end: minutes, seconds and milliseconds have fixed widths. */
  function Fmt(t: int): (r: string)
    ensures t >= 0 ==> Separated(r)
  {
    var (h, m, s, ms) := Fields(t);
    if t >= 0 then
      FieldsLayout(h, m, s, ms);
      Layout(FormatPadded(h, 2), FormatPadded(m, 2), FormatPadded(s, 2), FormatPadded(ms, 3))
    else Layout(FormatPadded(h, 2), FormatPadded(m, 2), FormatPadded(s, 2), FormatPadded(ms, 3))
  }

  /** The layout of in-range fields puts its separators at fixed places from
      the end. */
  lemma FieldsLayout(h: int, m: int, s: int, ms: int)
    requires h >= 0 && 0 <= m < 60 && 0 <= s < 60 && 0 <= ms < 1000
    ensures Separated(Layout(FormatPadded(h, 2), FormatPadded(m, 2), FormatPadded(s, 2), FormatPadded(ms, 3)))
  {
    PaddedRoundTrip(h, 2);
    PaddedWidth(m, 2);
    PaddedWidth(s, 2);
    PaddedWidth(ms, 3);
    var hh, mm, ss, mss := FormatPadded(h, 2), FormatPadded(m, 2), FormatPadded(s, 2), FormatPadded(ms, 3);
    hide FormatPadded;
    LayoutSlices(Layout(hh, mm, ss, mss), hh, mm, ss, mss);
  }

  /** Milliseconds denoted by hour, minute, second and millisecond digits. */
  function FieldsValue(h: string, m: string, s: string, ms: string): int
    requires AllDigits(h) && AllDigits(m) && AllDigits(s) && AllDigits(ms)
  {
    DigitsValue(h) * 3600000 + DigitsValue(m) * 60000 + DigitsValue(s) * 1000 + DigitsValue(ms)
  }

  /** Reads `H+:MM:SS,mmm` back into milliseconds. */
  function ParseTimestamp(s: string): Option<int>
  {
    if |s| < 12 then None
    else
      var n := |s|;
      var hh, mm, ss, ms := s[..n - 10], s[n - 9..n - 7], s[n - 6..n - 4], s[n - 3..];
      if s[n - 10] == ':' && s[n - 7] == ':' && s[n - 4] == ',' &&
         AllDigits(hh) && AllDigits(mm) && AllDigits(ss) && AllDigits(ms)
      then Some(FieldsValue(hh, mm, ss, ms))
      else None
  }

  /** Where the fields of `H:MM:SS,mmm` sit, counted from the end. */
  lemma LayoutSlices(f: string, hh: string, mm: string, ss: string, ms: string)
    requires |mm| == 2 && |ss| == 2 && |ms| == 3
    requires f == Layout(hh, mm, ss, ms)
    ensures |f| == |hh| + 10 && f[..|f| - 10] == hh && f[|f| - 9..|f| - 7] == mm
    ensures f[|f| - 6..|f| - 4] == ss && f[|f| - 3..] == ms
    ensures f[|f| - 10] == ':' && f[|f| - 7] == ':' && f[|f| - 4] == ','
  {
    var n := |hh|;
    assert f == hh + (":" + mm + ":" + ss + "," + ms);
    var tail := ":" + mm + ":" + ss + "," + ms;
    assert tail[1..3] == mm && tail[4..6] == ss && tail[7..] == ms;
    assert f[n..] == tail;
  }

  /** A timestamp whose separators and digit fields sit where the layout puts
      them reads back as the fields' total. */
  lemma ParseFields(f: string, hh: string, mm: string, ss: string, ms: string)
    requires |f| == |hh| + 10 && |hh| >= 2
    requires f[..|f| - 10] == hh && f[|f| - 9..|f| - 7] == mm && f[|f| - 6..|f| - 4] == ss && f[|f| - 3..] == ms
    requires f[|f| - 10] == ':' && f[|f| - 7] == ':' && f[|f| - 4] == ','
    requires AllDigits(hh) && AllDigits(mm) && AllDigits(ss) && AllDigits(ms)
    ensures ParseTimestamp(f) == Some(FieldsValue(hh, mm, ss, ms))
  {
  }

  /** Parsing a well-formed layout reads each field's digits. */
  lemma ParseLayout(hh: string, mm: string, ss: string, ms: string)
    requires |hh| >= 2 && |mm| == 2 && |ss| == 2 && |ms| == 3
    requires AllDigits(hh) && AllDigits(mm) && AllDigits(ss) && AllDigits(ms)
    ensures |Layout(hh, mm, ss, ms)| >= 12
    ensures ParseTimestamp(Layout(hh, mm, ss, ms)) == Some(FieldsValue(hh, mm, ss, ms))
  {
    var f := Layout(hh, mm, ss, ms);
    LayoutSlices(f, hh, mm, ss, ms);
    ParseFields(f, hh, mm, ss, ms);
  }

  /** Zero-padded field texts read back as the field values. */
  lemma PaddedFieldsValue(h: nat, m: nat, s: nat, ms: nat)
    ensures AllDigits(FormatPadded(h, 2)) && AllDigits(FormatPadded(m, 2))
    ensures AllDigits(FormatPadded(s, 2)) && AllDigits(FormatPadded(ms, 3))
    ensures |FormatPadded(h, 2)| >= 2
    ensures FieldsValue(FormatPadded(h, 2), FormatPadded(m, 2), FormatPadded(s, 2), FormatPadded(ms, 3)) ==
      h * 3600000 + m * 60000 + s * 1000 + ms
  {
    PaddedRoundTrip(h, 2);
    PaddedRoundTrip(m, 2);
    PaddedRoundTrip(s, 2);
    PaddedRoundTrip(ms, 3);
  }

  /** `Fmt` lays out the zero-padded fields of `Fields`. */
  lemma FmtIsLayout(t: int, h: int, m: int, s: int, ms: int)
    requires Fields(t) == (h, m, s, ms)
    ensures Fmt(t) == Layout(FormatPadded(h, 2), FormatPadded(m, 2), FormatPadded(s, 2), FormatPadded(ms, 3))
  {
  }

  /** A non-negative timestamp renders as the layout of the zero-padded
      fields of `Fields`, which are digit strings whose value is the timestamp;
      with `ParseLayout`, parsing `Fmt(t)` gives `t` back. */
  lemma FmtRoundTrip(t: int, h: nat, m: nat, s: nat, ms: nat)
    requires t >= 0 && Fields(t) == (h, m, s, ms)
    ensures Fmt(t) == Layout(FormatPadded(h, 2), FormatPadded(m, 2), FormatPadded(s, 2), FormatPadded(ms, 3))
    ensures AllDigits(FormatPadded(h, 2)) && AllDigits(FormatPadded(m, 2))
    ensures AllDigits(FormatPadded(s, 2)) && AllDigits(FormatPadded(ms, 3))
    ensures |FormatPadded(h, 2)| >= 2 && |FormatPadded(m, 2)| == 2
    ensures |FormatPadded(s, 2)| == 2 && |FormatPadded(ms, 3)| == 3
    ensures FieldsValue(FormatPadded(h, 2), FormatPadded(m, 2), FormatPadded(s, 2), FormatPadded(ms, 3)) == t
  {
    FmtIsLayout(t, h, m, s, ms);
    PaddedFieldsValue(h, m, s, ms);
    PaddedWidth(m, 2);
    PaddedWidth(s, 2);
    PaddedWidth(ms, 3);
    assert h * 3600000 + m * 60000 + s * 1000 + ms == t;
  }

  /** Parsing a non-negative timestamp's rendering gives the timestamp back. */
  lemma FmtParses(t: int)
    requires t >= 0
    ensures ParseTimestamp(Fmt(t)) == Some(t)
  {
    var f := Fields(t);
    var hh, mm, ss, mss := FormatPadded(f.0, 2), FormatPadded(f.1, 2), FormatPadded(f.2, 2), FormatPadded(f.3, 3);
    FmtRoundTrip(t, f.0, f.1, f.2, f.3);
    ParseLayout(hh, mm, ss, mss);
  }

  /** Distinct non-negative timestamps never render alike. */
  lemma FmtInjective(a: int, b: int)
    requires a >= 0 && b >= 0 && Fmt(a) == Fmt(b)
    ensures a == b
  {
    FmtParses(a);
    FmtParses(b);
  }

  /** A negative count renders with a negative hour field, as floor division
      makes it. */
  lemma FmtNegative()
    ensures Fmt(-1) == "-1:59:59,999"
  {
    NegativeFields();
    hide FormatPadded, Fields;
    assert Layout("-1", "59", "59", "999") == "-1:59:59,999";
  }

  /** The fields of -1 and their renderings. */
  lemma NegativeFields()
    ensures Fields(-1) == (-1, 59, 59, 999)
    ensures FormatPadded(-1, 2) == "-1" && FormatPadded(59, 2) == "59" && FormatPadded(999, 3) == "999"
  {
    assert NatToString(1) == "1";
    assert NatToString(59) == NatToString(5) + [DigitChar(9)] == "59";
    assert NatToString(999) == NatToString(99) + [DigitChar(9)] == "999";
  }

  /** The `divmod` chain of `fmt_srt`/`_fmt_srt` applied to a millisecond count. */
  function FmtDivmod(ms: int): string
  {
    var h, r1 := ms / 3600000, ms % 3600000;
    var m, r2 := r1 / 60000, r1 % 60000;
    var s, r3 := r2 / 1000, r2 % 1000;
    Layout(FormatPadded(h, 2), FormatPadded(m, 2), FormatPadded(s, 2), FormatPadded(r3, 3))
  }

  /** The two millisecond formatters agree on every integer. */
  lemma FmtDivmodAgrees(ms: int)
    ensures FmtDivmod(ms) == Fmt(ms)
  {
    DivmodFields(ms);
    hide FormatPadded, Layout, Fields;
  }

  /** The `divmod` chain computes the same four fields as `Fields`. */
  lemma DivmodFields(ms: int)
    ensures ms / 3600000 == Fields(ms).0
    ensures (ms % 3600000) / 60000 == Fields(ms).1
    ensures (ms % 3600000 % 60000) / 1000 == Fields(ms).2
    ensures ms % 3600000 % 60000 % 1000 == Fields(ms).3
  {
    var (h, m, s, r) := Fields(ms);
    var r1 := ms % 3600000;
    assert ms == h * 3600000 + (m * 60000 + s * 1000 + r);
    assert 0 <= m * 60000 + s * 1000 + r < 3600000;
    assert ms / 3600000 == h && r1 == m * 60000 + s * 1000 + r;
    assert r1 / 60000 == m && r1 % 60000 == s * 1000 + r;
    assert (s * 1000 + r) / 1000 == s && (s * 1000 + r) % 1000 == r;
  }

  /** `fmt_srt(t)` / `_fmt_srt(t)`: seconds rounded to whole milliseconds,
      half to even, then rendered exactly as the SubRip writer renders
      milliseconds. */
  function FmtSeconds(t: real): (r: string)
    ensures r == Fmt(RoundHalfEven(t * 1000.0))
  {
    FmtDivmodAgrees(RoundHalfEven(t * 1000.0));
    FmtDivmod(RoundHalfEven(t * 1000.0))
  }

  /** A non-negative time in seconds renders as its nearest millisecond. */
  lemma FmtSecondsRoundTrip(t: real)
    requires t >= 0.0
    ensures ParseTimestamp(FmtSeconds(t)) == Some(RoundHalfEven(t * 1000.0))
    ensures var ms := RoundHalfEven(t * 1000.0) as real; -0.5 <= t * 1000.0 - ms <= 0.5
  {
    FmtParses(RoundHalfEven(t * 1000.0));
  }

  /** One written cue: `f"{i}\n{start} --> {end}\n{text}\n\n"`. */
  function CueBlock(index: int, start: string, end: string, text: string): string
  {
    IntToString(index) + "\n" + start + " --> " + end + "\n" + text + "\n\n"
  }

  // ---------------------------------------------------------------------
  // `srt_from_durations`

  /** The four lines of cue `index`, timestamps rendered by `fmt`. */
  function CueLines(index: int, text: string, start: int, end: int, fmt: int -> string): (r: seq<string>)
    ensures |r| == 4
  {
    [IntToString(index), fmt(start) + " --> " + fmt(end), text, ""]
  }

  /** Reference layout of the first `n` cues: cue `i` runs from the sum of the
      durations before it to the sum including it. */
  function SrtLines(sents: seq<string>, durs: seq<int>, n: nat, fmt: int -> string): (r: seq<string>)
    requires n <= |sents| && n <= |durs|
    ensures |r| == 4 * n
  {
    if n == 0 then []
    else SrtLines(sents, durs, n - 1, fmt) + CueLines(n, sents[n - 1], Sum(durs[..n - 1]), Sum(durs[..n]), fmt)
  }

  /** `srt_from_durations`: pairs sentences with durations (surplus items of
      either list are ignored), keeps a running start time and joins all cue
      lines with `"\n"`. */
  method SrtFromDurations(sents: seq<string>, durs: seq<int>) returns (out: string)
    ensures out == Join(SrtLines(sents, durs, Min(|sents|, |durs|), Fmt), "\n")
  {
    var lines: seq<string> := [];
    var t := 0;
    var n := Min(|sents|, |durs|);
    for i := 0 to n
      invariant lines == SrtLines(sents, durs, i, Fmt)
      invariant t == Sum(durs[..i])
    {
      SumPrefixStep(durs, i);
      var start, end := t, t + durs[i];
      assert end == Sum(durs[..i + 1]);
      assert SrtLines(sents, durs, i + 1, Fmt) == lines + CueLines(i + 1, sents[i], start, end, Fmt);
      lines := lines + CueLines(i + 1, sents[i], start, end, Fmt);
      t := end;
    }
    out := Join(lines, "\n");
  }

  /** The lines of cue `i` (0-based) sit at `4i..4i+4`. */
  lemma {:induction false} SrtLinesAt(sents: seq<string>, durs: seq<int>, n: nat, i: nat, fmt: int -> string)
    requires n <= |sents| && n <= |durs| && i < n
    ensures SrtLines(sents, durs, n, fmt)[4 * i..4 * i + 4] ==
      CueLines(i + 1, sents[i], Sum(durs[..i]), Sum(durs[..i + 1]), fmt)
  {
    if i < n - 1 {
      SrtLinesAt(sents, durs, n - 1, i, fmt);
      var p := SrtLines(sents, durs, n - 1, fmt);
      assert SrtLines(sents, durs, n, fmt)[4 * i..4 * i + 4] == p[4 * i..4 * i + 4];
    }
  }

  /** The first cue starts at zero, each cue ends where the next one starts,
      and with non-negative durations the cue is non-empty and starts never
      go back. */
  lemma CueTiming(durs: seq<int>, i: nat)
    requires i + 1 < |durs|
    ensures Sum(durs[..0]) == 0
    ensures Sum(durs[..i + 1]) == Sum(durs[..i]) + durs[i]
    ensures (forall k :: 0 <= k < |durs| ==> durs[k] >= 0) ==>
      Sum(durs[..i]) <= Sum(durs[..i + 1]) <= Sum(durs[..i + 2])
  {
    SumPrefixStep(durs, i);
    SumPrefixStep(durs, i + 1);
  }

  /** The timing line of cue `i` ends with the timestamp the next cue's
      timing line starts with. */
  lemma CuesContiguous(sents: seq<string>, durs: seq<int>, n: nat, i: nat, fmt: int -> string)
    requires n <= |sents| && n <= |durs| && i + 1 < n
    ensures SrtLines(sents, durs, n, fmt)[4 * i + 1] == fmt(Sum(durs[..i])) + " --> " + fmt(Sum(durs[..i + 1]))
    ensures SrtLines(sents, durs, n, fmt)[4 * (i + 1) + 1] ==
      fmt(Sum(durs[..i + 1])) + " --> " + fmt(Sum(durs[..i + 2]))
  {
    SrtLinesAt(sents, durs, n, i, fmt);
    SrtLinesAt(sents, durs, n, i + 1, fmt);
  }

  /** The cue blocks of the first `n` cues, back to back. */
  function SrtBlocks(sents: seq<string>, durs: seq<int>, n: nat, fmt: int -> string): string
    requires n <= |sents| && n <= |durs|
  {
    if n == 0 then ""
    else SrtBlocks(sents, durs, n - 1, fmt) + CueBlock(n, fmt(Sum(durs[..n - 1])), fmt(Sum(durs[..n])), sents[n - 1])
  }

  /** The four lines of a cue joined with newlines, plus the separator that
      follows them, are its written block. */
  lemma CueLinesBlock(index: int, text: string, start: int, end: int, fmt: int -> string)
    ensures Join(CueLines(index, text, start, end, fmt), "\n") + "\n" ==
      CueBlock(index, fmt(start), fmt(end), text)
  {
    var cue := CueLines(index, text, start, end, fmt);
    JoinCons(cue[0], cue[1..], "\n");
    JoinCons(cue[1], cue[2..], "\n");
    JoinCons(cue[2], cue[3..], "\n");
    assert cue[1..][1..] == cue[2..] && cue[2..][1..] == cue[3..];
  }

  /** No cues give the empty string; otherwise the file is the written cue
      blocks minus the final newline. */
  lemma {:induction false} SrtTextIsBlocks(sents: seq<string>, durs: seq<int>, n: nat, fmt: int -> string)
    requires n <= |sents| && n <= |durs|
    ensures n == 0 ==> Join(SrtLines(sents, durs, n, fmt), "\n") == ""
    ensures n > 0 ==> Join(SrtLines(sents, durs, n, fmt), "\n") + "\n" == SrtBlocks(sents, durs, n, fmt)
  {
    if n > 0 {
      var cue := CueLines(n, sents[n - 1], Sum(durs[..n - 1]), Sum(durs[..n]), fmt);
      CueLinesBlock(n, sents[n - 1], Sum(durs[..n - 1]), Sum(durs[..n]), fmt);
      if n == 1 {
        assert SrtLines(sents, durs, n, fmt) == cue;
      } else {
        SrtTextIsBlocks(sents, durs, n - 1, fmt);
        JoinAppend(SrtLines(sents, durs, n - 1, fmt), cue, "\n");
      }
    }
  }

  /** A non-empty file ends with the last cue's text and one newline. */
  lemma SrtEndsWithLastText(sents: seq<string>, durs: seq<int>, n: nat, fmt: int -> string)
    requires 0 < n <= |sents| && n <= |durs|
    ensures EndsWith(Join(SrtLines(sents, durs, n, fmt), "\n"), sents[n - 1] + "\n")
  {
    SrtTextIsBlocks(sents, durs, n, fmt);
    var j := Join(SrtLines(sents, durs, n, fmt), "\n");
    var b := CueBlock(n, fmt(Sum(durs[..n - 1])), fmt(Sum(durs[..n])), sents[n - 1]);
    var x := sents[n - 1] + "\n";
    var a := SrtBlocks(sents, durs, n - 1, fmt);
    assert j + "\n" == a + b;
    CueBlockEnds(n, fmt(Sum(durs[..n - 1])), fmt(Sum(durs[..n])), sents[n - 1]);
    hide *;
    EndsBeforeNewline(j, a, b, x);
  }

  /** A cue block ends with its text and two newlines. */
  lemma CueBlockEnds(index: int, start: string, end: string, text: string)
    ensures EndsWith(CueBlock(index, start, end, text), text + "\n" + "\n")
  {
    var p := IntToString(index) + "\n" + start + " --> " + end + "\n";
    assert CueBlock(index, start, end, text) == p + (text + "\n" + "\n");
  }

  /** Text that, with a newline added, ends in `x` and a newline, ends in `x`. */
  lemma EndsBeforeNewline(j: string, a: string, b: string, x: string)
    requires j + "\n" == a + b && EndsWith(b, x + "\n")
    ensures EndsWith(j, x)
  {
    var s := j + "\n";
    assert s[|s| - |x| - 1..] == x + "\n" by {
      assert s[|s| - |b|..] == b;
    }
    assert j[|j| - |x|..] == s[|s| - |x| - 1..][..|x|];
  }
}

=== FILE: streaming.dfy ===
/** Byte-stream framers for live audio (app/utils/streaming.py): a streaming
    RIFF/WAVE container and a raw PCM16 stream that only ever writes whole
    samples. Generators are modelled as the full sequence of blocks they yield. */
module Streaming {

  import opened Common

  /** The data-size placeholder of a streaming header: "unknown length". */
  const UNKNOWN_SIZE: int := 0xFFFF_FFFF

  /** Bytes of an ASCII tag such as "RIFF". */
  function Ascii(s: string): (r: seq<byte>)
    requires forall i :: 0 <= i < |s| ==> s[i] as int < 256
    ensures |r| == |s|
    ensures forall i :: 0 <= i < |s| ==> r[i] == s[i] as int
  {
    seq(|s|, i requires 0 <= i < |s| => s[i] as int as byte)
  }

  /** `struct.pack("<I", x)` */
  function LE32(x: int): (r: seq<byte>)
    requires 0 <= x <= UNKNOWN_SIZE
    ensures |r| == 4
  {
    [x % 256, (x / 256) % 256, (x / 256 / 256) % 256, x / 256 / 256 / 256]
  }

  /** `struct.pack("<H", x)` */
  function LE16(x: int): (r: seq<byte>)
    requires 0 <= x < 65536
    ensures |r| == 2
  {
    [x % 256, x / 256]
  }

  /** `struct.unpack("<I", b)` */
  function ReadLE32(b: seq<byte>): int
    requires |b| == 4
  {
    b[0] as int + 256 * (b[1] as int) + 65536 * (b[2] as int) + 16777216 * (b[3] as int)
  }

  /** `struct.unpack("<H", b)` */
  function ReadLE16(b: seq<byte>): int
    requires |b| == 2
  {
    b[0] as int + 256 * (b[1] as int)
  }

  lemma LE32RoundTrip(x: int)
    requires 0 <= x <= UNKNOWN_SIZE
    ensures ReadLE32(LE32(x)) == x
  {
    var q1 := x / 256;
    var q2 := q1 / 256;
    var q3 := q2 / 256;
    assert x == 256 * q1 + x % 256;
    assert q1 == 256 * q2 + q1 % 256;
    assert q2 == 256 * q3 + q2 % 256;
  }

  lemma LE16RoundTrip(x: int)
    requires 0 <= x < 65536
    ensures ReadLE16(LE16(x)) == x
  {
  }

  /** Sample rates whose header fields fit in `struct.pack("<I")`. */
  predicate PackableRate(sr: int)
  {
    0 <= sr && 2 * sr <= UNKNOWN_SIZE
  }

  /** The RIFF descriptor: tag, unknown size, form type. */
  function RiffDescriptor(): (r: seq<byte>)
    ensures |r| == 12 && r[0..4] == Ascii("RIFF") && r[8..12] == Ascii("WAVE")
    ensures ReadLE32(r[4..8]) == UNKNOWN_SIZE
  {
    var r := Ascii("RIFF") + LE32(UNKNOWN_SIZE) + Ascii("WAVE");
    assert r[4..8] == LE32(UNKNOWN_SIZE);
    LE32RoundTrip(UNKNOWN_SIZE);
    r
  }

  /** The first half of the "fmt " chunk: tag, size 16, PCM, mono. */
  function FmtFormat(): (r: seq<byte>)
    ensures |r| == 12 && r[0..4] == Ascii("fmt ")
    ensures ReadLE32(r[4..8]) == 16 && ReadLE16(r[8..10]) == 1 && ReadLE16(r[10..12]) == 1
  {
    var r := Ascii("fmt ") + LE32(16) + LE16(1) + LE16(1);
    assert r[4..8] == LE32(16) && r[8..10] == LE16(1) && r[10..12] == LE16(1);
    r
  }

  /** The second half of the "fmt " chunk: rate, byte rate, block alignment,
      bits per sample. */
  function FmtRates(sr: int): (r: seq<byte>)
    requires PackableRate(sr)
    ensures |r| == 12
    ensures ReadLE32(r[0..4]) == sr && ReadLE32(r[4..8]) == 2 * sr
    ensures ReadLE16(r[8..10]) == 2 && ReadLE16(r[10..12]) == 16
  {
    var r := LE32(sr) + LE32(2 * sr) + LE16(2) + LE16(16);
    assert r[0..4] == LE32(sr) && r[4..8] == LE32(2 * sr);
    assert r[8..10] == LE16(2) && r[10..12] == LE16(16);
    LE32RoundTrip(sr);
    LE32RoundTrip(2 * sr);
    r
  }

  /** The "data" chunk header with an unknown size. */
  function DataDescriptor(): (r: seq<byte>)
    ensures |r| == 8 && r[0..4] == Ascii("data") && ReadLE32(r[4..8]) == UNKNOWN_SIZE
  {
    var r := Ascii("data") + LE32(UNKNOWN_SIZE);
    assert r[4..8] == LE32(UNKNOWN_SIZE);
    LE32RoundTrip(UNKNOWN_SIZE);
    r
  }

  /** `_wav_streaming_header(sr)`: 16-bit mono PCM, both size fields unknown.
      `struct.pack` raises `struct.error` (here `None`) when the rate or the
      byte rate does not fit an unsigned 32-bit field. */
  function WavHeader(sr: int): (r: Option<seq<byte>>)
    ensures r.Some? <==> PackableRate(sr)
    ensures r.Some? ==> |r.value| == 44
    ensures r.Some? ==> r.value[0..4] == Ascii("RIFF") && r.value[8..12] == Ascii("WAVE")
    ensures r.Some? ==> r.value[12..16] == Ascii("fmt ") && r.value[36..40] == Ascii("data")
    ensures r.Some? ==> ReadLE32(r.value[4..8]) == UNKNOWN_SIZE && ReadLE32(r.value[40..44]) == UNKNOWN_SIZE
    ensures r.Some? ==> ReadLE32(r.value[16..20]) == 16                         // fmt chunk size
    ensures r.Some? ==> ReadLE16(r.value[20..22]) == 1 && ReadLE16(r.value[22..24]) == 1 // PCM, mono
    ensures r.Some? ==> ReadLE32(r.value[24..28]) == sr && ReadLE32(r.value[28..32]) == 2 * sr
    ensures r.Some? ==> ReadLE16(r.value[32..34]) == 2 && ReadLE16(r.value[34..36]) == 16
  {
    if PackableRate(sr) then
      var a, b, c, d := RiffDescriptor(), FmtFormat(), FmtRates(sr), DataDescriptor();
      HeaderLayout(a, b, c, d);
      Some(a + b + c + d)
    else None
  }

  /** Where the fields of four header pieces land once they are joined. */
  lemma HeaderLayout(a: seq<byte>, b: seq<byte>, c: seq<byte>, d: seq<byte>)
    requires |a| == 12 && |b| == 12 && |c| == 12 && |d| == 8
    ensures var h := a + b + c + d;
      |h| == 44 && h[0..4] == a[0..4] && h[4..8] == a[4..8] && h[8..12] == a[8..12] &&
      h[12..16] == b[0..4] && h[16..20] == b[4..8] && h[20..22] == b[8..10] && h[22..24] == b[10..12] &&
      h[24..28] == c[0..4] && h[28..32] == c[4..8] && h[32..34] == c[8..10] && h[34..36] == c[10..12] &&
      h[36..40] == d[0..4] && h[40..44] == d[4..8]
  {
    var h := a + b + c + d;
    SliceWithin(h, 0, a, 0, 4);
    SliceWithin(h, 0, a, 4, 8);
    SliceWithin(h, 0, a, 8, 12);
    assert h[12..24] == b;
    SliceWithin(h, 12, b, 0, 4);
    SliceWithin(h, 12, b, 4, 8);
    SliceWithin(h, 12, b, 8, 10);
    SliceWithin(h, 12, b, 10, 12);
    assert h[24..36] == c;
    SliceWithin(h, 24, c, 0, 4);
    SliceWithin(h, 24, c, 4, 8);
    SliceWithin(h, 24, c, 8, 10);
    SliceWithin(h, 24, c, 10, 12);
    assert h[36..44] == d;
    SliceWithin(h, 36, d, 0, 4);
    SliceWithin(h, 36, d, 4, 8);
  }

  /** A reader for streaming headers: the sample rate when `h` is a 44-byte
      16-bit mono PCM header whose byte rate and block alignment agree with it. */
  function HeaderSampleRate(h: seq<byte>): Option<int>
  {
    if |h| == 44 && h[0..4] == Ascii("RIFF") && h[8..12] == Ascii("WAVE")
      && h[12..16] == Ascii("fmt ") && h[36..40] == Ascii("data")
      && ReadLE32(h[16..20]) == 16 && ReadLE16(h[20..22]) == 1 && ReadLE16(h[22..24]) == 1
      && ReadLE32(h[28..32]) == 2 * ReadLE32(h[24..28])
      && ReadLE16(h[32..34]) == 2 && ReadLE16(h[34..36]) == 16
    then Some(ReadLE32(h[24..28]))
    else None
  }

  /** The streaming header is a well-formed header that declares exactly `sr`. */
  lemma WavHeaderDeclaresRate(sr: int)
    ensures WavHeader(sr).Some? ==> HeaderSampleRate(WavHeader(sr).value) == Some(sr)
  {
  }

  /** Different rates give different headers. */
  lemma WavHeaderInjective(a: int, b: int)
    requires WavHeader(a).Some? && WavHeader(a) == WavHeader(b)
    ensures a == b
  {
    WavHeaderDeclaresRate(a);
    WavHeaderDeclaresRate(b);
  }

  /** Number of bytes in `ms` milliseconds of 16-bit mono audio:
      `int(sr * 2 * ms / 1000)`. */
  function SilenceBytes(sr: int, ms: int): int
  {
    TruncDiv(sr * 2 * ms, 1000)
  }

  /** The blocks without the empty ones, in order (the `if not c: continue` filter). */
  function NonEmpty(xs: seq<seq<byte>>): (r: seq<seq<byte>>)
    ensures |r| <= |xs|
    ensures forall i :: 0 <= i < |r| ==> |r[i]| > 0
    ensures forall i :: 0 <= i < |r| ==> r[i] in xs
    ensures Flatten(r) == Flatten(xs)
  {
    if |xs| == 0 then []
    else
      var t := NonEmpty(xs[1..]);
      NonEmptyStep(xs, t);
      if |xs[0]| == 0 then t else [xs[0]] + t
  }

  /** The filter's step: what the tail kept, with the head in front when it
      is not empty. */
  lemma NonEmptyStep(xs: seq<seq<byte>>, t: seq<seq<byte>>)
    requires |xs| > 0 && |t| <= |xs| - 1
    requires forall i :: 0 <= i < |t| ==> |t[i]| > 0 && t[i] in xs[1..]
    requires Flatten(t) == Flatten(xs[1..])
    ensures var r := if |xs[0]| == 0 then t else [xs[0]] + t;
      |r| <= |xs| && (forall i :: 0 <= i < |r| ==> |r[i]| > 0 && r[i] in xs) && Flatten(r) == Flatten(xs)
  {
    var r := if |xs[0]| == 0 then t else [xs[0]] + t;
    assert Flatten(xs) == xs[0] + Flatten(xs[1..]);
    assert Flatten([xs[0]] + t) == xs[0] + Flatten(t) by {
      assert ([xs[0]] + t)[1..] == t;
    }
    hide Flatten;
    forall i | 0 <= i < |r| ensures |r[i]| > 0 && r[i] in xs {
      if |xs[0]| == 0 {
        assert r[i] in xs[1..];
      } else if i > 0 {
        assert r[i] == t[i - 1] && t[i - 1] in xs[1..];
      }
    }
    if |xs[0]| == 0 {
      assert xs[0] == [];
    }
  }

  /** Non-empty blocks are forwarded as they are. */
  lemma NonEmptyKeeps(xs: seq<seq<byte>>)
    requires forall i :: 0 <= i < |xs| ==> |xs[i]| > 0
    ensures NonEmpty(xs) == xs
  {
  }

  /** How many items the prebuffer loop pulls: `range(max(0, prebuffer))`,
      cut short by `StopIteration`. Empty items use up the budget too. */
  function PulledCount(n: nat, prebuffer: int): (k: nat)
    ensures k <= n && k <= Max(0, prebuffer)
    ensures k == n || k == Max(0, prebuffer)
  {
    Min(Max(0, prebuffer), n)
  }

  // ---------------------------------------------------------------------------
  // WAV container stream

  /** The optional silence block after the header (`b"\x00" * int(...)`, sent when non-empty). */
  function WavSilence(sr: int, ms: int): (r: seq<seq<byte>>)
    ensures |r| <= 1
    ensures |r| == 1 <==> ms > 0 && SilenceBytes(sr, ms) > 0
    ensures |r| == 1 ==> r[0] == Zeros(SilenceBytes(sr, ms))
  {
    if ms > 0 && SilenceBytes(sr, ms) > 0 then [Zeros(SilenceBytes(sr, ms))] else []
  }

  /** The blocks after header and silence: one coalesced prebuffer block, then
      every later non-empty item unchanged. */
  function WavData(chunks: seq<seq<byte>>, prebuffer: int): (r: seq<seq<byte>>)
    ensures Flatten(r) == Flatten(chunks)
    ensures forall i :: 0 <= i < |r| ==> |r[i]| > 0
  {
    var k := PulledCount(|chunks|, prebuffer);
    var buf := Flatten(chunks[..k]);
    var tail := NonEmpty(chunks[k..]);
    FlattenSplit(chunks, k);
    if |buf| > 0 then
      FlattenAppend([buf], tail);
      FlattenSingle(buf);
      [buf] + tail
    else tail
  }

  /** `wav_stream_from_chunks(sr, chunks, prepend_silence_ms=ms, prebuffer_chunks=prebuffer)`.
      The header is built on the first pull, so a rate `struct.pack` rejects
      makes the generator raise before it yields anything (`None`). */
  function WavStream(sr: int, chunks: seq<seq<byte>>, ms: int, prebuffer: int): (r: Option<seq<seq<byte>>>)
    ensures r.Some? <==> PackableRate(sr)
    ensures r.Some? ==> |r.value| >= 1 && Some(r.value[0]) == WavHeader(sr)
  {
    match WavHeader(sr)
    case None => None
    case Some(h) => Some([h] + WavSilence(sr, ms) + WavData(chunks, prebuffer))
  }

  /** Shape of the WAV stream: it fails exactly for rates the header cannot
      hold; otherwise it is the header first, then the optional silence
      block, then data blocks that are never empty and concatenate to the
      input with no padding. */
  lemma WavStreamFraming(sr: int, chunks: seq<seq<byte>>, ms: int, prebuffer: int)
    ensures WavStream(sr, chunks, ms, prebuffer).Some? <==> PackableRate(sr)
    ensures WavStream(sr, chunks, ms, prebuffer).Some? ==>
      var r := WavStream(sr, chunks, ms, prebuffer).value;
      var s := |WavSilence(sr, ms)|;
      && |r| >= 1 + s
      && Some(r[0]) == WavHeader(sr) && |r[0]| == 44
      && (s == 1 ==> r[1] == Zeros(SilenceBytes(sr, ms)))
      && Flatten(r[1 + s..]) == Flatten(chunks)
      && forall i :: 1 <= i < |r| ==> |r[i]| > 0
  {
    if PackableRate(sr) {
      var r := WavStream(sr, chunks, ms, prebuffer).value;
      var s := |WavSilence(sr, ms)|;
      assert r[1 + s..] == WavData(chunks, prebuffer);
    }
  }

  /** Positions from `from` on whose items are non-empty, in ascending order. */
  function NonEmptyIndices(xs: seq<seq<byte>>, from: nat): (p: seq<nat>)
    requires from <= |xs|
    ensures forall j :: 0 <= j < |p| ==> from <= p[j] < |xs|
    decreases |xs| - from
  {
    if from == |xs| then []
    else (if |xs[from]| > 0 then [from] else []) + NonEmptyIndices(xs, from + 1)
  }

  /** The positions are exactly the non-empty items from `from` on, ascending. */
  lemma NonEmptyIndicesSpec(xs: seq<seq<byte>>, from: nat)
    requires from <= |xs|
    ensures forall j :: 0 <= j < |NonEmptyIndices(xs, from)| ==> |xs[NonEmptyIndices(xs, from)[j]]| > 0
    ensures forall j, l :: 0 <= j < l < |NonEmptyIndices(xs, from)| ==>
      NonEmptyIndices(xs, from)[j] < NonEmptyIndices(xs, from)[l]
    ensures forall i :: from <= i < |xs| && |xs[i]| > 0 ==> i in NonEmptyIndices(xs, from)
  {
    IndicesNonEmpty(xs, from);
    IndicesAscending(xs, from);
    IndicesComplete(xs, from);
  }

  lemma {:induction false} IndicesNonEmpty(xs: seq<seq<byte>>, from: nat)
    requires from <= |xs|
    ensures forall j :: 0 <= j < |NonEmptyIndices(xs, from)| ==> |xs[NonEmptyIndices(xs, from)[j]]| > 0
    decreases |xs| - from
  {
    if from < |xs| {
      IndicesNonEmpty(xs, from + 1);
      var p, q := NonEmptyIndices(xs, from), NonEmptyIndices(xs, from + 1);
      assert p == (if |xs[from]| > 0 then [from] else []) + q;
    }
  }

  lemma {:induction false} IndicesAscending(xs: seq<seq<byte>>, from: nat)
    requires from <= |xs|
    ensures forall j, l :: 0 <= j < l < |NonEmptyIndices(xs, from)| ==>
      NonEmptyIndices(xs, from)[j] < NonEmptyIndices(xs, from)[l]
    decreases |xs| - from
  {
    if from < |xs| {
      IndicesAscending(xs, from + 1);
      var p, q := NonEmptyIndices(xs, from), NonEmptyIndices(xs, from + 1);
      assert p == (if |xs[from]| > 0 then [from] else []) + q;
      hide NonEmptyIndices;
      if |xs[from]| > 0 {
        assert forall j :: 1 <= j < |p| ==> p[j] == q[j - 1];
      }
    }
  }

  lemma {:induction false} IndicesComplete(xs: seq<seq<byte>>, from: nat)
    requires from <= |xs|
    ensures forall i :: from <= i < |xs| && |xs[i]| > 0 ==> i in NonEmptyIndices(xs, from)
    decreases |xs| - from
  {
    if from < |xs| {
      IndicesComplete(xs, from + 1);
      var p, q := NonEmptyIndices(xs, from), NonEmptyIndices(xs, from + 1);
      assert p == (if |xs[from]| > 0 then [from] else []) + q;
      hide NonEmptyIndices;
      assert forall i :: i in q ==> i in p;
    }
  }

  /** The filtered blocks are the items at the non-empty positions. */
  lemma {:induction false} NonEmptyAt(xs: seq<seq<byte>>, from: nat)
    requires from <= |xs|
    ensures |NonEmpty(xs[from..])| == |NonEmptyIndices(xs, from)|
    ensures forall j :: 0 <= j < |NonEmptyIndices(xs, from)| ==>
      NonEmpty(xs[from..])[j] == xs[NonEmptyIndices(xs, from)[j]]
    decreases |xs| - from
  {
    if from < |xs| {
      var t := xs[from..];
      var p, q := NonEmptyIndices(xs, from), NonEmptyIndices(xs, from + 1);
      assert t[1..] == xs[from + 1..] && t[0] == xs[from];
      assert NonEmpty(t) == if |t[0]| == 0 then NonEmpty(t[1..]) else [t[0]] + NonEmpty(t[1..]);
      assert p == (if |xs[from]| > 0 then [from] else []) + q;
      hide NonEmpty, NonEmptyIndices, Flatten;
      NonEmptyAt(xs, from + 1);
      if |xs[from]| > 0 {
        forall j | 0 <= j < |p| ensures NonEmpty(t)[j] == xs[p[j]] {
          if j > 0 {
            assert NonEmpty(t)[j] == NonEmpty(t[1..])[j - 1] && p[j] == q[j - 1];
          }
        }
      }
    }
  }

  /** The prebuffer block is the concatenation of the first `max(0, prebuffer)`
      items (fewer when the input runs out), sent only when non-empty; after
      it, every later non-empty item is one block, unchanged and in input
      order, and nothing else is sent. */
  lemma WavPrebufferBlock(chunks: seq<seq<byte>>, prebuffer: int)
    ensures var k := PulledCount(|chunks|, prebuffer);
      var buf := Flatten(chunks[..k]);
      var r := WavData(chunks, prebuffer);
      var p := NonEmptyIndices(chunks, k);
      var d := if |buf| > 0 then 1 else 0;
      && |r| == d + |p|
      && (|buf| > 0 ==> r[0] == buf)
      && (forall j :: 0 <= j < |p| ==> k <= p[j] < |chunks| && |chunks[p[j]]| > 0)
      && (forall j, l :: 0 <= j < l < |p| ==> p[j] < p[l])
      && (forall i :: k <= i < |chunks| && |chunks[i]| > 0 ==> i in p)
      && forall j :: 0 <= j < |p| ==> r[d + j] == chunks[p[j]]
  {
    var k := PulledCount(|chunks|, prebuffer);
    NonEmptyAt(chunks, k);
    NonEmptyIndicesSpec(chunks, k);
  }

  /** The WAV silence block is not rounded to whole samples: at 22050 Hz,
      10 ms of silence is 441 bytes. */
  lemma WavSilenceCanBeOdd()
    ensures WavSilence(22050, 10) == [Zeros(441)]
  {
    assert SilenceBytes(22050, 10) == 441;
  }

  // ---------------------------------------------------------------------------
  // Raw PCM16 stream

  /** `len(pending) & ~1`: the largest even length not above `n`. */
  function EvenPart(n: nat): (e: nat)
    ensures e <= n && n - e <= 1 && e % 2 == 0
  {
    n - n % 2
  }

  /** A trailing odd byte gets one zero (the final flush). */
  function PadEven(b: seq<byte>): (r: seq<byte>)
    ensures |r| % 2 == 0
    ensures |r| == |b| + |b| % 2 && r[..|b|] == b
    ensures |r| > |b| ==> r[|b|] == 0
  {
    if |b| % 2 == 1 then b + [0] else b
  }

  /** `flush_even()`: the even-length head that is written, and what stays pending. */
  function FlushEven(pending: seq<byte>): (r: (seq<byte>, seq<byte>))
    ensures r.0 + r.1 == pending
    ensures |r.0| % 2 == 0
    ensures |r.1| <= 1
  {
    var e := EvenPart(|pending|);
    (pending[..e], pending[e..])
  }

  /** Padding commutes with an even-length prefix. */
  lemma PadEvenAfterEven(a: seq<byte>, b: seq<byte>)
    requires |a| % 2 == 0
    ensures PadEven(a + b) == a + PadEven(b)
  {
  }

  /** The priming silence: `int(sr * 2 * ms / 1000)` rounded up to even. */
  function PcmPrimer(sr: int, ms: int): (r: seq<seq<byte>>)
    ensures |r| <= 1
    ensures forall i :: 0 <= i < |r| ==> |r[i]| % 2 == 0
  {
    if ms > 0 then
      var n0 := SilenceBytes(sr, ms);
      var n := if n0 % 2 == 1 then n0 + 1 else n0;
      if n != 0 then [Zeros(Max(0, n))] else []
    else []
  }

  /** The loop `for c in it: pending += c; out = flush_even(); if out: yield out`
      followed by the final padded flush. */
  function PcmFold(pending: seq<byte>, rest: seq<seq<byte>>): (r: seq<seq<byte>>)
    decreases |rest|
  {
    if |rest| == 0 then
      if |pending| > 0 then [PadEven(pending)] else []
    else
      var f := FlushEven(pending + rest[0]);
      (if |f.0| > 0 then [f.0] else []) + PcmFold(f.1, rest[1..])
  }

  /** Every block the loop yields is a non-empty whole number of samples. */
  lemma {:induction false} PcmFoldBlocks(pending: seq<byte>, rest: seq<seq<byte>>)
    ensures forall i :: 0 <= i < |PcmFold(pending, rest)| ==>
      |PcmFold(pending, rest)[i]| > 0 && |PcmFold(pending, rest)[i]| % 2 == 0
    decreases |rest|
  {
    if |rest| > 0 {
      var f := FlushEven(pending + rest[0]);
      PcmFoldBlocks(f.1, rest[1..]);
    }
  }

  /** What the loop yields concatenates to the pending bytes plus the rest,
      padded to even length once at the very end. */
  lemma {:induction false} PcmFoldConcat(pending: seq<byte>, rest: seq<seq<byte>>)
    ensures Flatten(PcmFold(pending, rest)) == PadEven(pending + Flatten(rest))
    decreases |rest|
  {
    if |rest| == 0 {
      assert pending + Flatten(rest) == pending;
      if |pending| > 0 {
        FlattenSingle(PadEven(pending));
      }
    } else {
      var p := pending + rest[0];
      var f := FlushEven(p);
      var tail := PcmFold(f.1, rest[1..]);
      assert PcmFold(pending, rest) == (if |f.0| > 0 then [f.0] else []) + tail;
      assert Flatten(rest) == rest[0] + Flatten(rest[1..]);
      hide PcmFold, Flatten, PadEven, FlushEven;
      PcmFoldConcat(f.1, rest[1..]);
      PadEvenAfterEven(f.0, f.1 + Flatten(rest[1..]));
      ConcatAssoc(f.0, f.1, Flatten(rest[1..]));
      ConcatAssoc(pending, rest[0], Flatten(rest[1..]));
      assert f.0 + (f.1 + Flatten(rest[1..])) == pending + Flatten(rest);
      FlattenMaybeCons(f.0, tail);
    }
  }

  /** The blocks after the primer: the first flush of the prebuffered items, then the loop. */
  function PcmBody(chunks: seq<seq<byte>>, prebuffer: int): seq<seq<byte>>
  {
    var k := PulledCount(|chunks|, prebuffer);
    var f := FlushEven(Flatten(chunks[..k]));
    (if |f.0| > 0 then [f.0] else []) + PcmFold(f.1, chunks[k..])
  }

  /** `pcm16_stream_from_chunks(sr, chunks, prepend_silence_ms=ms, prebuffer_chunks=prebuffer)` */
  function PcmStream(sr: int, chunks: seq<seq<byte>>, ms: int, prebuffer: int): (r: seq<seq<byte>>)
    ensures |r| >= |PcmPrimer(sr, ms)| && r[..|PcmPrimer(sr, ms)|] == PcmPrimer(sr, ms)
    ensures Flatten(r[|PcmPrimer(sr, ms)|..]) == PadEven(Flatten(chunks))
  {
    var p, b := PcmPrimer(sr, ms), PcmBody(chunks, prebuffer);
    PcmBodyConcat(chunks, prebuffer);
    assert (p + b)[..|p|] == p && (p + b)[|p|..] == b;
    p + b
  }

  /** The concatenation law of the raw stream: the body concatenates to the
      input followed by one zero byte exactly when the input length is odd. */
  lemma PcmBodyConcat(chunks: seq<seq<byte>>, prebuffer: int)
    ensures Flatten(PcmBody(chunks, prebuffer)) == PadEven(Flatten(chunks))
  {
    var k := PulledCount(|chunks|, prebuffer);
    var f := FlushEven(Flatten(chunks[..k]));
    var post := chunks[k..];
    var tail := PcmFold(f.1, post);
    assert PcmBody(chunks, prebuffer) == (if |f.0| > 0 then [f.0] else []) + tail;
    hide PcmBody, PcmFold, Flatten, PadEven, FlushEven, PulledCount;
    PcmFoldConcat(f.1, post);
    FlattenSplit(chunks, k);
    PadEvenAfterEven(f.0, f.1 + Flatten(post));
    ConcatAssoc(f.0, f.1, Flatten(post));
    FlattenMaybeCons(f.0, tail);
    assert f.0 + (f.1 + Flatten(post)) == Flatten(chunks);
    assert Flatten(PcmBody(chunks, prebuffer)) == PadEven(Flatten(chunks));
  }

  /** One zero byte is added exactly when the input length is odd. */
  lemma PcmBodyPadding(chunks: seq<seq<byte>>, prebuffer: int)
    ensures |Flatten(chunks)| % 2 == 1 <==> |Flatten(PcmBody(chunks, prebuffer))| == |Flatten(chunks)| + 1
    ensures |Flatten(chunks)| % 2 == 0 <==> Flatten(PcmBody(chunks, prebuffer)) == Flatten(chunks)
  {
    PcmBodyConcat(chunks, prebuffer);
  }

  /** The framing invariant of the raw stream: every body block is a non-empty
      whole number of 16-bit samples, whatever the input block lengths. */
  lemma PcmBodyBlocks(chunks: seq<seq<byte>>, prebuffer: int)
    ensures forall i :: 0 <= i < |PcmBody(chunks, prebuffer)| ==>
      |PcmBody(chunks, prebuffer)[i]| > 0 && |PcmBody(chunks, prebuffer)[i]| % 2 == 0
  {
    var k := PulledCount(|chunks|, prebuffer);
    var f := FlushEven(Flatten(chunks[..k]));
    var tail := PcmFold(f.1, chunks[k..]);
    PcmFoldBlocks(f.1, chunks[k..]);
    if |f.0| > 0 {
      assert PcmBody(chunks, prebuffer) == [f.0] + tail;
    } else {
      assert PcmBody(chunks, prebuffer) == tail;
    }
  }

  /** The primer is sent only for `ms > 0`: `int(sr * 2 * ms / 1000)` zero bytes
      rounded up to even, left out when that is zero. */
  lemma PcmPrimerShape(sr: int, ms: int)
    requires sr >= 0
    ensures var n0 := SilenceBytes(sr, ms);
      var n := if n0 % 2 == 1 then n0 + 1 else n0;
      && (ms <= 0 ==> PcmPrimer(sr, ms) == [])
      && (ms > 0 && n == 0 ==> PcmPrimer(sr, ms) == [])
      && (ms > 0 && n > 0 ==> PcmPrimer(sr, ms) == [Zeros(n)])
  {
  }

  /** Every block of the raw stream, primer included, is a non-empty whole
      number of 16-bit samples. */
  lemma PcmStreamBlocks(sr: int, chunks: seq<seq<byte>>, ms: int, prebuffer: int)
    requires sr >= 0
    ensures var r := PcmStream(sr, chunks, ms, prebuffer);
      forall i :: 0 <= i < |r| ==> |r[i]| > 0 && |r[i]| % 2 == 0
  {
    PcmBodyBlocks(chunks, prebuffer);
    PcmPrimerShape(sr, ms);
    var p := PcmPrimer(sr, ms);
    var b := PcmBody(chunks, prebuffer);
    var r := PcmStream(sr, chunks, ms, prebuffer);
    forall i | 0 <= i < |r|
      ensures |r[i]| > 0 && |r[i]| % 2 == 0
    {
      if i < |p| {
        assert r[i] == p[i];
      } else {
        assert r[i] == b[i - |p|];
      }
    }
  }

  /** With a negative sample rate the primer arithmetic goes below zero and
      `b"\x00" * n` yields an empty block. */
  lemma PcmPrimerNegativeRate()
    ensures PcmPrimer(-1000, 1) == [[]]
  {
    assert SilenceBytes(-1000, 1) == -2;
  }
}

=== FILE: synthesize.dfy ===
/** Bookkeeping of the batch synthesis back-ends: the per-chunk disk-cache
    key, the Kokoro cache partition and reassembly, the CosyVoice2 per-chunk
    loop with its silence fallback, the speed-change rate and the final
    concatenation. Samples are float32 values, modelled as exact reals; the
    neural back-ends, the resampler and the hash are parameters. */
module Synthesize {

  import opened Common
  import opened Text
  import opened Decimal

  /** A mono buffer of float32 samples. */
  type Audio = seq<real>

  const TARGET_SR: int := 24000

  /** `int(target_sr * 0.5)`: half a second at 24 kHz. */
  const SILENCE_SAMPLES: nat := 12000

  /** `np.zeros(n, dtype=np.float32)` */
  function Silence(n: nat): (r: Audio)
    ensures |r| == n && forall i :: 0 <= i < n ==> r[i] == 0.0
  {
    seq(n, _ => 0.0)
  }

  // ---------------------------------------------------------------------
  // `_hash_key`

  /** The text hashed for a chunk's cache file name. */
  function HashMaterial(voice: string, langCode: string, speedRepr: string, sr: int, text: string): string
  {
    voice + "|" + langCode + "|" + speedRepr + "|" + IntToString(sr) + "|" + text
  }

  /** The first 16 hex digits of the SHA-1 digest (the digest is a parameter). */
  function HashKey(sha1: string -> string, voice: string, langCode: string, speedRepr: string,
                   sr: int, text: string): (r: string)
    ensures var h := sha1(HashMaterial(voice, langCode, speedRepr, sr, text));
      |r| == Min(16, |h|) && r == h[..|r|]
  {
    var h := sha1(HashMaterial(voice, langCode, speedRepr, sr, text));
    if |h| > 16 then h[..16] else h
  }

  /** When voice, language and speed contain no `|`, the hashed text
      determines all five fields, so only the digest can make two chunks
      share a cache file. */
  lemma HashMaterialInjective(v1: string, l1: string, p1: string, r1: int, t1: string,
                              v2: string, l2: string, p2: string, r2: int, t2: string)
    requires '|' !in v1 && '|' !in l1 && '|' !in p1
    requires '|' !in v2 && '|' !in l2 && '|' !in p2
    requires HashMaterial(v1, l1, p1, r1, t1) == HashMaterial(v2, l2, p2, r2, t2)
    ensures v1 == v2 && l1 == l2 && p1 == p2 && r1 == r2 && t1 == t2
  {
    var s1 := IntToString(r1);
    var s2 := IntToString(r2);
    IntToStringChars(r1, '|');
    IntToStringChars(r2, '|');
    var d1, d2 := s1 + "|" + t1, s2 + "|" + t2;
    var c1, c2 := p1 + "|" + d1, p2 + "|" + d2;
    var b1, b2 := l1 + "|" + c1, l2 + "|" + c2;
    assert HashMaterial(v1, l1, p1, r1, t1) == v1 + ['|'] + b1;
    assert HashMaterial(v2, l2, p2, r2, t2) == v2 + ['|'] + b2;
    SeparatedFieldsUnique(v1, b1, v2, b2, '|');
    assert b1 == l1 + ['|'] + c1 && b2 == l2 + ['|'] + c2;
    SeparatedFieldsUnique(l1, c1, l2, c2, '|');
    assert c1 == p1 + ['|'] + d1 && c2 == p2 + ['|'] + d2;
    SeparatedFieldsUnique(p1, d1, p2, d2, '|');
    assert d1 == s1 + ['|'] + t1 && d2 == s2 + ['|'] + t2;
    SeparatedFieldsUnique(s1, t1, s2, t2, '|');
    IntToStringInjective(r1, r2);
  }

  // ---------------------------------------------------------------------
  // Kokoro with a disk cache

  // ---------------------------------------------------------------------
  // float32 samples as signed 16-bit integers

  function Clip(x: real): (r: real)
    ensures -1.0 <= r <= 1.0
    ensures -1.0 <= x <= 1.0 ==> r == x
  {
    if x < -1.0 then -1.0 else if x > 1.0 then 1.0 else x
  }

  /** The float-to-integer cast `astype("<i2")`: truncation toward zero. */
  function TruncReal(x: real): (r: int)
    ensures x >= 0.0 ==> 0.0 <= r as real <= x < r as real + 1.0
    ensures x < 0.0 ==> r as real - 1.0 < x <= r as real <= 0.0
  {
    if x >= 0.0 then x.Floor else -((-x).Floor)
  }

  /** One sample as a signed 16-bit value: `clip(x, -1, 1) * 32767` truncated. */
  function SampleValue(x: real): (r: int)
    ensures -32767 <= r <= 32767
  {
    TruncReal(Clip(x) * 32767.0)
  }

  /** `_write_wav_mono16` followed by `_read_wav_mono16`: every sample is
      clipped, scaled and truncated to 16 bits, then divided by 32767 again. */
  function Quantise(a: Audio): (r: Audio)
    ensures |r| == |a|
    ensures forall i :: 0 <= i < |a| ==> -1.0 <= r[i] <= 1.0
    ensures forall i :: 0 <= i < |a| && Clip(a[i]) >= 0.0 ==>
      Clip(a[i]) - 1.0 / 32767.0 < r[i] <= Clip(a[i])
    ensures forall i :: 0 <= i < |a| && Clip(a[i]) < 0.0 ==>
      Clip(a[i]) <= r[i] < Clip(a[i]) + 1.0 / 32767.0
  {
    seq(|a|, i requires 0 <= i < |a| => QuantiseSample(a[i]))
  }

  function QuantiseSample(x: real): (r: real)
    ensures -1.0 <= r <= 1.0
    ensures Clip(x) >= 0.0 ==> Clip(x) - 1.0 / 32767.0 < r <= Clip(x)
    ensures Clip(x) < 0.0 ==> Clip(x) <= r < Clip(x) + 1.0 / 32767.0
  {
    SampleValue(x) as real / 32767.0
  }

  /** A sample already on the 16-bit grid survives another write and read. */
  lemma QuantiseSampleFixes(x: real)
    ensures QuantiseSample(QuantiseSample(x)) == QuantiseSample(x)
  {
    var v := SampleValue(x);
    var y := v as real / 32767.0;
    assert QuantiseSample(x) == y;
    assert y * 32767.0 == v as real;
    assert Clip(y) == y;
    TruncWhole(v);
    assert SampleValue(y) == v;
  }

  /** Truncating a whole number gives it back. */
  lemma TruncWhole(v: int)
    ensures TruncReal(v as real) == v
  {
  }

  /** Writing a cached buffer back and reading it again changes nothing. */
  lemma QuantiseIdempotent(a: Audio)
    ensures Quantise(Quantise(a)) == Quantise(a)
  {
    forall i | 0 <= i < |a|
      ensures Quantise(Quantise(a))[i] == Quantise(a)[i]
    {
      QuantiseSampleFixes(a[i]);
    }
  }

  /** Out-of-range audio reads back clipped, and in-range audio reads back
      truncated to the 16-bit grid. */
  lemma QuantiseExamples()
    ensures Quantise([1.5, -2.0]) == [1.0, -1.0]
    ensures Quantise([0.3]) == [9830.0 / 32767.0]
    ensures Quantise([0.3]) != [0.3]
  {
    assert TruncReal(0.3 * 32767.0) == 9830;
  }

  /** The cache directory: file key to the audio read back from `{key}.wav`. */
  type Disk = map<string, Audio>

  /** Indices among the first `n` chunks whose cache file is missing, in order. */
  function MissesUpTo(chunks: seq<string>, keyOf: string -> string, disk: Disk, n: nat): (r: seq<nat>)
    requires n <= |chunks|
    ensures forall k :: 0 <= k < |r| ==> r[k] < n
  {
    if n == 0 then []
    else MissesUpTo(chunks, keyOf, disk, n - 1) + (if keyOf(chunks[n - 1]) !in disk then [n - 1] else [])
  }

  /** The texts of the missing chunks, in queue order. */
  function MissTexts(chunks: seq<string>, keyOf: string -> string, disk: Disk): (r: seq<string>)
    ensures |r| == |Misses(chunks, keyOf, disk)|
    ensures forall k :: 0 <= k < |r| ==> r[k] == chunks[Misses(chunks, keyOf, disk)[k]]
  {
    var m := Misses(chunks, keyOf, disk);
    seq(|m|, k requires 0 <= k < |m| => chunks[m[k]])
  }

  /** The queue holds exactly the missing chunks' indices, ascending. */
  lemma MissesUpToProperties(chunks: seq<string>, keyOf: string -> string, disk: Disk, n: nat)
    requires n <= |chunks|
    ensures forall k :: 0 <= k < |MissesUpTo(chunks, keyOf, disk, n)| ==>
      keyOf(chunks[MissesUpTo(chunks, keyOf, disk, n)[k]]) !in disk
    ensures forall k, l :: 0 <= k < l < |MissesUpTo(chunks, keyOf, disk, n)| ==>
      MissesUpTo(chunks, keyOf, disk, n)[k] < MissesUpTo(chunks, keyOf, disk, n)[l]
    ensures forall i :: 0 <= i < n && keyOf(chunks[i]) !in disk ==> i in MissesUpTo(chunks, keyOf, disk, n)
  {
    MissesAreMisses(chunks, keyOf, disk, n);
    MissesAscending(chunks, keyOf, disk, n);
    MissesComplete(chunks, keyOf, disk, n);
  }

  lemma {:induction false} MissesAreMisses(chunks: seq<string>, keyOf: string -> string, disk: Disk, n: nat)
    requires n <= |chunks|
    ensures forall k :: 0 <= k < |MissesUpTo(chunks, keyOf, disk, n)| ==>
      keyOf(chunks[MissesUpTo(chunks, keyOf, disk, n)[k]]) !in disk
  {
    if n > 0 {
      MissesAreMisses(chunks, keyOf, disk, n - 1);
    }
  }

  lemma {:induction false} MissesAscending(chunks: seq<string>, keyOf: string -> string, disk: Disk, n: nat)
    requires n <= |chunks|
    ensures forall k, l :: 0 <= k < l < |MissesUpTo(chunks, keyOf, disk, n)| ==>
      MissesUpTo(chunks, keyOf, disk, n)[k] < MissesUpTo(chunks, keyOf, disk, n)[l]
  {
    if n > 0 {
      MissesAscending(chunks, keyOf, disk, n - 1);
    }
  }

  lemma {:induction false} MissesComplete(chunks: seq<string>, keyOf: string -> string, disk: Disk, n: nat)
    requires n <= |chunks|
    ensures forall i :: 0 <= i < n && keyOf(chunks[i]) !in disk ==> i in MissesUpTo(chunks, keyOf, disk, n)
  {
    if n > 0 {
      MissesComplete(chunks, keyOf, disk, n - 1);
    }
  }

  /** The chunks that go to the back-end, in their original order. */
  function Misses(chunks: seq<string>, keyOf: string -> string, disk: Disk): seq<nat>
  {
    MissesUpTo(chunks, keyOf, disk, |chunks|)
  }

  lemma MissesStep(chunks: seq<string>, keyOf: string -> string, disk: Disk, i: nat)
    requires i < |chunks|
    ensures MissesUpTo(chunks, keyOf, disk, i + 1) ==
      MissesUpTo(chunks, keyOf, disk, i) + (if keyOf(chunks[i]) in disk then [] else [i])
  {
  }

  /** The cache scan: a hit is read back at its own index, a miss leaves a
      placeholder and is queued with its text. */
  method KokoroPartition(chunks: seq<string>, keyOf: string -> string, disk: Disk)
    returns (wavs: seq<Option<Audio>>, missIdx: seq<nat>, missTexts: seq<string>)
    ensures |wavs| == |chunks|
    ensures missIdx == Misses(chunks, keyOf, disk)
    ensures |missTexts| == |missIdx|
    ensures forall k :: 0 <= k < |missIdx| ==> missTexts[k] == chunks[missIdx[k]]
    ensures forall i :: 0 <= i < |chunks| ==>
      wavs[i] == if keyOf(chunks[i]) in disk then Some(disk[keyOf(chunks[i])]) else None
  {
    wavs, missIdx, missTexts := [], [], [];
    var i := 0;
    while i < |chunks|
      invariant 0 <= i <= |chunks|
      invariant |wavs| == i
      invariant missIdx == MissesUpTo(chunks, keyOf, disk, i)
      invariant |missTexts| == |missIdx|
      invariant forall k :: 0 <= k < |missIdx| ==> missTexts[k] == chunks[missIdx[k]]
      invariant forall j :: 0 <= j < i && keyOf(chunks[j]) in disk ==> wavs[j] == Some(disk[keyOf(chunks[j])])
      invariant forall j :: 0 <= j < i && keyOf(chunks[j]) !in disk ==> wavs[j] == None
    {
      var key := keyOf(chunks[i]);
      MissesStep(chunks, keyOf, disk, i);
      if key in disk {
        wavs := wavs + [Some(disk[key])];
      } else {
        wavs := wavs + [None];
        missTexts := missTexts + [chunks[i]];
        missIdx := missIdx + [i];
      }
      i := i + 1;
    }
  }

  /** The `zip` over queued indices, texts and batch results: the k-th result
      is placed at the k-th queued chunk's index as it is, and its 16-bit
      rendering is written to that chunk's cache file; `zip` stops at the
      shortest input. */
  method KokoroReassemble(wavs: seq<Option<Audio>>, missIdx: seq<nat>, missTexts: seq<string>,
                          batch: seq<Audio>, keyOf: string -> string, disk: Disk)
    returns (out: seq<Option<Audio>>, disk': Disk)
    requires |missTexts| == |missIdx|
    requires forall k :: 0 <= k < |missIdx| ==> missIdx[k] < |wavs|
    requires forall k, l :: 0 <= k < l < |missIdx| ==> missIdx[k] < missIdx[l]
    ensures |out| == |wavs|
    ensures forall k :: 0 <= k < Min(|missIdx|, |batch|) ==> out[missIdx[k]] == Some(batch[k])
    ensures forall i :: 0 <= i < |wavs| && (forall k :: 0 <= k < Min(|missIdx|, |batch|) ==> missIdx[k] != i) ==>
      out[i] == wavs[i]
    ensures forall k :: 0 <= k < Min(|missIdx|, |batch|) ==> keyOf(missTexts[k]) in disk'
    ensures forall k :: (0 <= k < Min(|missIdx|, |batch|) &&
      forall l :: k < l < Min(|missIdx|, |batch|) ==> keyOf(missTexts[l]) != keyOf(missTexts[k])) ==>
      disk'[keyOf(missTexts[k])] == Quantise(batch[k])
    ensures forall x :: x in disk && (forall k :: 0 <= k < Min(|missIdx|, |batch|) ==> keyOf(missTexts[k]) != x) ==>
      x in disk' && disk'[x] == disk[x]
    ensures forall k :: Min(|missIdx|, |batch|) <= k < |missIdx| ==> out[missIdx[k]] == wavs[missIdx[k]]
  {
    var n := Min(|missIdx|, |batch|);
    out, disk' := wavs, disk;
    var k := 0;
    while k < n
      invariant 0 <= k <= n
      invariant |out| == |wavs|
      invariant forall j :: 0 <= j < k ==> out[missIdx[j]] == Some(batch[j])
      invariant forall i :: 0 <= i < |wavs| && (forall j :: 0 <= j < k ==> missIdx[j] != i) ==> out[i] == wavs[i]
      invariant forall j :: 0 <= j < k ==> keyOf(missTexts[j]) in disk'
      invariant forall j :: 0 <= j < k && (forall l :: j < l < k ==> keyOf(missTexts[l]) != keyOf(missTexts[j])) ==>
        disk'[keyOf(missTexts[j])] == Quantise(batch[j])
      invariant forall x :: x in disk && (forall j :: 0 <= j < k ==> keyOf(missTexts[j]) != x) ==>
        x in disk' && disk'[x] == disk[x]
    {
      disk' := disk'[keyOf(missTexts[k]) := Quantise(batch[k])];
      out := out[missIdx[k] := Some(batch[k])];
      k := k + 1;
    }
    forall k | n <= k < |missIdx|
      ensures out[missIdx[k]] == wavs[missIdx[k]]
    {
      forall j | 0 <= j < n ensures missIdx[j] != missIdx[k] {
        assert j < k;
      }
    }
  }

  /** `synthesize_kokoro_chunks`. With a cache directory, hits are read back
      and the misses are synthesised as one newline-joined batch; without one,
      the whole text is one batch and the result has as many buffers as the
      back-end yields. `pipe` is the back-end: joined text to yielded buffers. */
  method KokoroChunks(chunks: seq<string>, useCache: bool, keyOf: string -> string, disk: Disk,
                      pipe: string -> seq<Audio>)
    returns (wavs: seq<Option<Audio>>, disk': Disk)
    ensures !useCache ==> (disk' == disk && |wavs| == |pipe(Join(chunks, "\n"))| &&
      forall i :: 0 <= i < |wavs| ==> wavs[i] == Some(pipe(Join(chunks, "\n"))[i]))
    ensures useCache ==> |wavs| == |chunks|
    ensures useCache ==> forall i :: 0 <= i < |chunks| && keyOf(chunks[i]) in disk ==>
      wavs[i] == Some(disk[keyOf(chunks[i])])
    ensures useCache && Misses(chunks, keyOf, disk) == [] ==> disk' == disk
    ensures useCache ==>
      var m := Misses(chunks, keyOf, disk);
      var batch := pipe(Join(MissTexts(chunks, keyOf, disk), "\n"));
      forall k :: 0 <= k < |m| ==> wavs[m[k]] == if k < |batch| then Some(batch[k]) else None
    ensures useCache ==>
      var texts := MissTexts(chunks, keyOf, disk);
      var batch := pipe(Join(texts, "\n"));
      forall k :: 0 <= k < |texts| && k < |batch| ==> keyOf(texts[k]) in disk'
    ensures useCache ==>
      var texts := MissTexts(chunks, keyOf, disk);
      var batch := pipe(Join(texts, "\n"));
      forall k :: (0 <= k < |texts| && k < |batch| &&
                   forall l :: k < l < |texts| && l < |batch| ==> keyOf(texts[l]) != keyOf(texts[k])) ==>
        disk'[keyOf(texts[k])] == Quantise(batch[k])
  {
    if !useCache {
      var out := pipe(Join(chunks, "\n"));
      wavs := seq(|out|, i requires 0 <= i < |out| => Some(out[i]));
      disk' := disk;
    } else {
      wavs, disk' := KokoroCached(chunks, keyOf, disk, pipe);
    }
  }

  /** The cached branch of `synthesize_kokoro_chunks`: hits are read back in
      place, the misses go to `pipe` as one newline-joined batch, and each
      batch result is placed and written back. */
  method KokoroCached(chunks: seq<string>, keyOf: string -> string, disk: Disk, pipe: string -> seq<Audio>)
    returns (wavs: seq<Option<Audio>>, disk': Disk)
    ensures |wavs| == |chunks|
    ensures forall i :: 0 <= i < |chunks| && keyOf(chunks[i]) in disk ==>
      wavs[i] == Some(disk[keyOf(chunks[i])])
    ensures Misses(chunks, keyOf, disk) == [] ==> disk' == disk
    ensures var m := Misses(chunks, keyOf, disk);
      var batch := pipe(Join(MissTexts(chunks, keyOf, disk), "\n"));
      forall k :: 0 <= k < |m| ==> wavs[m[k]] == if k < |batch| then Some(batch[k]) else None
    ensures var texts := MissTexts(chunks, keyOf, disk);
      var batch := pipe(Join(texts, "\n"));
      forall k :: 0 <= k < |texts| && k < |batch| ==> keyOf(texts[k]) in disk'
    ensures var texts := MissTexts(chunks, keyOf, disk);
      var batch := pipe(Join(texts, "\n"));
      forall k :: (0 <= k < |texts| && k < |batch| &&
                   forall l :: k < l < |texts| && l < |batch| ==> keyOf(texts[l]) != keyOf(texts[k])) ==>
        disk'[keyOf(texts[k])] == Quantise(batch[k])
  {
    var placeholders, missIdx, missTexts := KokoroPartition(chunks, keyOf, disk);
    MissesUpToProperties(chunks, keyOf, disk, |chunks|);
    assert missTexts == MissTexts(chunks, keyOf, disk);
    hide Join, Misses, MissesUpTo, MissTexts, Quantise;
    if |missTexts| == 0 {
      wavs, disk' := placeholders, disk;
      return;
    }
    var batch := pipe(Join(missTexts, "\n"));
    wavs, disk' := KokoroReassemble(placeholders, missIdx, missTexts, batch, keyOf, disk);
  }

  // ---------------------------------------------------------------------
  // Speed change

  /** `speed and abs(float(speed) - 1.0) > 0.01` */
  predicate SpeedChangeApplies(speed: real)
  {
    speed != 0.0 && (speed - 1.0 > 0.01 || 1.0 - speed > 0.01)
  }

  /** The intermediate rate of the speed change,
      `max(8000, min(96000, int(round(target_sr * speed))))`. */
  function SpeedRate(speed: real): (r: int)
    ensures 8000 <= r <= 96000
    ensures 8000 <= RoundHalfEven(TARGET_SR as real * speed) <= 96000 ==>
      r == RoundHalfEven(TARGET_SR as real * speed)
    ensures RoundHalfEven(TARGET_SR as real * speed) < 8000 ==> r == 8000
    ensures RoundHalfEven(TARGET_SR as real * speed) > 96000 ==> r == 96000
  {
    Max(8000, Min(96000, RoundHalfEven(TARGET_SR as real * speed)))
  }

  /** A faster speed never picks a lower intermediate rate. */
  lemma SpeedRateMonotone(s1: real, s2: real)
    requires s1 <= s2
    ensures SpeedRate(s1) <= SpeedRate(s2)
  {
    RoundMonotone(TARGET_SR as real * s1, TARGET_SR as real * s2);
  }

  /** Speed 1 (and anything within 1%) and speed 0 leave the audio alone;
      half speed goes through 12 kHz; extreme speeds hit the clamp. */
  lemma SpeedRateExamples()
    ensures !SpeedChangeApplies(1.0) && !SpeedChangeApplies(1.005) && !SpeedChangeApplies(0.0)
    ensures SpeedChangeApplies(1.02) && SpeedChangeApplies(0.98)
    ensures SpeedChangeApplies(0.5) && SpeedRate(0.5) == 12000
    ensures SpeedRate(0.1) == 8000 && SpeedRate(5.0) == 96000
  {
    assert RoundHalfEven(12000.0) == 12000;
    assert RoundHalfEven(2400.0) == 2400;
    assert RoundHalfEven(120000.0) == 120000;
  }

  /** The float post-processing shared by the CosyVoice2 paths: bring the
      buffer to 24 kHz when it reports another positive rate, then, when a
      speed change applies, resample to the speed rate and back. */
  function PostProcess(arr: Audio, sr: int, speed: real, resample: (Audio, int, int) -> Audio): Audio
  {
    var a := if sr != TARGET_SR && sr > 0 then resample(arr, sr, TARGET_SR) else arr;
    if SpeedChangeApplies(speed) then
      var tmp := SpeedRate(speed);
      resample(resample(a, TARGET_SR, tmp), tmp, TARGET_SR)
    else a
  }

  // ---------------------------------------------------------------------
  // CosyVoice2 per-chunk loop

  /** A dict or tuple slot that may hold `None`. */
  datatype Payload = PNone | PAudio(samples: Audio)

  /** What the CosyVoice2 back-end may return for one chunk. */
  datatype CosyRaw =
    | RDict(fields: map<string, Payload>, sr: Option<int>)
    | RPair(arr: Payload, rate: int)
    | RArray(samples: Audio)
    | RNone
    | RGenerator(items: seq<CosyRaw>)

  /** A back-end call either raises or returns a value. */
  datatype Attempt = Raised | Returned(raw: CosyRaw)

  /** The dict keys searched for audio, in order. */
  const AUDIO_KEYS: seq<string> := ["tts_speech", "tts_speech_24k", "audio", "wav"]

  /** The value under the first of `keys` the dict has, or `None`. */
  function FirstField(fields: map<string, Payload>, keys: seq<string>): (r: Payload)
    ensures r.PAudio? ==> exists k :: k in keys && k in fields && fields[k] == r
    ensures (forall k :: k in keys ==> k !in fields) ==> r == PNone
    ensures forall i :: 0 <= i < |keys| && keys[i] in fields && (forall j :: 0 <= j < i ==> keys[j] !in fields) ==>
      r == fields[keys[i]]
    ensures r.PAudio? ==> exists i :: (0 <= i < |keys| && keys[i] in fields && fields[keys[i]] == r &&
      forall j :: 0 <= j < i ==> keys[j] !in fields)
  {
    if |keys| == 0 then PNone
    else if keys[0] in fields then fields[keys[0]]
    else FirstField(fields, keys[1..])
  }

  /** A generator is drained and its last item used; an empty one counts as
      `None`. */
  function Unwrap(raw: CosyRaw): (r: CosyRaw)
    ensures !raw.RGenerator? ==> r == raw
    ensures raw.RGenerator? && |raw.items| == 0 ==> r == RNone
    ensures raw.RGenerator? && |raw.items| > 0 ==> r == raw.items[|raw.items| - 1]
  {
    match raw
    case RGenerator(items) => if |items| > 0 then items[|items| - 1] else RNone
    case _ => raw
  }

  /** The audio found in one chunk's result with the rate it claims, or
      `None` when the chunk falls back to silence (an exception, a `None`
      result or dict slot, or a nested generator that cannot be converted). */
  function CosyAudio(a: Attempt): (r: Option<(Audio, int)>)
    ensures a.Raised? ==> r.None?
    ensures a.Returned? && a.raw.RArray? ==> r == Some((a.raw.samples, TARGET_SR))
    ensures a.Returned? && a.raw.RGenerator? && |a.raw.items| == 0 ==> r.None?
    ensures a.Returned? && (Unwrap(a.raw).RNone? || Unwrap(a.raw).RGenerator?) ==> r.None?
    ensures a.Returned? && Unwrap(a.raw).RArray? ==> r == Some((Unwrap(a.raw).samples, TARGET_SR))
    ensures a.Returned? && Unwrap(a.raw).RDict? ==> r == DictAudio(Unwrap(a.raw).fields, Unwrap(a.raw).sr)
    ensures a.Returned? && Unwrap(a.raw).RPair? ==>
      (r.None? <==> Unwrap(a.raw).arr.PNone?) &&
      (r.Some? ==> r.value == (Unwrap(a.raw).arr.samples, Unwrap(a.raw).rate))
  {
    match a
    case Raised => None
    case Returned(raw) =>
      match Unwrap(raw)
      case RDict(fields, sr) => DictAudio(fields, sr)
      case RPair(arr, rate) =>
        (match arr
         case PNone => None
         case PAudio(s) => Some((s, rate)))
      case RArray(s) => Some((s, TARGET_SR))
      case RNone => None
      case RGenerator(_) => None
  }

  /** A dict result: the slot under the first audio key the dict has, with
      its `sr` or the target rate; none when no key is there or the first
      one present holds `None`. */
  function DictAudio(fields: map<string, Payload>, sr: Option<int>): (r: Option<(Audio, int)>)
    ensures r.None? <==> (forall i :: 0 <= i < |AUDIO_KEYS| && AUDIO_KEYS[i] in fields && fields[AUDIO_KEYS[i]].PAudio? ==>
                            exists j :: 0 <= j < i && AUDIO_KEYS[j] in fields)
    ensures r.Some? ==> r.value.1 == (if sr.Some? then sr.value else TARGET_SR)
    ensures r.Some? ==> exists i :: 0 <= i < |AUDIO_KEYS| && AUDIO_KEYS[i] in fields && fields[AUDIO_KEYS[i]] == PAudio(r.value.0)
  {
    match FirstField(fields, AUDIO_KEYS)
    case PNone => None
    case PAudio(s) => Some((s, if sr.Some? then sr.value else TARGET_SR))
  }

  /** The buffer produced for one chunk. */
  function CosyChunk(a: Attempt, speed: real, resample: (Audio, int, int) -> Audio): (r: Audio)
    ensures CosyAudio(a).None? ==> r == Silence(SILENCE_SAMPLES)
  {
    match CosyAudio(a)
    case None => Silence(SILENCE_SAMPLES)
    case Some((arr, sr)) => PostProcess(arr, sr, speed, resample)
  }

  /** `synthesize_cosyvoice2_chunks`: one buffer per chunk, in order; every
      failing chunk becomes half a second of silence and the loop goes on. */
  method CosyChunks(chunks: seq<string>, infer: string -> Attempt, speed: real,
                    resample: (Audio, int, int) -> Audio)
    returns (wavs: seq<Audio>)
    ensures |wavs| == |chunks|
    ensures forall i :: 0 <= i < |chunks| && CosyAudio(infer(chunks[i])).None? ==>
      wavs[i] == Silence(SILENCE_SAMPLES)
    ensures forall i :: 0 <= i < |chunks| && CosyAudio(infer(chunks[i])).Some? ==>
      var (arr, sr) := CosyAudio(infer(chunks[i])).value;
      wavs[i] == PostProcess(arr, sr, speed, resample)
  {
    wavs := [];
    for i := 0 to |chunks|
      invariant |wavs| == i
      invariant forall j :: 0 <= j < i ==> wavs[j] == CosyChunk(infer(chunks[j]), speed, resample)
    {
      wavs := wavs + [CosyChunk(infer(chunks[i]), speed, resample)];
    }
  }

  /** A chunk whose result is plain 24 kHz samples comes back unchanged
      unless a speed change applies. */
  lemma CosyArrayAtTargetRate(samples: Audio, speed: real, resample: (Audio, int, int) -> Audio)
    requires !SpeedChangeApplies(speed)
    ensures CosyChunk(Returned(RArray(samples)), speed, resample) == samples
  {
  }

  /** A generator contributes exactly what its last item would. */
  lemma CosyGeneratorLast(items: seq<CosyRaw>)
    requires |items| > 0 && !items[|items| - 1].RGenerator?
    ensures CosyAudio(Returned(RGenerator(items))) == CosyAudio(Returned(items[|items| - 1]))
  {
  }

  // ---------------------------------------------------------------------
  // `concat_audio`

  /** `_to_float32`: `None` becomes an empty buffer. */
  function AudioOf(w: Option<Audio>): Audio
  {
    if w.Some? then w.value else []
  }

  function TotalLength(ws: seq<Option<Audio>>): nat
  {
    if |ws| == 0 then 0 else |AudioOf(ws[0])| + TotalLength(ws[1..])
  }

  /** `concat_audio`: the buffers back to back (a missing one contributes
      nothing); an empty list gives an empty buffer. */
  function ConcatAudio(ws: seq<Option<Audio>>): (r: Audio)
    ensures |r| == TotalLength(ws)
    ensures ws == [] ==> r == []
    ensures |ws| > 0 ==> r[..|AudioOf(ws[0])|] == AudioOf(ws[0])
  {
    if |ws| == 0 then [] else AudioOf(ws[0]) + ConcatAudio(ws[1..])
  }

  /** Concatenation distributes over splitting the list. */
  lemma {:induction false} ConcatAudioAppend(a: seq<Option<Audio>>, b: seq<Option<Audio>>)
    ensures ConcatAudio(a + b) == ConcatAudio(a) + ConcatAudio(b)
  {
    if |a| == 0 {
      assert a + b == b;
    } else {
      assert (a + b)[1..] == a[1..] + b;
      ConcatAudioAppend(a[1..], b);
    }
  }

  /** Buffer `i` sits in the result right after the buffers before it. */
  lemma ConcatAudioPlacement(ws: seq<Option<Audio>>, i: nat)
    requires i < |ws|
    ensures var off := TotalLength(ws[..i]);
      off + |AudioOf(ws[i])| <= |ConcatAudio(ws)| &&
      ConcatAudio(ws)[off..off + |AudioOf(ws[i])|] == AudioOf(ws[i])
  {
    ConcatAudioDecompose(ws, i);
    SliceMiddle(ConcatAudio(ws[..i]), AudioOf(ws[i]), ConcatAudio(ws[i + 1..]));
  }

  lemma ConcatAudioDecompose(ws: seq<Option<Audio>>, i: nat)
    requires i < |ws|
    ensures ConcatAudio(ws) == ConcatAudio(ws[..i]) + (AudioOf(ws[i]) + ConcatAudio(ws[i + 1..]))
  {
    var pre, rest := ws[..i], ws[i..];
    assert ws == pre + rest;
    assert rest[0] == ws[i] && rest[1..] == ws[i + 1..];
    assert ConcatAudio(rest) == AudioOf(ws[i]) + ConcatAudio(ws[i + 1..]);
    hide *;
    ConcatAudioAppend(pre, rest);
  }

  lemma SliceMiddle<T>(a: seq<T>, b: seq<T>, c: seq<T>)
    ensures (a + (b + c))[|a|..|a| + |b|] == b
  {
  }
}

=== FILE: text.dfy ===
/** Python string primitives the source relies on: `str.isspace`, `strip`,
    `lower`, `split` and `join`, over strings as `seq<char>`. */
module Text {

  import opened Common

  /** Python's `str.isspace` for one character (the characters `strip()` removes). */
  predicate IsSpace(c: char)
  {
    var n := c as int;
    n == 32 || 9 <= n <= 13 || 28 <= n <= 31 || n == 0x85 || n == 0xA0 || n == 0x1680
    || 0x2000 <= n <= 0x200A || n == 0x2028 || n == 0x2029 || n == 0x202F || n == 0x205F
    || n == 0x3000
  }

  predicate AllSpace(s: string)
  {
    forall i :: 0 <= i < |s| ==> IsSpace(s[i])
  }

  /** `s.lstrip()`: the suffix left after dropping leading whitespace. */
  function LStrip(s: string): (r: string)
    ensures |r| <= |s| && r == s[|s| - |r|..]
    ensures AllSpace(s[..|s| - |r|])
    ensures |r| == 0 || !IsSpace(r[0])
  {
    if |s| > 0 && IsSpace(s[0]) then
      var r := LStrip(s[1..]);
      assert s[1..][..|s| - 1 - |r|] == s[1..|s| - |r|];
      r
    else s
  }

  /** `s.rstrip()`: the prefix left after dropping trailing whitespace. */
  function RStrip(s: string): (r: string)
    ensures |r| <= |s| && r == s[..|r|]
    ensures AllSpace(s[|r|..])
    ensures |r| == 0 || !IsSpace(r[|r| - 1])
  {
    if |s| > 0 && IsSpace(s[|s| - 1]) then
      var r := RStrip(s[..|s| - 1]);
      r
    else s
  }

  /** `s.strip()` */
  function Strip(s: string): (r: string)
    ensures |r| == 0 || (!IsSpace(r[0]) && !IsSpace(r[|r| - 1]))
  {
    RStrip(LStrip(s))
  }

  /** Where the stripped text sits inside the original: `s == lead + Strip(s) + trail`
      with `lead` and `trail` all whitespace. */
  lemma StripSlice(s: string)
    ensures var r := Strip(s); var a := |s| - |LStrip(s)|;
      a + |r| <= |s| && r == s[a..a + |r|] && AllSpace(s[..a]) && AllSpace(s[a + |r|..])
  {
    hide LStrip, RStrip, IsSpace, AllSpace;
    var l := LStrip(s);
    var r := RStrip(l);
    SliceOfSlice(s, l, r);
  }

  /** A prefix `r` of a suffix `l` of `s`, followed in `l` by whitespace only,
      is followed in `s` by whitespace only. */
  lemma SliceOfSlice(s: string, l: string, r: string)
    requires |l| <= |s| && l == s[|s| - |l|..]
    requires |r| <= |l| && r == l[..|r|] && AllSpace(l[|r|..])
    ensures |s| - |l| + |r| <= |s|
    ensures r == s[|s| - |l|..|s| - |l| + |r|]
    ensures AllSpace(s[|s| - |l| + |r|..])
  {
    var a := |s| - |l|;
    assert l[|r|..] == s[a + |r|..];
  }

  /** `s.strip()` is empty exactly when `s` is all whitespace. */
  lemma StripBlank(s: string)
    ensures Strip(s) == "" <==> AllSpace(s)
  {
    var l := LStrip(s);
    var a := |s| - |l|;
    assert l == s[a..];
    if AllSpace(s) {
      assert |l| == 0;
    }
    if Strip(s) == "" {
      assert RStrip(l) == "";
      assert l[0..] == l;
      assert |l| == 0;
      assert s[..a] == s;
    }
  }

  /** A string that neither starts nor ends with whitespace is its own strip. */
  lemma StripNoop(s: string)
    requires |s| == 0 || (!IsSpace(s[0]) && !IsSpace(s[|s| - 1]))
    ensures Strip(s) == s
  {
  }

  /** Whitespace around a text with no whitespace at either end is exactly
      what `strip()` removes. */
  lemma StripFrame(a: string, b: string, c: string)
    requires AllSpace(a) && AllSpace(c)
    requires |b| > 0 && !IsSpace(b[0]) && !IsSpace(b[|b| - 1])
    ensures Strip(a + b + c) == b
  {
    assert a + b + c == a + (b + c);
    LStripFrame(a, b + c);
    RStripFrame(b, c);
  }

  lemma {:induction false} LStripFrame(a: string, t: string)
    requires AllSpace(a) && |t| > 0 && !IsSpace(t[0])
    ensures LStrip(a + t) == t
    decreases |a|
  {
    if |a| > 0 {
      assert (a + t)[1..] == a[1..] + t;
      LStripFrame(a[1..], t);
    }
  }

  lemma {:induction false} RStripFrame(t: string, c: string)
    requires AllSpace(c) && |t| > 0 && !IsSpace(t[|t| - 1])
    ensures RStrip(t + c) == t
    decreases |c|
  {
    if |c| > 0 {
      assert (t + c)[..|t + c| - 1] == t + c[..|c| - 1];
      RStripFrame(t, c[..|c| - 1]);
    } else {
      assert t + c == t;
    }
  }

  /** ASCII lower-casing of one character. */
  function LowerChar(c: char): char
  {
    if 'A' <= c <= 'Z' then (c as int + 32) as char else c
  }

  /** `s.lower()`, restricted to ASCII letters. */
  function Lower(s: string): (r: string)
    ensures |r| == |s|
    ensures forall i :: 0 <= i < |s| ==> r[i] == LowerChar(s[i])
  {
    seq(|s|, i requires 0 <= i < |s| => LowerChar(s[i]))
  }

  /** Text without upper-case ASCII letters is its own lower-casing. */
  lemma LowerNoUpper(s: string)
    requires forall i :: 0 <= i < |s| ==> !('A' <= s[i] <= 'Z')
    ensures Lower(s) == s
  {
  }

  /** `s.endswith(x)` */
  predicate EndsWith(s: string, x: string)
  {
    |x| <= |s| && s[|s| - |x|..] == x
  }

  /** `sep` occurs in `s` starting at index `j`. */
  predicate OccursAt(s: string, sep: string, j: nat)
  {
    j + |sep| <= |s| && s[j..j + |sep|] == sep
  }

  /** Index of the first occurrence of `sep` in `s` at or after `from`. */
  function IndexOfFrom(s: string, sep: string, from: nat): (r: Option<nat>)
    requires |sep| > 0
    decreases |s| - from
    ensures r.Some? ==> from <= r.value && OccursAt(s, sep, r.value)
    ensures r.Some? ==> forall j :: from <= j < r.value ==> !OccursAt(s, sep, j)
    ensures r.None? ==> forall j :: from <= j ==> !OccursAt(s, sep, j)
  {
    if from + |sep| > |s| then None
    else if OccursAt(s, sep, from) then Some(from)
    else IndexOfFrom(s, sep, from + 1)
  }

  /** `s.split(sep)` for a non-empty separator. */
  function Split(s: string, sep: string): (r: seq<string>)
    requires |sep| > 0
    decreases |s|
    ensures |r| >= 1
  {
    match IndexOfFrom(s, sep, 0)
    case None => [s]
    case Some(i) => [s[..i]] + Split(s[i + |sep|..], sep)
  }

  /** `sep.join(xs)` */
  function Join(xs: seq<string>, sep: string): string
  {
    if |xs| == 0 then "" else if |xs| == 1 then xs[0] else xs[0] + sep + Join(xs[1..], sep)
  }

  /** Splitting and re-joining with the same separator gives the string back. */
  lemma {:induction false} SplitJoin(s: string, sep: string)
    requires |sep| > 0
    ensures Join(Split(s, sep), sep) == s
    decreases |s|
  {
    var o := IndexOfFrom(s, sep, 0);
    if o.None? {
      assert Split(s, sep) == [s];
    } else {
      var i := o.value;
      var rest := s[i + |sep|..];
      var tail := Split(rest, sep);
      SplitJoin(rest, sep);
      assert Split(s, sep) == [s[..i]] + tail;
      JoinCons(s[..i], tail, sep);
      assert s[i..i + |sep|] == sep;
      assert s == s[..i] + s[i..i + |sep|] + rest;
    }
  }

  lemma JoinCons(x: string, xs: seq<string>, sep: string)
    requires |xs| >= 1
    ensures Join([x] + xs, sep) == x + sep + Join(xs, sep)
  {
    assert ([x] + xs)[1..] == xs;
  }

  /** A separator character that occurs in neither first field splits a
      `first + sep + rest` string uniquely. */
  lemma SeparatedFieldsUnique(a: string, b: string, c: string, d: string, sep: char)
    requires sep !in a && sep !in c
    requires a + [sep] + b == c + [sep] + d
    ensures a == c && b == d
  {
    var s := a + [sep] + b;
    assert s[|a|] == sep && forall i :: 0 <= i < |a| ==> s[i] == a[i];
    assert s[|c|] == sep && forall i :: 0 <= i < |c| ==> s[i] == c[i];
    assert a == s[..|a|] && c == s[..|c|];
    assert b == s[|a| + 1..];
    assert d == (c + [sep] + d)[|c| + 1..];
  }

  /** Joining two non-empty lists puts one separator between them. */
  lemma {:induction false} JoinAppend(xs: seq<string>, ys: seq<string>, sep: string)
    requires |xs| >= 1 && |ys| >= 1
    ensures Join(xs + ys, sep) == Join(xs, sep) + sep + Join(ys, sep)
  {
    if |xs| == 1 {
      JoinCons(xs[0], ys, sep);
      assert xs + ys == [xs[0]] + ys;
    } else {
      JoinAppend(xs[1..], ys, sep);
      assert xs + ys == [xs[0]] + (xs[1..] + ys);
      JoinCons(xs[0], xs[1..] + ys, sep);
      JoinCons(xs[0], xs[1..], sep);
      assert xs == [xs[0]] + xs[1..];
    }
  }

  /** When `sep` never occurs, `split` returns the whole text. */
  lemma SplitWhole(s: string, sep: string)
    requires |sep| > 0
    requires forall j :: 0 <= j ==> !OccursAt(s, sep, j)
    ensures Split(s, sep) == [s]
  {
  }

  /** The last piece of a split is a suffix of the text, and it is not empty
      when the text ends in a character other than the separator's last. */
  lemma {:induction false} SplitLast(s: string, sep: string)
    requires |sep| > 0
    ensures |Split(s, sep)[|Split(s, sep)| - 1]| <= |s|
    ensures Split(s, sep)[|Split(s, sep)| - 1] == s[|s| - |Split(s, sep)[|Split(s, sep)| - 1]|..]
    ensures |s| > 0 && s[|s| - 1] != sep[|sep| - 1] ==> |Split(s, sep)[|Split(s, sep)| - 1]| > 0
    decreases |s|
  {
    hide IndexOfFrom;
    match IndexOfFrom(s, sep, 0)
    case None =>
    case Some(i) =>
      var rest := s[i + |sep|..];
      var tail := Split(rest, sep);
      SplitLast(rest, sep);
      assert Split(s, sep) == [s[..i]] + tail;
      var last := tail[|tail| - 1];
      assert Split(s, sep)[|Split(s, sep)| - 1] == last;
      assert rest[|rest| - |last|..] == s[|s| - |last|..];
      if |rest| > 0 {
        assert rest[|rest| - 1] == s[|s| - 1];
      } else {
        assert s[i..i + |sep|][|sep| - 1] == s[|s| - 1];
      }
  }

  /** A join ends with its last piece. */
  lemma {:induction false} JoinLast(xs: seq<string>, sep: string)
    requires |xs| >= 1
    ensures |Join(xs, sep)| >= |xs[|xs| - 1]|
    ensures Join(xs, sep)[|Join(xs, sep)| - |xs[|xs| - 1]|..] == xs[|xs| - 1]
  {
    if |xs| > 1 {
      JoinLast(xs[1..], sep);
    }
  }

  /** Text with a single line break holds no blank line. */
  lemma SingleBreak(x: string, y: string)
    requires '\n' !in x && '\n' !in y
    ensures forall j :: 0 <= j ==> !OccursAt(x + "\n" + y, "\n\n", j)
  {
    var s := x + "\n" + y;
    forall j | 0 <= j ensures !OccursAt(s, "\n\n", j) {
      if j + 2 <= |s| {
        if j < |x| {
          assert s[j] == x[j];
        } else if j == |x| {
          assert s[j + 1] == y[0];
        } else {
          assert s[j] == y[j - |x| - 1];
        }
      }
    }
  }

  /** A text without blank lines, not ending in a line break, followed by a
      blank line: `split` cuts there first. */
  lemma BlankAfter(x: string, y: string)
    requires forall j :: 0 <= j ==> !OccursAt(x, "\n\n", j)
    requires |x| > 0 && x[|x| - 1] != '\n'
    ensures Split(x + "\n\n" + y, "\n\n") == [x] + Split(y, "\n\n")
  {
    var s := x + "\n\n" + y;
    forall j | 0 <= j < |x| ensures !OccursAt(s, "\n\n", j) {
      if j + 2 <= |x| {
        assert s[j..j + 2] == x[j..j + 2];
        assert !OccursAt(x, "\n\n", j);
      } else {
        assert s[j] == x[|x| - 1];
      }
    }
    assert OccursAt(s, "\n\n", |x|);
    assert IndexOfFrom(s, "\n\n", 0) == Some(|x|);
    assert s[..|x|] == x;
    assert s[|x| + 2..] == y;
  }

  /** A field without the separator character, followed by the separator:
      `split` cuts there first. */
  lemma SplitAfter(x: string, c: char, y: string)
    requires c !in x
    ensures Split(x + [c] + y, [c]) == [x] + Split(y, [c])
  {
    var s := x + [c] + y;
    forall j | 0 <= j < |x| ensures !OccursAt(s, [c], j) {
      assert s[j..j + 1] == [x[j]];
    }
    assert OccursAt(s, [c], |x|);
    assert IndexOfFrom(s, [c], 0) == Some(|x|);
    assert s[..|x|] == x;
    assert s[|x| + 1..] == y;
  }

  /** Joining fields that do not contain the separator character and
      splitting again gives the fields back. */
  lemma {:induction false} JoinSplit(xs: seq<string>, c: char)
    requires |xs| >= 1
    requires forall i :: 0 <= i < |xs| ==> c !in xs[i]
    ensures Split(Join(xs, [c]), [c]) == xs
  {
    if |xs| == 1 {
      forall j | 0 <= j ensures !OccursAt(xs[0], [c], j) {
        if j + 1 <= |xs[0]| { assert xs[0][j..j + 1] == [xs[0][j]]; }
      }
      SplitWhole(xs[0], [c]);
    } else {
      JoinSplit(xs[1..], c);
      SplitAfter(xs[0], c, Join(xs[1..], [c]));
      assert xs == [xs[0]] + xs[1..];
    }
  }
}

=== FILE: voices.dfy ===
/** The Kokoro voice list: `_discover_voices_from_dir` reads a JSON manifest
    or scans the `voices` folder of a downloaded repository snapshot, and
    `get_kokoro_voices` caches the answer per repository. The download, the
    file system and the JSON parser are replaced by what they produce: a
    snapshot is the outcome of each manifest file and the list of paths under
    `voices/`. */
module Voices {

  import opened Common
  import opened Text
  import opened ExtractText

  // ----------------------------------------------------------------- JSON

  /** A parsed JSON document; objects are maps (the parser keeps the last of
      repeated keys). */
  datatype Json =
    | JNull
    | JBool(b: bool)
    | JNum(n: real)
    | JStr(s: string)
    | JArr(items: seq<Json>)
    | JObj(fields: map<string, Json>)

  /** Python truthiness of a parsed value. */
  predicate Truthy(j: Json)
  {
    match j
    case JNull => false
    case JBool(b) => b
    case JNum(n) => n != 0.0
    case JStr(s) => |s| > 0
    case JArr(xs) => |xs| > 0
    case JObj(m) => |m| > 0
  }

  /** `d.get(key)`: `None` (here `JNull`) when absent. */
  function Get(fields: map<string, Json>, key: string): Json
  {
    if key in fields then fields[key] else JNull
  }

  /** `d.get(k0) or d.get(k1) or ...`: the first truthy value, else the
      last one looked up. */
  function FirstTruthy(fields: map<string, Json>, keys: seq<string>): (r: Json)
    requires |keys| > 0
    ensures Truthy(r) <==> exists i :: 0 <= i < |keys| && Truthy(Get(fields, keys[i]))
    ensures Truthy(r) ==> exists i :: (0 <= i < |keys| && r == Get(fields, keys[i]) &&
      forall j :: 0 <= j < i ==> !Truthy(Get(fields, keys[j])))
    ensures !Truthy(r) ==> r == Get(fields, keys[|keys| - 1])
    decreases |keys|
  {
    var v := Get(fields, keys[0]);
    if Truthy(v) || |keys| == 1 then v
    else
      var r := FirstTruthy(fields, keys[1..]);
      assert forall i :: 1 <= i < |keys| ==> keys[1..][i - 1] == keys[i];
      if Truthy(r) then
        var i :| 0 <= i < |keys[1..]| && r == Get(fields, keys[1..][i]) &&
          forall j :: 0 <= j < i ==> !Truthy(Get(fields, keys[1..][j]));
        assert r == Get(fields, keys[i + 1]);
        assert forall j :: 0 <= j < i + 1 ==> !Truthy(Get(fields, keys[j])) by {
          forall j | 0 <= j < i + 1 ensures !Truthy(Get(fields, keys[j])) {
            if j > 0 {
              assert keys[j] == keys[1..][j - 1];
            }
          }
        }
        r
      else
        r
  }

  // --------------------------------------------------------------- items

  /** One `{"id": ..., "label": ...}` entry (`display` is the label). Ids and labels from a manifest
      are whatever JSON the manifest holds; the folder scan gives strings. */
  datatype Voice = Voice(id: Json, display: Json)

  const IdKeys: seq<string> := ["id", "name", "voice", "key"]

  /** One manifest item: a string names itself; an object needs a truthy
      id under one of the id keys, and takes its "label" if it has one;
      anything else is skipped. */
  function ItemVoice(it: Json): (r: Option<Voice>)
    ensures it.JStr? ==> r == Some(Voice(it, it))
    ensures r.Some? ==> it.JStr? || it.JObj?
    ensures it.JObj? ==> (r.Some? <==> exists i :: 0 <= i < |IdKeys| && Truthy(Get(it.fields, IdKeys[i])))
    ensures it.JObj? && r.Some? ==> Truthy(r.value.id)
    ensures it.JObj? && r.Some? && "label" in it.fields ==> r.value.display == it.fields["label"]
    ensures it.JObj? && r.Some? && "label" !in it.fields ==> r.value.display == r.value.id
  {
    match it
    case JStr(_) => Some(Voice(it, it))
    case JObj(f) =>
      var vid := FirstTruthy(f, IdKeys);
      if Truthy(vid) then Some(Voice(vid, if "label" in f then f["label"] else vid)) else None
    case _ => None
  }

  /** The id of an object item is its first truthy id key, in the order
      id, name, voice, key. */
  lemma ItemIdOrder(f: map<string, Json>)
    requires ItemVoice(JObj(f)).Some?
    ensures exists i :: (0 <= i < |IdKeys| && ItemVoice(JObj(f)).value.id == Get(f, IdKeys[i]) &&
      forall j :: 0 <= j < i ==> !Truthy(Get(f, IdKeys[j])))
  {
  }

  /** The list a manifest holds: an object's "voices" member (or the object
      itself when there is none), or the document; only a list has items. */
  function ManifestItems(data: Json): (r: seq<Json>)
    ensures data.JArr? ==> r == data.items
    ensures data.JObj? && "voices" in data.fields && data.fields["voices"].JArr? ==> r == data.fields["voices"].items
    ensures r != [] ==> data.JArr? || (data.JObj? && "voices" in data.fields && data.fields["voices"].JArr?)
  {
    var items := if data.JObj? then (if "voices" in data.fields then data.fields["voices"] else data) else data;
    if items.JArr? then items.items else []
  }

  /** The entries of the usable items, in order. */
  function Collect(items: seq<Json>): (r: seq<Voice>)
    ensures |r| <= |items|
    ensures r == [] <==> forall i :: 0 <= i < |items| ==> ItemVoice(items[i]).None?
    ensures forall v :: v in r ==> exists i :: 0 <= i < |items| && ItemVoice(items[i]) == Some(v)
    decreases |items|
  {
    if |items| == 0 then []
    else
      var rest := Collect(items[1..]);
      assert forall i :: 1 <= i < |items| ==> items[1..][i - 1] == items[i];
      var head := ItemVoice(items[0]);
      if head.Some? then [head.value] + rest else rest
  }

  lemma {:induction false} CollectAppend(a: seq<Json>, b: seq<Json>)
    ensures Collect(a + b) == Collect(a) + Collect(b)
    decreases |a|
  {
    if |a| == 0 {
      assert a + b == b;
    } else {
      assert (a + b)[0] == a[0] && (a + b)[1..] == a[1..] + b;
      CollectAppend(a[1..], b);
    }
  }

  /** A list of strings gives one entry per string, empty strings
      included, with the string as id and label. */
  lemma {:induction false} CollectNames(names: seq<string>)
    ensures Collect(seq(|names|, i requires 0 <= i < |names| => JStr(names[i]))) ==
      seq(|names|, i requires 0 <= i < |names| => Voice(JStr(names[i]), JStr(names[i])))
    decreases |names|
  {
    if |names| > 0 {
      var items := seq(|names|, i requires 0 <= i < |names| => JStr(names[i]));
      var out := seq(|names|, i requires 0 <= i < |names| => Voice(JStr(names[i]), JStr(names[i])));
      var items' := seq(|names[1..]|, i requires 0 <= i < |names[1..]| => JStr(names[1..][i]));
      var out' := seq(|names[1..]|, i requires 0 <= i < |names[1..]| => Voice(JStr(names[1..][i]), JStr(names[1..][i])));
      var v := Voice(JStr(names[0]), JStr(names[0]));
      assert items[1..] == items';
      assert out == [v] + out';
      assert ItemVoice(items[0]) == Some(v);
      hide *;
      CollectNames(names[1..]);
      CollectCons(items);
    }
  }

  /** One step of `Collect`: the head's entry, if any, then the rest's. */
  lemma CollectCons(items: seq<Json>)
    requires |items| > 0
    ensures Collect(items) ==
      (if ItemVoice(items[0]).Some? then [ItemVoice(items[0]).value] else []) + Collect(items[1..])
  {
  }

  /** The entries of one parsed manifest. */
  function ManifestVoices(data: Json): seq<Voice>
  {
    Collect(ManifestItems(data))
  }

  // ------------------------------------------------------- folder scan

  /** Python's `<` on strings: code point by code point, a proper prefix
      first. */
  predicate Below(a: string, b: string)
    decreases |a|
  {
    if |a| == 0 then |b| > 0
    else if |b| == 0 then false
    else if a[0] != b[0] then a[0] < b[0]
    else Below(a[1..], b[1..])
  }

  lemma {:induction false} BelowIrreflexive(a: string)
    ensures !Below(a, a)
    decreases |a|
  {
    if |a| > 0 {
      BelowIrreflexive(a[1..]);
    }
  }

  lemma {:induction false} BelowTransitive(a: string, b: string, c: string)
    requires Below(a, b) && Below(b, c)
    ensures Below(a, c)
    decreases |a|
  {
    if |a| > 0 && a[0] == b[0] && b[0] == c[0] {
      BelowTransitive(a[1..], b[1..], c[1..]);
    }
  }

  lemma {:induction false} BelowTotal(a: string, b: string)
    requires a != b
    ensures Below(a, b) || Below(b, a)
    decreases |a|
  {
    if |a| > 0 && |b| > 0 && a[0] == b[0] {
      assert a == [a[0]] + a[1..] && b == [b[0]] + b[1..];
      BelowTotal(a[1..], b[1..]);
    }
  }

  /** Strictly ascending: sorted and without repeats. */
  predicate Ascending(xs: seq<string>)
  {
    forall i, j :: 0 <= i < j < |xs| ==> Below(xs[i], xs[j])
  }

  lemma ConsAscending(h: string, xs: seq<string>)
    requires Ascending(xs)
    requires forall y :: y in xs ==> Below(h, y)
    ensures Ascending([h] + xs)
  {
    var r := [h] + xs;
    forall i, j | 0 <= i < j < |r| ensures Below(r[i], r[j]) {
      if i == 0 {
        assert r[j] == xs[j - 1];
      } else {
        assert r[i] == xs[i - 1] && r[j] == xs[j - 1];
      }
    }
  }

  /** Insert `x` into a strictly ascending list, unless it is there. */
  function Insert(x: string, xs: seq<string>): (r: seq<string>)
    requires Ascending(xs)
    ensures Ascending(r)
    ensures forall y :: y in r <==> y in xs || y == x
    decreases |xs|
  {
    if |xs| == 0 then [x]
    else if x == xs[0] then xs
    else if Below(x, xs[0]) then
      assert forall y :: y in xs ==> Below(x, y) by {
        forall y | y in xs ensures Below(x, y) {
          var k :| 0 <= k < |xs| && xs[k] == y;
          if k > 0 {
            BelowTransitive(x, xs[0], y);
          }
        }
      }
      ConsAscending(x, xs);
      [x] + xs
    else
      BelowTotal(x, xs[0]);
      var rest := Insert(x, xs[1..]);
      assert forall y :: y in rest ==> Below(xs[0], y) by {
        forall y | y in rest ensures Below(xs[0], y) {
          if y != x {
            var k :| 0 <= k < |xs[1..]| && xs[1..][k] == y;
            assert xs[k + 1] == y;
          }
        }
      }
      ConsAscending(xs[0], rest);
      assert xs == [xs[0]] + xs[1..];
      [xs[0]] + rest
  }

  /** `sorted(set(xs))` */
  function SortUnique(xs: seq<string>): (r: seq<string>)
    ensures Ascending(r)
    ensures forall y :: y in r <==> y in xs
    decreases |xs|
  {
    if |xs| == 0 then []
    else
      var r := Insert(xs[|xs| - 1], SortUnique(xs[..|xs| - 1]));
      assert xs == xs[..|xs| - 1] + [xs[|xs| - 1]];
      r
  }

  /** A strictly ascending list is fixed by its elements, so `SortUnique`
      is the one list `sorted(set(xs))` denotes. */
  lemma {:induction false} AscendingUnique(a: seq<string>, b: seq<string>)
    requires Ascending(a) && Ascending(b)
    requires forall y :: y in a <==> y in b
    ensures a == b
    decreases |a|
  {
    SameEmptiness(a, b);
    if |a| > 0 {
      if a[0] != b[0] {
        assert a[0] in a && b[0] in b;
        var ka :| 0 <= ka < |b| && b[ka] == a[0];
        var kb :| 0 <= kb < |a| && a[kb] == b[0];
        assert ka > 0 && kb > 0;
        BelowTransitive(a[0], b[0], a[0]);
        BelowIrreflexive(a[0]);
      } else {
        forall y ensures y in a[1..] <==> y in b[1..] {
          if y in a[1..] {
            var k :| 0 <= k < |a[1..]| && a[1..][k] == y;
            assert Below(a[0], y) by { assert a[k + 1] == y; }
            BelowIrreflexive(y);
            assert y != b[0];
            assert y in a;
            var m :| 0 <= m < |b| && b[m] == y;
            assert b[1..][m - 1] == y;
          }
          if y in b[1..] {
            var k :| 0 <= k < |b[1..]| && b[1..][k] == y;
            assert Below(b[0], y) by { assert b[k + 1] == y; }
            BelowIrreflexive(y);
            assert y != a[0];
            assert y in b;
            var m :| 0 <= m < |a| && a[m] == y;
            assert a[1..][m - 1] == y;
          }
        }
        AscendingUnique(a[1..], b[1..]);
        assert a == [a[0]] + a[1..] && b == [b[0]] + b[1..];
      }
    }
  }

  lemma SameEmptiness<T>(a: seq<T>, b: seq<T>)
    requires forall y :: y in a <==> y in b
    ensures |a| == 0 <==> |b| == 0
  {
    if |a| > 0 {
      assert a[0] in b;
    }
    if |b| > 0 {
      assert b[0] in a;
    }
  }

  const VoiceSuffixes: set<string> := {".npz", ".npy", ".pt", ".pth", ".bin"}

  /** `f.suffix.lower()` names a voice file. */
  predicate IsVoiceFile(path: string)
  {
    Lower(Suffix(Name(path))) in VoiceSuffixes
  }

  /** `Path.stem`: the name without its suffix. */
  function Stem(name: string): (r: string)
    ensures r + Suffix(name) == name
  {
    name[..|name| - |Suffix(name)|]
  }

  /** What one scanned path contributes: its stem when it names a voice
      file. */
  function ScanEntry(path: string): (r: Option<string>)
    ensures r.Some? <==> IsVoiceFile(path)
    ensures r.Some? ==> r.value + Suffix(Name(path)) == Name(path)
  {
    if IsVoiceFile(path) then Some(Stem(Name(path))) else None
  }

  /** What each scanned path contributes, in listing order. */
  function ScanEntries(listing: seq<string>): (r: seq<Option<string>>)
    ensures |r| == |listing| && forall k :: 0 <= k < |r| ==> r[k] == ScanEntry(listing[k])
  {
    seq(|listing|, k requires 0 <= k < |listing| => ScanEntry(listing[k]))
  }

  /** The present values, in order. */
  function Present(entries: seq<Option<string>>): (r: seq<string>)
    ensures forall y :: y in r <==> Some(y) in entries
    decreases |entries|
  {
    if |entries| == 0 then []
    else
      var n := |entries| - 1;
      var rest := Present(entries[..n]);
      assert entries == entries[..n] + [entries[n]];
      if entries[n].Some? then rest + [entries[n].value] else rest
  }

  /** One entry per id, the id doubling as label. */
  function Named(ids: seq<string>): (r: seq<Voice>)
    ensures |r| == |ids|
    ensures forall i :: 0 <= i < |r| ==> r[i] == Voice(JStr(ids[i]), JStr(ids[i]))
  {
    seq(|ids|, i requires 0 <= i < |ids| => Voice(JStr(ids[i]), JStr(ids[i])))
  }

  /** The folder scan: `None` when there is no `voices` folder, else every
      path found under it (folders included, as `rglob("*")` yields them).
      The result lists each stem of a voice file once, in ascending order,
      and nothing else. */
  function ScanVoices(listing: Option<seq<string>>): (r: seq<Voice>)
    ensures listing.None? ==> r == []
    ensures forall i :: 0 <= i < |r| ==> r[i].id.JStr? && r[i].display == r[i].id
    ensures forall i, j :: 0 <= i < j < |r| ==> Below(r[i].id.s, r[j].id.s)
    ensures listing.Some? ==> forall y :: JStr(y) in Ids(r) <==>
      Some(y) in ScanEntries(listing.value)
  {
    if listing.None? then []
    else
      var entries := ScanEntries(listing.value);
      NamedSorted(entries);
      Named(SortUnique(Present(entries)))
  }

  /** The voices named after the sorted distinct stems found. */
  lemma NamedSorted(entries: seq<Option<string>>)
    ensures var r := Named(SortUnique(Present(entries)));
      (forall i :: 0 <= i < |r| ==> r[i].id.JStr? && r[i].display == r[i].id) &&
      (forall i, j :: 0 <= i < j < |r| ==> Below(r[i].id.s, r[j].id.s)) &&
      (forall y :: JStr(y) in Ids(r) <==> Some(y) in entries)
  {
    var ids := SortUnique(Present(entries));
    var r := Named(ids);
    assert Ids(r) == seq(|ids|, i requires 0 <= i < |ids| => JStr(ids[i]));
  }

  function Ids(vs: seq<Voice>): (r: seq<Json>)
    ensures |r| == |vs| && forall i :: 0 <= i < |vs| ==> r[i] == vs[i].id
  {
    seq(|vs|, i requires 0 <= i < |vs| => vs[i].id)
  }

  /** A path is listed by the scan exactly when it names a voice file. */
  lemma ScanListsVoiceFiles(listing: seq<string>, k: nat)
    requires k < |listing|
    ensures IsVoiceFile(listing[k]) ==> JStr(Stem(Name(listing[k]))) in Ids(ScanVoices(Some(listing)))
  {
    var entries := ScanEntries(listing);
    assert entries[k] == ScanEntry(listing[k]);
  }

  // --------------------------------------------------------- discovery

  /** What reading one manifest name gave: no such file, a file that could
      not be opened or parsed, or a parsed document. */
  datatype ManifestFile = Missing | Unreadable | Parsed(data: Json)

  function FileVoices(m: ManifestFile): seq<Voice>
  {
    if m.Parsed? then ManifestVoices(m.data) else []
  }

  /** `_discover_voices_from_dir`: `manifests` are `voices.json` and
      `voices/voices.json` in that order; the first that yields entries
      wins, otherwise the folder scan answers. */
  function Discover(manifests: seq<ManifestFile>, listing: Option<seq<string>>): (r: seq<Voice>)
    ensures (forall i :: 0 <= i < |manifests| ==> FileVoices(manifests[i]) == []) ==> r == ScanVoices(listing)
    ensures forall i :: (0 <= i < |manifests| && FileVoices(manifests[i]) != [] &&
      (forall j :: 0 <= j < i ==> FileVoices(manifests[j]) == [])) ==> r == FileVoices(manifests[i])
    decreases |manifests|
  {
    if |manifests| == 0 then ScanVoices(listing)
    else
      var out := FileVoices(manifests[0]);
      if out != [] then out
      else
        var r := Discover(manifests[1..], listing);
        assert forall i :: 1 <= i < |manifests| ==> manifests[1..][i - 1] == manifests[i];
        r
  }

  /** A manifest that is missing, unreadable, not a list or without usable
      items leaves the answer to the rest. */
  lemma SkipsFruitless(m: ManifestFile, rest: seq<ManifestFile>, listing: Option<seq<string>>)
    requires FileVoices(m) == []
    ensures Discover([m] + rest, listing) == Discover(rest, listing)
  {
    assert ([m] + rest)[1..] == rest;
  }

  // ------------------------------------------------------------- the cache

  const DefaultRepo: string := "hexgrad/Kokoro-82M"

  /** The list served when the snapshot or discovery raises. */
  const FallbackVoices: seq<Voice> := [Voice(JStr("af_heart"), JStr("af_heart"))]

  /** `repo_id or os.getenv("KOKORO_REPO_ID", DEFAULT_REPO)` */
  function RepoId(arg: Option<string>, env: Option<string>): (r: string)
    ensures arg.Some? && arg.value != "" ==> r == arg.value
    ensures (arg.None? || arg.value == "") && env.Some? ==> r == env.value
    ensures (arg.None? || arg.value == "") && env.None? ==> r == DefaultRepo
  {
    if arg.Some? && arg.value != "" then arg.value
    else if env.Some? then env.value
    else DefaultRepo
  }

  /** What the download gave: `None` when it (or discovery) raised. */
  datatype Snapshot = Snapshot(manifests: seq<ManifestFile>, listing: Option<seq<string>>)

  /** `get_kokoro_voices`: the voices and the cache afterwards. */
  function GetVoices(arg: Option<string>, env: Option<string>, forceRefresh: bool,
                     cache: map<string, seq<Voice>>, snapshot: Option<Snapshot>)
    : (r: (seq<Voice>, map<string, seq<Voice>>))
    ensures RepoId(arg, env) in r.1 && r.1[RepoId(arg, env)] == r.0
    ensures forall k :: k in cache && k != RepoId(arg, env) ==> k in r.1 && r.1[k] == cache[k]
    ensures forall k :: k in r.1 ==> k in cache || k == RepoId(arg, env)
    ensures !forceRefresh && RepoId(arg, env) in cache ==> r.0 == cache[RepoId(arg, env)]
    ensures (forceRefresh || RepoId(arg, env) !in cache) && snapshot.None? ==> r.0 == FallbackVoices
    ensures (forceRefresh || RepoId(arg, env) !in cache) && snapshot.Some? ==>
      r.0 == Discover(snapshot.value.manifests, snapshot.value.listing)
  {
    var id := RepoId(arg, env);
    if !forceRefresh && id in cache then (cache[id], cache)
    else
      var voices := if snapshot.None? then FallbackVoices
                    else Discover(snapshot.value.manifests, snapshot.value.listing);
      (voices, cache[id := voices])
  }

  /** Once a repository's list is cached (the fallback list included), a
      call without `force_refresh` returns it whatever the hub would now
      give, and leaves the cache alone. */
  lemma CachedAnswerSticks(arg: Option<string>, env: Option<string>, force: bool,
                           cache: map<string, seq<Voice>>, first: Option<Snapshot>, later: Option<Snapshot>)
    ensures var (v, c) := GetVoices(arg, env, force, cache, first);
      GetVoices(arg, env, false, c, later) == (v, c)
  {
  }

  /** A snapshot without voices gives an empty list, which is cached: the
      fallback list is only for failures. */
  lemma EmptyIsNotFailure(arg: Option<string>, env: Option<string>, cache: map<string, seq<Voice>>)
    ensures GetVoices(arg, env, true, cache, Some(Snapshot([Missing, Missing], None))).0 == []
  {
  }
}

=== FILE: vtt.dfy ===
/** SubRip to WebVTT conversion (app/utils/make_captions.py): three regular
    expression rewrites, a `\r\n` normalisation, a split on blank lines and a
    re-join under the `WEBVTT` header. Each rewrite is modelled as the
    left-to-right, non-overlapping scan `re.sub` and `str.replace` perform. */
module Vtt {

  import opened Common
  import opened Text
  import Decimal
  import ExtractText

  // ---------------------------------------------------------------------
  // `re.sub(r"(?m)^\s*\d+\s*$", "", srt)`

  /** `^` in multi-line mode: the start of the text or just after a `\n`. */
  predicate LineStart(s: string, p: nat)
    requires p <= |s|
  {
    p == 0 || s[p - 1] == '\n'
  }

  /** `$` in multi-line mode: the end of the text or just before a `\n`. */
  predicate LineEnd(s: string, p: nat)
    requires p <= |s|
  {
    p == |s| || s[p] == '\n'
  }

  /** Length of the longest whitespace run (`\s*`) starting at `p`. */
  function SpaceRun(s: string, p: nat): (n: nat)
    requires p <= |s|
    ensures p + n <= |s|
    ensures forall i :: p <= i < p + n ==> IsSpace(s[i])
    ensures p + n == |s| || !IsSpace(s[p + n])
    decreases |s| - p
  {
    if p < |s| && IsSpace(s[p]) then 1 + SpaceRun(s, p + 1) else 0
  }

  /** Length of the longest digit run (`\d+` when positive) starting at `p`. */
  function DigitRun(s: string, p: nat): (n: nat)
    requires p <= |s|
    ensures p + n <= |s|
    ensures forall i :: p <= i < p + n ==> Decimal.IsDigit(s[i])
    ensures p + n == |s| || !Decimal.IsDigit(s[p + n])
    decreases |s| - p
  {
    if p < |s| && Decimal.IsDigit(s[p]) then 1 + DigitRun(s, p + 1) else 0
  }

  /** The longest prefix, at most `v` long, of the whitespace after position
      `q` that ends at a line end: how far the trailing `\s*` reaches once
      backtracking has found a place where `$` holds. */
  function LastLineEnd(s: string, q: nat, v: nat): (r: Option<nat>)
    requires q + v <= |s|
    ensures r.Some? ==> r.value <= v && LineEnd(s, q + r.value)
    ensures r.Some? ==> forall e :: q + r.value < e <= q + v ==> !LineEnd(s, e)
    ensures r.None? ==> forall e :: q <= e <= q + v ==> !LineEnd(s, e)
    decreases v
  {
    if LineEnd(s, q + v) then Some(v)
    else if v == 0 then None
    else LastLineEnd(s, q, v - 1)
  }

  /** End of the match of `^\s*\d+\s*$` that starts at `p`, if any. Neither
      `\s*` nor `\d+` can give back characters usefully (a whitespace
      character is not a digit and a digit is not a line end), so only the
      trailing `\s*` backtracks. */
  function IndexLineAt(s: string, p: nat): (r: Option<nat>)
    requires p <= |s|
    ensures r.Some? ==> p < r.value <= |s| && LineStart(s, p) && LineEnd(s, r.value)
  {
    if !LineStart(s, p) then None
    else
      var a := p + SpaceRun(s, p);
      var d := DigitRun(s, a);
      if d == 0 then None
      else
        var q := a + d;
        match LastLineEnd(s, q, SpaceRun(s, q))
        case None => None
        case Some(j) => Some(q + j)
  }

  /** `re.sub` of the index-line pattern with "", scanning from `p`: a match
      is dropped and the scan resumes at its end; otherwise one character is
      copied. */
  function DropIndexLines(s: string, p: nat): (r: string)
    requires p <= |s|
    ensures |r| <= |s| - p
    decreases |s| - p
  {
    if p == |s| then []
    else
      match IndexLineAt(s, p)
      case Some(e) => DropIndexLines(s, e)
      case None => [s[p]] + DropIndexLines(s, p + 1)
  }

  /** Where no match starts, the scan copies the text unchanged. */
  lemma {:induction false} DropCopies(s: string, p: nat, q: nat)
    requires p <= q <= |s|
    requires forall i :: p <= i < q ==> IndexLineAt(s, i).None?
    ensures DropIndexLines(s, p) == s[p..q] + DropIndexLines(s, q)
    decreases q - p
  {
    hide DropIndexLines, IndexLineAt;
    if p < q {
      DropStep(s, p);
      DropCopies(s, p + 1, q);
      assert s[p..q] == [s[p]] + s[p + 1..q];
      ConcatAssoc([s[p]], s[p + 1..q], DropIndexLines(s, q));
    }
  }

  /** Where no match starts, one character is copied. */
  lemma DropStep(s: string, p: nat)
    requires p < |s| && IndexLineAt(s, p).None?
    ensures DropIndexLines(s, p) == [s[p]] + DropIndexLines(s, p + 1)
  {
  }

  /** Text without digits has no index lines to drop. */
  lemma DropWithoutDigits(s: string)
    requires forall i :: 0 <= i < |s| ==> !Decimal.IsDigit(s[i])
    ensures DropIndexLines(s, 0) == s
  {
    forall i | 0 <= i < |s| ensures IndexLineAt(s, i).None? {
      if LineStart(s, i) {
        var a := i + SpaceRun(s, i);
        assert DigitRun(s, a) == 0;
      }
    }
    DropCopies(s, 0, |s|);
  }

  /** A match is dropped and the scan resumes at its end. */
  lemma DropMatch(s: string, p: nat, e: nat)
    requires p < |s| && IndexLineAt(s, p) == Some(e)
    ensures DropIndexLines(s, p) == DropIndexLines(s, e)
  {
  }

  /** A line segment with no match at its start is copied whole. */
  lemma DropLineSegment(s: string, p: nat, q: nat)
    requires p < q <= |s|
    requires IndexLineAt(s, p).None?
    requires forall i :: p <= i < q - 1 ==> s[i] != '\n'
    ensures DropIndexLines(s, p) == s[p..q] + DropIndexLines(s, q)
  {
    DropCopies(s, p, q);
  }

  // ---------------------------------------------------------------------
  // `re.sub(r"(\d\d:\d\d:\d\d),(\d{3})", r"\1.\2", srt)`

  /** A `DD:DD:DD,DDD` timestamp starts at `p`. */
  predicate TimeAt(s: string, p: nat)
  {
    p + 12 <= |s| &&
    Decimal.IsDigit(s[p]) && Decimal.IsDigit(s[p + 1]) && s[p + 2] == ':' &&
    Decimal.IsDigit(s[p + 3]) && Decimal.IsDigit(s[p + 4]) && s[p + 5] == ':' &&
    Decimal.IsDigit(s[p + 6]) && Decimal.IsDigit(s[p + 7]) && s[p + 8] == ',' &&
    Decimal.IsDigit(s[p + 9]) && Decimal.IsDigit(s[p + 10]) && Decimal.IsDigit(s[p + 11])
  }

  /** The timestamp rewrite, scanning from `p`: a match has its comma turned
      into a full stop and the scan resumes after it. */
  function CommaToDot(s: string, p: nat): (r: string)
    requires p <= |s|
    ensures |r| == |s| - p
    decreases |s| - p
  {
    if p == |s| then []
    else if TimeAt(s, p) then s[p..p + 8] + "." + s[p + 9..p + 12] + CommaToDot(s, p + 12)
    else [s[p]] + CommaToDot(s, p + 1)
  }

  /** One step of the rewrite: a timestamp at `p` is copied with a full
      stop for its comma, any other character is copied as it is. */
  lemma CommaToDotStep(s: string, p: nat)
    requires p < |s|
    ensures TimeAt(s, p) ==>
      CommaToDot(s, p) == s[p..p + 8] + "." + s[p + 9..p + 12] + CommaToDot(s, p + 12) &&
      CommaToDot(s, p)[..12] == s[p..p + 8] + "." + s[p + 9..p + 12] &&
      CommaToDot(s, p)[12..] == CommaToDot(s, p + 12)
    ensures !TimeAt(s, p) ==> CommaToDot(s, p) == [s[p]] + CommaToDot(s, p + 1)
  {
  }

  /** The rewrite changes nothing but commas, into full stops. */
  lemma {:induction false} CommaToDotChars(s: string, p: nat, i: nat)
    requires p <= i < |s|
    ensures CommaToDot(s, p)[i - p] == s[i] || (s[i] == ',' && CommaToDot(s, p)[i - p] == '.')
    decreases |s| - p
  {
    CommaToDotStep(s, p);
    var r := CommaToDot(s, p);
    if TimeAt(s, p) {
      if i >= p + 12 {
        CommaToDotChars(s, p + 12, i);
        assert r[i - p] == r[12..][i - p - 12];
      } else {
        assert r[i - p] == r[..12][i - p];
      }
    } else if i > p {
      CommaToDotChars(s, p + 1, i);
      assert r[i - p] == CommaToDot(s, p + 1)[i - p - 1];
    }
  }

  /** Only the comma of a timestamp changes, and a timestamp that does not
      overlap an earlier one always has its comma changed. */
  lemma {:induction false} CommaToDotExact(s: string, p: nat, i: nat)
    requires p <= i < |s|
    ensures CommaToDot(s, p)[i - p] != s[i] ==> i >= p + 8 && TimeAt(s, i - 8)
    ensures (i >= p + 8 && TimeAt(s, i - 8) &&
             forall k :: i - 8 - 11 <= k < i - 8 && p <= k ==> !TimeAt(s, k)) ==>
      CommaToDot(s, p)[i - p] == '.'
    decreases |s| - p
  {
    CommaToDotStep(s, p);
    var r := CommaToDot(s, p);
    hide CommaToDot, TimeAt;
    if TimeAt(s, p) {
      if i >= p + 12 {
        CommaToDotExact(s, p + 12, i);
        assert r[i - p] == r[12..][i - p - 12];
      } else {
        TimestampChars(s, p, r[..12], i);
        assert r[i - p] == r[..12][i - p];
      }
    } else if i > p {
      CommaToDotExact(s, p + 1, i);
      assert r[i - p] == CommaToDot(s, p + 1)[i - p - 1];
    }
  }

  /** Inside one rewritten timestamp only the comma's place differs. */
  lemma TimestampChars(s: string, p: nat, t: string, i: nat)
    requires p <= i < p + 12 <= |s|
    requires t == s[p..p + 8] + "." + s[p + 9..p + 12]
    ensures t[i - p] == if i == p + 8 then '.' else s[i]
  {
  }

  /** Where no comma sits eight characters on, the rewrite copies. */
  lemma {:induction false} CommaCopies(s: string, p: nat, q: nat)
    requires p <= q <= |s|
    requires forall i :: p + 8 <= i < q + 8 && i < |s| ==> s[i] != ','
    ensures CommaToDot(s, p) == s[p..q] + CommaToDot(s, q)
    decreases q - p
  {
    hide CommaToDot, TimeAt;
    if p < q {
      NoTimeAt(s, p);
      CommaToDotStep(s, p);
      CommaCopies(s, p + 1, q);
      assert s[p..q] == [s[p]] + s[p + 1..q];
      ConcatAssoc([s[p]], s[p + 1..q], CommaToDot(s, q));
    }
  }

  /** No timestamp starts where no comma follows eight characters on. */
  lemma NoTimeAt(s: string, p: nat)
    requires p < |s| && (p + 8 >= |s| || s[p + 8] != ',')
    ensures !TimeAt(s, p)
  {
  }

  // ---------------------------------------------------------------------
  // `.replace("\r\n", "\n")`

  function CrlfToLf(s: string, p: nat): (r: string)
    requires p <= |s|
    ensures |r| <= |s| - p
    ensures |r| == 0 <==> p == |s|
    ensures p < |s| ==> r[|r| - 1] == s[|s| - 1]
    decreases |s| - p
  {
    if p == |s| then []
    else if p + 1 < |s| && s[p] == '\r' && s[p + 1] == '\n' then "\n" + CrlfToLf(s, p + 2)
    else [s[p]] + CrlfToLf(s, p + 1)
  }

  /** Text without carriage returns is left as it is. */
  lemma {:induction false} CrlfToLfIdentity(s: string, p: nat)
    requires p <= |s|
    requires forall i :: p <= i < |s| ==> s[i] != '\r'
    ensures CrlfToLf(s, p) == s[p..]
    decreases |s| - p
  {
    if p < |s| {
      CrlfToLfIdentity(s, p + 1);
      assert s[p..] == [s[p]] + s[p + 1..];
    }
  }

  /** Lines joined with `\r\n`, none holding a carriage return, come out
      joined with `\n`. */
  lemma {:induction false} CrlfLines(lines: seq<string>)
    requires forall k, i :: 0 <= k < |lines| && 0 <= i < |lines[k]| ==> lines[k][i] != '\r'
    ensures CrlfToLf(Join(lines, "\r\n"), 0) == Join(lines, "\n")
  {
    if |lines| == 1 {
      CrlfToLfIdentity(lines[0], 0);
    } else if |lines| > 1 {
      var tail := Join(lines[1..], "\r\n");
      CrlfLines(lines[1..]);
      CrlfPrefix(lines[0], tail);
    }
  }

  /** A `\r`-free line followed by `\r\n` turns into the line and `\n`. */
  lemma {:induction false} CrlfPrefix(line: string, tail: string)
    requires forall i :: 0 <= i < |line| ==> line[i] != '\r'
    ensures CrlfToLf(line + "\r\n" + tail, 0) == line + "\n" + CrlfToLf(tail, 0)
    decreases |line|
  {
    if |line| == 0 {
      assert line + "\r\n" + tail == "\r\n" + tail;
      CrlfPrefixEmpty(tail);
    } else {
      CrlfPrefix(line[1..], tail);
      CrlfPrefixCons(line, tail);
    }
  }

  lemma CrlfPrefixEmpty(tail: string)
    ensures CrlfToLf("\r\n" + tail, 0) == "\n" + CrlfToLf(tail, 0)
  {
    var s := "\r\n" + tail;
    assert s[0] == '\r' && s[1] == '\n' && s[2..] == tail;
    hide *;
    CrlfStep(s, 0);
    CrlfSuffix(s, 2, tail);
  }

  lemma CrlfPrefixCons(line: string, tail: string)
    requires |line| > 0 && line[0] != '\r'
    requires CrlfToLf(line[1..] + "\r\n" + tail, 0) == line[1..] + "\n" + CrlfToLf(tail, 0)
    ensures CrlfToLf(line + "\r\n" + tail, 0) == line + "\n" + CrlfToLf(tail, 0)
  {
    var s := line + "\r\n" + tail;
    var rest := line[1..] + "\r\n" + tail;
    assert s[0] == line[0] && s[1..] == rest;
    assert line + "\n" + CrlfToLf(tail, 0) == [line[0]] + (line[1..] + "\n" + CrlfToLf(tail, 0));
    hide *;
    CrlfStep(s, 0);
    CrlfSuffix(s, 1, rest);
  }

  /** One step of the scan at `p`. */
  lemma CrlfStep(s: string, p: nat)
    requires p < |s|
    ensures p + 1 < |s| && s[p] == '\r' && s[p + 1] == '\n' ==> CrlfToLf(s, p) == "\n" + CrlfToLf(s, p + 2)
    ensures !(p + 1 < |s| && s[p] == '\r' && s[p + 1] == '\n') ==> CrlfToLf(s, p) == [s[p]] + CrlfToLf(s, p + 1)
  {
  }

  /** The scan from `p` depends only on the text from `p` on. */
  lemma {:induction false} CrlfSuffix(s: string, p: nat, t: string)
    requires p <= |s| && t == s[p..]
    ensures CrlfToLf(s, p) == CrlfToLf(t, 0)
    decreases |s| - p
  {
    if p < |s| {
      if p + 1 < |s| && s[p] == '\r' && s[p + 1] == '\n' {
        CrlfSuffix(s, p + 2, t[2..]);
        CrlfSuffix(t, 2, t[2..]);
      } else {
        CrlfSuffix(s, p + 1, t[1..]);
        CrlfSuffix(t, 1, t[1..]);
      }
    }
  }

  // ---------------------------------------------------------------------
  // `srt_to_vtt`

  /** The text after the rewrites, before it is split into cues. */
  function VttBody(srt: string): string
  {
    var stripped := Strip(DropIndexLines(srt, 0));
    CrlfToLf(CommaToDot(stripped, 0), 0)
  }

  /** The header, an empty line and the cue blocks of `body` (split at
      blank lines), joined by line breaks, stripped, with a final line break. */
  function WithHeader(body: string): string
  {
    var cues := Split(body, "\n\n");
    Strip(Join(["WEBVTT", ""] + cues, "\n")) + "\n"
  }

  /** The text `srt_to_vtt` writes for the SubRip text `srt`. */
  function SrtToVtt(srt: string): (r: string)
    ensures |r| >= 7 && r[..6] == "WEBVTT" && r[|r| - 1] == '\n'
  {
    BodyFraming(srt);
    WithHeader(VttBody(srt))
  }

  /** `srt_to_vtt` on the SubRip file the captions step wrote. The file is
      read back in text mode, where universal newlines turn CRLF and a lone
      CR into LF (what `ExtractText.CrLf` computes), and the text read is
      converted. Text without carriage returns converts as it is. */
  function SrtFileToVtt(written: string): (r: string)
    ensures |r| >= 7 && r[..6] == "WEBVTT" && r[|r| - 1] == '\n'
    ensures '\r' !in written ==> r == SrtToVtt(written)
  {
    ReadBackNoop(written);
    SrtToVtt(ExtractText.CrLf(written))
  }

  /** Reading text without carriage returns gives it back unchanged. */
  lemma ReadBackNoop(s: string)
    ensures '\r' !in s ==> ExtractText.CrLf(s) == s
  {
    if '\r' !in s {
      ExtractText.CrLfNoop(s);
    }
  }

  /** Writing the text read and reading it again converts the same: after
      one read no carriage return is left. */
  lemma SrtFileReadTwice(written: string)
    ensures SrtFileToVtt(ExtractText.CrLf(written)) == SrtFileToVtt(written)
  {
    ReadBackNoop(ExtractText.CrLf(written));
  }

  /** A lone carriage return inside a cue text reaches the converter as a
      line break. */
  lemma SrtFileLoneCr(x: string, y: string)
    requires '\r' !in x && '\r' !in y && (|y| == 0 || y[0] != '\n')
    ensures SrtFileToVtt(x + "\r" + y) == SrtToVtt(x + "\n" + y)
  {
    if |x| > 0 {
      assert x[|x| - 1] in x;
    }
    ExtractText.CrLfLone(x, y);
    ReadBackNoop(x);
    ReadBackNoop(y);
  }

  /** The header wrapped around the converted body frames the whole text. */
  lemma BodyFraming(srt: string)
    ensures var r := WithHeader(VttBody(srt));
      |r| >= 7 && r[..6] == "WEBVTT" && r[|r| - 1] == '\n' && !IsSpace(r[|r| - 2])
  {
    BodyEnd(srt);
    WithHeaderFraming(VttBody(srt));
  }

  /** The body ends in the character the stripped text ends in, which is not
      whitespace; it is empty only when the stripped text is. */
  lemma BodyEnd(srt: string)
    ensures |VttBody(srt)| == 0 <==> |Strip(DropIndexLines(srt, 0))| == 0
    ensures |VttBody(srt)| > 0 ==> !IsSpace(VttBody(srt)[|VttBody(srt)| - 1])
  {
    var st := Strip(DropIndexLines(srt, 0));
    var c := CommaToDot(st, 0);
    if |st| > 0 {
      CommaToDotChars(st, 0, |st| - 1);
    }
  }

  /** The header alone when the body is empty; otherwise, when the body does
      not end in whitespace, the header, an empty line, and the cue blocks
      joined by single line breaks, with one final line break. */
  lemma WithHeaderShape(body: string)
    requires body == [] || !IsSpace(body[|body| - 1])
    ensures body == [] ==> WithHeader(body) == "WEBVTT\n"
    ensures body != [] ==> WithHeader(body) == "WEBVTT\n\n" + Join(Split(body, "\n\n"), "\n") + "\n"
    ensures body != [] ==> |Join(Split(body, "\n\n"), "\n")| > 0
    ensures body != [] ==> !IsSpace(Join(Split(body, "\n\n"), "\n")[|Join(Split(body, "\n\n"), "\n")| - 1])
  {
    hide *;
    if body == [] {
      WithHeaderEmpty();
    } else {
      WithHeaderNonEmpty(body);
    }
  }

  lemma WithHeaderEmpty()
    ensures WithHeader([]) == "WEBVTT\n"
  {
    hide Join, Split, Strip, WithHeader;
    var j := Join(Split([], "\n\n"), "\n");
    WithHeaderFrame([]);
    EmptyBodyJoin();
    StripFrame("", "WEBVTT", "\n\n");
    assert "WEBVTT\n\n" + j == "" + "WEBVTT" + "\n\n";
  }

  lemma WithHeaderNonEmpty(body: string)
    requires body != [] && !IsSpace(body[|body| - 1])
    ensures WithHeader(body) == "WEBVTT\n\n" + Join(Split(body, "\n\n"), "\n") + "\n"
    ensures |Join(Split(body, "\n\n"), "\n")| > 0
    ensures !IsSpace(Join(Split(body, "\n\n"), "\n")[|Join(Split(body, "\n\n"), "\n")| - 1])
  {
    hide Join, Split, Strip, WithHeader;
    var cues := Split(body, "\n\n");
    var j := Join(cues, "\n");
    WithHeaderFrame(body);
    SplitLast(body, "\n\n");
    JoinLast(cues, "\n");
    var last := cues[|cues| - 1];
    var n := |last|;
    assert "\n\n"[1] == '\n';
    assert n > 0;
    assert j[|j| - 1] == j[|j| - n..][n - 1];
    assert body[|body| - 1] == body[|body| - n..][n - 1];
    StripFrame("", "WEBVTT\n\n" + j, "");
    assert "" + ("WEBVTT\n\n" + j) + "" == "WEBVTT\n\n" + j;
  }

  /** The header text before stripping. */
  lemma WithHeaderFrame(body: string)
    ensures WithHeader(body) == Strip("WEBVTT\n\n" + Join(Split(body, "\n\n"), "\n")) + "\n"
  {
    var cues := Split(body, "\n\n");
    HeaderJoin(cues);
    hide Join, Split, Strip;
  }

  /** The header line and the empty line in front of the cue blocks. */
  lemma HeaderJoin(cues: seq<string>)
    requires |cues| >= 1
    ensures Join(["WEBVTT", ""] + cues, "\n") == "WEBVTT\n\n" + Join(cues, "\n")
  {
    hide Join;
    assert ["WEBVTT", ""] + cues == ["WEBVTT"] + ([""] + cues);
    JoinCons("WEBVTT", [""] + cues, "\n");
    JoinCons("", cues, "\n");
  }

  /** An empty body has one empty cue block. */
  lemma EmptyBodyJoin()
    ensures Split("", "\n\n") == [""] && Join(Split("", "\n\n"), "\n") == ""
  {
  }

  /** A body whose cue blocks are known is written as the header, an empty
      line and those blocks joined by single line breaks. */
  lemma WithHeaderCues(body: string, cues: seq<string>)
    requires body != [] && !IsSpace(body[|body| - 1]) && Split(body, "\n\n") == cues
    ensures WithHeader(body) == "WEBVTT\n\n" + Join(cues, "\n") + "\n"
  {
    WithHeaderShape(body);
  }

  /** The written text: the header alone when nothing is left of the
      captions, else the header, an empty line, and the cue blocks joined by
      single line breaks, with one final line break. */
  lemma SrtToVttShape(srt: string)
    ensures VttBody(srt) == [] ==> SrtToVtt(srt) == "WEBVTT\n"
    ensures VttBody(srt) != [] ==>
      SrtToVtt(srt) == "WEBVTT\n\n" + Join(Split(VttBody(srt), "\n\n"), "\n") + "\n"
  {
    BodyEnd(srt);
    WithHeaderShape(VttBody(srt));
  }

  /** The final line break is the only one: the character before it is not
      whitespace. */
  lemma SrtToVttFraming(srt: string)
    ensures var r := SrtToVtt(srt); !IsSpace(r[|r| - 2])
  {
    hide *;
    SrtToVttUnfold(srt);
    BodyFraming(srt);
  }

  lemma SrtToVttUnfold(srt: string)
    ensures SrtToVtt(srt) == WithHeader(VttBody(srt))
  {
  }

  lemma WithHeaderFraming(body: string)
    requires body == [] || !IsSpace(body[|body| - 1])
    ensures |WithHeader(body)| >= 7 && WithHeader(body)[..6] == "WEBVTT"
    ensures WithHeader(body)[|WithHeader(body)| - 1] == '\n'
    ensures !IsSpace(WithHeader(body)[|WithHeader(body)| - 2])
  {
    WithHeaderShape(body);
    var r := WithHeader(body);
    if body != [] {
      var j := Join(Split(body, "\n\n"), "\n");
      assert r == "WEBVTT\n\n" + j + "\n";
      assert r[|r| - 2] == j[|j| - 1];
      assert r[..6] == "WEBVTT";
    }
  }

  /** Empty captions give the bare header. */
  lemma SrtToVttEmpty()
    ensures SrtToVtt("") == "WEBVTT\n"
  {
    SrtToVttShape("");
  }

  // ---------------------------------------------------------------------
  // Cue blocks separated by empty lines

  /** The header and the cue blocks, each pair separated by an empty line,
      as WebVTT files are laid out. */
  function WithHeaderSeparated(body: string): string
  {
    var cues := Split(body, "\n\n");
    Strip(Join(["WEBVTT"] + cues, "\n\n")) + "\n"
  }

  /** `srt_to_vtt` with the cue blocks re-joined by empty lines. */
  function SrtToVttSeparated(srt: string): string
  {
    WithHeaderSeparated(VttBody(srt))
  }

  /** With empty lines between the blocks the body is written back as it
      is: the header, an empty line, the body and a final line break. */
  lemma WithHeaderSeparatedShape(body: string)
    requires body == [] || !IsSpace(body[|body| - 1])
    ensures body == [] ==> WithHeaderSeparated(body) == "WEBVTT\n"
    ensures body != [] ==> WithHeaderSeparated(body) == "WEBVTT\n\n" + body + "\n"
  {
    var cues := Split(body, "\n\n");
    JoinCons("WEBVTT", cues, "\n\n");
    SplitJoin(body, "\n\n");
    assert Join(["WEBVTT"] + cues, "\n\n") == "WEBVTT\n\n" + body;
    if body == [] {
      StripFrame("", "WEBVTT", "\n\n");
      assert "WEBVTT\n\n" + body == "" + "WEBVTT" + "\n\n";
    } else {
      var w := "WEBVTT\n\n" + body;
      assert w[|w| - 1] == body[|body| - 1];
      StripFrame("", w, "");
      assert "" + w + "" == w;
    }
  }

  /** The header alone when nothing is left of the captions; otherwise the
      header, an empty line, the cue blocks exactly as the body holds them
      (so each pair separated by an empty line) and one final line break. */
  lemma SrtToVttSeparatedShape(srt: string)
    ensures VttBody(srt) == [] ==> SrtToVttSeparated(srt) == "WEBVTT\n"
    ensures VttBody(srt) != [] ==> SrtToVttSeparated(srt) == "WEBVTT\n\n" + VttBody(srt) + "\n"
    ensures Join(Split(VttBody(srt), "\n\n"), "\n\n") == VttBody(srt)
  {
    BodyEnd(srt);
    WithHeaderSeparatedShape(VttBody(srt));
    SplitJoin(VttBody(srt), "\n\n");
  }

  /** Where the body is a single block the two layouts agree. */
  lemma SeparatedAgrees(srt: string)
    requires Split(VttBody(srt), "\n\n") == [VttBody(srt)]
    ensures SrtToVttSeparated(srt) == SrtToVtt(srt)
  {
    BodyEnd(srt);
    WithHeaderShape(VttBody(srt));
    WithHeaderSeparatedShape(VttBody(srt));
  }
}

=== FILE: vtt_cue.dfy ===
/** One SubRip cue run through `srt_to_vtt`: the index line goes, the two
    timestamps take a full stop, and the cue follows the header. */
module VttCue {

  import opened Common
  import opened Text
  import Decimal
  import opened Vtt

  /** An `HH:MM:SS,mmm` timestamp, as the SubRip writers produce. */
  predicate Stamp(a: string)
  {
    |a| == 12 && TimeAt(a, 0)
  }

  /** The timestamp with its comma turned into a full stop. */
  function Dotted(a: string): string
    requires |a| == 12
  {
    a[..8] + "." + a[9..]
  }

  /** A one-line caption text the rewrites leave alone: it does not start
      like an index line, holds no comma, no line break and no carriage
      return, and does not end in whitespace. */
  predicate PlainText(t: string)
  {
    |t| > 0 && !IsSpace(t[0]) && !Decimal.IsDigit(t[0]) && !IsSpace(t[|t| - 1]) &&
    forall i :: 0 <= i < |t| ==> t[i] != '\n' && t[i] != '\r' && t[i] != ','
  }

  /** The SubRip block `idx`, `a --> b`, `t`, blank line. */
  function CueSrt(idx: string, a: string, b: string, t: string): string
  {
    idx + "\n" + a + " --> " + b + "\n" + t + "\n\n"
  }

  /** The cue without its index line. */
  function CueCore(a: string, b: string, t: string): string
  {
    a + " --> " + b + "\n" + t
  }

  lemma StampChars(a: string)
    requires Stamp(a)
    ensures Decimal.IsDigit(a[0]) && !IsSpace(a[0]) && a[0] != '\n'
    ensures forall i :: 0 <= i < 12 ==> a[i] != '\n' && a[i] != '\r'
    ensures forall i :: 0 <= i < 8 ==> a[i] != ','
  {
  }

  /** The index line at the start is the whole match. */
  lemma CueIndexLine(s: string, idx: string, a: string)
    requires |idx| > 0 && Decimal.AllDigits(idx) && Stamp(a)
    requires |s| > |idx| + 1 && s[..|idx|] == idx && s[|idx|] == '\n' && s[|idx| + 1] == a[0]
    ensures IndexLineAt(s, 0) == Some(|idx|)
  {
    var n := |idx|;
    StampChars(a);
    assert forall i :: 0 <= i < n ==> s[i] == idx[i];
    assert SpaceRun(s, 0) == 0;
    assert DigitRun(s, 0) == n;
    assert SpaceRun(s, n) == 1;
    assert LastLineEnd(s, n, 0) == Some(0);
    assert LastLineEnd(s, n, 1) == Some(0);
  }

  /** The timing line starts with two digits and a colon: not an index line. */
  lemma CueTimingLine(s: string, p: nat, a: string)
    requires Stamp(a) && p + 12 <= |s| && s[p..p + 12] == a
    ensures IndexLineAt(s, p).None?
  {
    assert s[p] == a[0] && s[p + 1] == a[1] && s[p + 2] == a[2];
    assert SpaceRun(s, p) == 0;
    assert DigitRun(s, p) == 2;
    assert SpaceRun(s, p + 2) == 0;
  }

  /** The caption text starts with neither whitespace nor a digit. */
  lemma CueTextLine(s: string, p: nat)
    requires p < |s| && !IsSpace(s[p]) && !Decimal.IsDigit(s[p])
    ensures IndexLineAt(s, p).None?
  {
    assert SpaceRun(s, p) == 0;
    assert DigitRun(s, p) == 0;
  }

  /** A last line holding one line break has no digits. */
  lemma CueLastLine(s: string)
    requires |s| > 0 && s[|s| - 1] == '\n'
    ensures IndexLineAt(s, |s| - 1).None?
  {
    assert SpaceRun(s, |s| - 1) == 1;
    assert DigitRun(s, |s|) == 0;
  }

  /** Where the pieces of a cue sit in its SubRip text. */
  lemma CueLayout(idx: string, a: string, b: string, t: string)
    ensures |CueSrt(idx, a, b, t)| == |idx| + |a| + |b| + |t| + 9
    ensures CueSrt(idx, a, b, t)[..|idx|] == idx
    ensures CueSrt(idx, a, b, t)[|idx|] == '\n'
    ensures CueSrt(idx, a, b, t)[|idx| + 1..|idx| + |a| + |b| + 7] == a + " --> " + b + "\n"
    ensures CueSrt(idx, a, b, t)[|idx| + |a| + |b| + 7..|idx| + |a| + |b| + |t| + 8] == t + "\n"
    ensures CueSrt(idx, a, b, t)[|idx| + |a| + |b| + |t| + 8] == '\n'
  {
    var s := CueSrt(idx, a, b, t);
    var n := |idx|;
    var l := a + " --> " + b + "\n";
    assert s == idx + "\n" + l + (t + "\n") + "\n";
    assert s[n + 1..n + 1 + |l|] == l;
  }

  /** The timing line holds no line break before its end. */
  lemma TimingNoBreak(a: string, b: string)
    requires Stamp(a) && Stamp(b)
    ensures forall k :: 0 <= k < 29 ==> (a + " --> " + b + "\n")[k] != '\n'
  {
    StampChars(a);
    StampChars(b);
    var l := a + " --> " + b + "\n";
    forall k | 0 <= k < 29 ensures l[k] != '\n' {
      if k < 12 {
        assert l[k] == a[k];
      } else if k >= 17 {
        assert l[k] == b[k - 17];
      }
    }
  }

  /** A line break not at a line start is copied. */
  lemma DropBreak(s: string, p: nat)
    requires 0 < p < |s| && s[p] == '\n' && s[p - 1] != '\n'
    ensures DropIndexLines(s, p) == "\n" + DropIndexLines(s, p + 1)
  {
    DropLineSegment(s, p, p + 1);
    assert s[p..p + 1] == "\n";
  }

  /** The timing line, with its line break, is copied. */
  lemma DropTiming(s: string, p: nat, q: nat, a: string, b: string)
    requires Stamp(a) && Stamp(b)
    requires q == p + 30 <= |s| && s[p..q] == a + " --> " + b + "\n"
    ensures DropIndexLines(s, p) == a + " --> " + b + "\n" + DropIndexLines(s, q)
  {
    var l := a + " --> " + b + "\n";
    assert s[p..p + 12] == l[..12] == a;
    CueTimingLine(s, p, a);
    TimingNoBreak(a, b);
    assert forall i :: p <= i < p + 29 ==> s[i] == l[i - p];
    DropLineSegment(s, p, p + 30);
  }

  /** The caption text, with its line break, is copied. */
  lemma DropText(s: string, p: nat, q: nat, t: string)
    requires PlainText(t)
    requires q == p + |t| + 1 <= |s| && s[p..q] == t + "\n"
    ensures DropIndexLines(s, p) == t + "\n" + DropIndexLines(s, q)
  {
    assert s[p] == t[0];
    assert forall i :: p <= i < q - 1 ==> s[i] == t[i - p];
    CueTextLine(s, p);
    DropLineSegment(s, p, q);
  }

  /** The closing empty line is copied. */
  lemma DropLast(s: string)
    requires |s| > 0 && s[|s| - 1] == '\n'
    ensures DropIndexLines(s, |s| - 1) == "\n"
  {
    CueLastLine(s);
    DropLineSegment(s, |s| - 1, |s|);
    assert s[|s| - 1..|s|] == "\n";
  }

  /** Where the pieces of a cue sit when its SubRip text starts at `p`. */
  lemma CueLayoutAt(s: string, p: nat, idx: string, a: string, b: string, t: string)
    requires Stamp(a) && Stamp(b)
    requires p + |CueSrt(idx, a, b, t)| <= |s| && s[p..p + |CueSrt(idx, a, b, t)|] == CueSrt(idx, a, b, t)
    ensures |CueSrt(idx, a, b, t)| == |idx| + |t| + 33
    ensures s[p..p + |idx|] == idx && s[p + |idx|] == '\n'
    ensures s[p + |idx| + 1..p + |idx| + 31] == a + " --> " + b + "\n"
    ensures s[p + |idx| + 31..p + |idx| + |t| + 32] == t + "\n"
    ensures s[p + |idx| + |t| + 32] == '\n'
  {
    var c := CueSrt(idx, a, b, t);
    CueLayout(idx, a, b, t);
    var n := |idx|;
    assert |a| + |b| + 7 == 31;
    SliceWithin(s, p, c, 0, n);
    SliceWithin(s, p, c, n + 1, n + 31);
    SliceWithin(s, p, c, n + 31, n + |t| + 32);
    assert s[p + n] == s[p..p + |c|][n];
    assert s[p + n + |t| + 32] == s[p..p + |c|][n + |t| + 32];
  }

  /** After its index line, a cue laid out at `p` is copied up to its
      closing empty line. */
  lemma DropCueBody(s: string, p: nat, idx: string, a: string, b: string, t: string)
    requires |idx| > 0 && Decimal.AllDigits(idx) && Stamp(a) && Stamp(b) && PlainText(t)
    requires p + |idx| + |t| + 33 <= |s|
    requires s[p..p + |idx|] == idx && s[p + |idx|] == '\n'
    requires s[p + |idx| + 1..p + |idx| + 31] == a + " --> " + b + "\n"
    requires s[p + |idx| + 31..p + |idx| + |t| + 32] == t + "\n"
    ensures DropIndexLines(s, p + |idx|) ==
      "\n" + (a + " --> " + b + "\n" + (t + "\n" + DropIndexLines(s, p + |idx| + |t| + 32)))
  {
    hide *;
    var n := p + |idx|;
    var m := n + 31;
    var e := n + |t| + 32;
    DropText(s, m, e, t);
    DropTiming(s, n + 1, m, a, b);
    DropAfterIndex(s, p, n, idx);
    Glue(DropIndexLines(s, n), DropIndexLines(s, n + 1), DropIndexLines(s, m), DropIndexLines(s, e),
         a + " --> " + b + "\n", t + "\n");
  }

  /** The line break that ends an index line is copied. */
  lemma DropAfterIndex(s: string, p: nat, n: nat, idx: string)
    requires |idx| > 0 && Decimal.AllDigits(idx)
    requires n == p + |idx| < |s| && s[p..n] == idx && s[n] == '\n'
    ensures DropIndexLines(s, n) == "\n" + DropIndexLines(s, n + 1)
  {
    assert s[n - 1] == s[p..n][|idx| - 1] == idx[|idx| - 1];
    DropBreak(s, n);
  }

  /** Three copied pieces in a row. */
  lemma Glue(d0: string, d1: string, d2: string, d3: string, l: string, u: string)
    requires d0 == "\n" + d1 && d1 == l + d2 && d2 == u + d3
    ensures d0 == "\n" + (l + (u + d3))
  {
  }

  /** Only the index line goes, for a text laid out as a cue. */
  lemma DropParts(s: string, idx: string, a: string, b: string, t: string)
    requires |idx| > 0 && Decimal.AllDigits(idx) && Stamp(a) && Stamp(b) && PlainText(t)
    requires |s| == |idx| + |t| + 33
    requires s[0..|idx|] == idx && s[|idx|] == '\n'
    requires s[|idx| + 1..|idx| + 31] == a + " --> " + b + "\n"
    requires s[|idx| + 31..|idx| + |t| + 32] == t + "\n"
    requires s[|s| - 1] == '\n'
    ensures DropIndexLines(s, 0) == "\n" + (a + " --> " + b + "\n" + (t + "\n" + "\n"))
  {
    var n := |idx|;
    var l := a + " --> " + b + "\n";
    assert s[n + 1] == l[0] == a[0];
    DropLast(s);
    DropCueBody(s, 0, idx, a, b, t);
    assert s[..n] == s[0..n];
    CueIndexLine(s, idx, a);
    DropMatch(s, 0, n);
  }

  /** Only the index line goes. */
  lemma CueDrop(idx: string, a: string, b: string, t: string)
    requires |idx| > 0 && Decimal.AllDigits(idx) && Stamp(a) && Stamp(b) && PlainText(t)
    ensures DropIndexLines(CueSrt(idx, a, b, t), 0) == "\n" + CueCore(a, b, t) + "\n\n"
  {
    var s := CueSrt(idx, a, b, t);
    assert s[0..|s|] == s;
    CueLayoutAt(s, 0, idx, a, b, t);
    DropParts(s, idx, a, b, t);
  }

  /** A timestamp copied into a text is a match of the rewrite there. */
  lemma StampAt(c: string, p: nat, a: string)
    requires Stamp(a) && p + 12 <= |c| && c[p..p + 12] == a
    ensures TimeAt(c, p)
    ensures c[p..p + 8] == a[..8] && c[p + 9..p + 12] == a[9..]
  {
    assert forall k :: 0 <= k < 12 ==> c[p + k] == a[k];
  }

  /** The timing line laid out at `p` takes a full stop in each timestamp,
      when no comma follows within eight characters. */
  lemma CommaTiming(c: string, p: nat, a: string, b: string)
    requires Stamp(a) && Stamp(b)
    requires p + 29 <= |c|
    requires c[p..p + 12] == a && c[p + 12..p + 17] == " --> " && c[p + 17..p + 29] == b
    requires forall i :: p + 29 <= i < p + 37 && i < |c| ==> c[i] != ','
    ensures CommaToDot(c, p) == Dotted(a) + (" --> " + (Dotted(b) + CommaToDot(c, p + 29)))
  {
    StampChars(b);
    StampAt(c, p, a);
    CommaToDotStep(c, p);
    assert forall i :: p + 17 <= i < p + 29 ==> c[i] == b[i - p - 17];
    CommaCopies(c, p + 12, p + 17);
    StampAt(c, p + 17, b);
    CommaToDotStep(c, p + 17);
    assert CommaToDot(c, p + 12) == " --> " + (Dotted(b) + CommaToDot(c, p + 29));
  }

  /** A comma-free stretch is copied, when no comma follows within eight
      characters. */
  lemma CommaText(c: string, p: nat, q: nat, t: string)
    requires q == p + |t| <= |c| && c[p..q] == t
    requires forall i :: 0 <= i < |t| ==> t[i] != ','
    requires forall i :: q <= i < q + 8 && i < |c| ==> c[i] != ','
    ensures CommaToDot(c, p) == t + CommaToDot(c, q)
  {
    assert forall i :: p <= i < q ==> c[i] == t[i - p];
    CommaCopies(c, p, q);
  }

  /** Both timestamps of a cue laid out in `c` from `p` to `q` take their
      full stop; the rest is copied. No comma may follow within eight
      characters, or a timestamp could straddle the end. */
  lemma CommaCue(c: string, p: nat, q: nat, a: string, b: string, t: string)
    requires Stamp(a) && Stamp(b) && PlainText(t)
    requires q == p + |t| + 30 <= |c|
    requires c[p..p + 12] == a && c[p + 12..p + 17] == " --> " && c[p + 17..p + 29] == b
    requires c[p + 29..q] == "\n" + t
    requires forall i :: q <= i < q + 8 && i < |c| ==> c[i] != ','
    ensures CommaToDot(c, p) == Dotted(a) + (" --> " + (Dotted(b) + ("\n" + t))) + CommaToDot(c, q)
  {
    hide CommaToDot;
    var nt := "\n" + t;
    assert forall i :: 0 <= i < |nt| ==> nt[i] != ',' by {
      forall i | 0 <= i < |nt| ensures nt[i] != ',' {
        if i > 0 { assert nt[i] == t[i - 1]; }
      }
    }
    CommaText(c, p + 29, q, nt);
    assert forall i :: p + 29 <= i < p + 37 && i < |c| ==> c[i] != ',' by {
      forall i | p + 29 <= i < p + 37 && i < |c| ensures c[i] != ',' {
        if i < q { assert c[i] == nt[i - p - 29]; }
      }
    }
    CommaTiming(c, p, a, b);
  }

  /** The timing line after the rewrite. */
  function DottedLine(a: string, b: string): string
    requires |a| == 12 && |b| == 12
  {
    Dotted(a) + " --> " + Dotted(b)
  }

  lemma CueComma(a: string, b: string, t: string)
    requires Stamp(a) && Stamp(b) && PlainText(t)
    ensures CommaToDot(CueCore(a, b, t), 0) == DottedLine(a, b) + "\n" + t
  {
    var c := CueCore(a, b, t);
    assert c[0..12] == a && c[12..17] == " --> " && c[17..29] == b && c[29..|c|] == "\n" + t;
    CommaCue(c, 0, |c|, a, b, t);
    assert CommaToDot(c, |c|) == [];
  }

  /** The rewritten timing line holds neither a line break nor a carriage
      return. */
  lemma DottedLineChars(a: string, b: string)
    requires Stamp(a) && Stamp(b)
    ensures |DottedLine(a, b)| == 29
    ensures forall k :: 0 <= k < 29 ==> DottedLine(a, b)[k] != '\n' && DottedLine(a, b)[k] != '\r'
  {
    StampChars(a);
    StampChars(b);
    var x := DottedLine(a, b);
    var da := Dotted(a);
    var db := Dotted(b);
    forall k | 0 <= k < 29 ensures x[k] != '\n' && x[k] != '\r' {
      if k < 12 {
        assert x[k] == da[k];
        assert da[k] == a[k] || da[k] == '.';
      } else if k >= 17 {
        assert x[k] == db[k - 17];
        assert db[k - 17] == b[k - 17] || db[k - 17] == '.';
      }
    }
  }

  /** The rewritten cue holds no carriage return. */
  lemma DottedCueChars(a: string, b: string, t: string, d: string)
    requires Stamp(a) && Stamp(b) && PlainText(t)
    requires d == DottedLine(a, b) + "\n" + t
    ensures forall i :: 0 <= i < |d| ==> d[i] != '\r'
  {
    DottedLineChars(a, b);
    forall i | 0 <= i < |d| ensures d[i] != '\r' {
      if i < 29 {
        assert d[i] == DottedLine(a, b)[i];
      } else if i > 29 {
        assert d[i] == t[i - 30];
      }
    }
  }

  /** Stripping takes the empty lines around the cue away. */
  lemma StripCue(a: string, t: string, core: string)
    requires Stamp(a) && PlainText(t)
    requires |core| > 0 && core[0] == a[0] && core[|core| - 1] == t[|t| - 1]
    ensures Strip("\n" + core + "\n\n") == core
  {
    StampChars(a);
    StripFrame("\n", core, "\n\n");
  }

  /** The body of a one-cue file is its rewritten timing line and text. */
  lemma CueBody(idx: string, a: string, b: string, t: string)
    requires |idx| > 0 && Decimal.AllDigits(idx) && Stamp(a) && Stamp(b) && PlainText(t)
    ensures VttBody(CueSrt(idx, a, b, t)) == DottedLine(a, b) + "\n" + t
  {
    var s := CueSrt(idx, a, b, t);
    var core := CueCore(a, b, t);
    var d := DottedLine(a, b) + "\n" + t;
    CueDrop(idx, a, b, t);
    StripCue(a, t, core);
    CueComma(a, b, t);
    DottedCueChars(a, b, t, d);
    CrlfToLfIdentity(d, 0);
    assert d[0..] == d;
  }

  /** A cue whose lines hold no line break has no blank line inside. */
  lemma CueOnePiece(a: string, b: string, t: string, d: string)
    requires Stamp(a) && Stamp(b) && PlainText(t)
    requires d == DottedLine(a, b) + "\n" + t
    ensures forall j :: 0 <= j ==> !OccursAt(d, "\n\n", j)
    ensures Split(d, "\n\n") == [d]
  {
    var x := DottedLine(a, b);
    DottedLineChars(a, b);
    assert '\n' !in x by {
      forall k | 0 <= k < |x| ensures x[k] != '\n' { }
    }
    assert '\n' !in t by {
      forall k | 0 <= k < |t| ensures t[k] != '\n' { }
    }
    SingleBreak(x, t);
    SplitWhole(d, "\n\n");
  }

  /** A body that is one cue block is written after the header as it is. */
  lemma OneBlock(s: string, x: string, t: string, d: string)
    requires d == x + "\n" + t && |t| > 0 && !IsSpace(t[|t| - 1])
    requires VttBody(s) == d && Split(d, "\n\n") == [d]
    ensures SrtToVtt(s) == "WEBVTT\n\n" + x + "\n" + t + "\n"
  {
    hide VttBody, WithHeader;
    assert d[|d| - 1] == t[|t| - 1];
    WithHeaderCues(d, [d]);
    assert Join([d], "\n") == d;
  }

  /** A one-cue SubRip file, `idx`, `a --> b`, `t` and a blank line, becomes
      the `WEBVTT` header, an empty line, the timing line with full stops in
      its timestamps, and the text: the index line is gone. */
  lemma SingleCue(idx: string, a: string, b: string, t: string)
    requires |idx| > 0 && Decimal.AllDigits(idx) && Stamp(a) && Stamp(b) && PlainText(t)
    ensures SrtToVtt(CueSrt(idx, a, b, t)) == "WEBVTT\n\n" + DottedLine(a, b) + "\n" + t + "\n"
  {
    var d := DottedLine(a, b) + "\n" + t;
    CueBody(idx, a, b, t);
    CueOnePiece(a, b, t, d);
    OneBlock(CueSrt(idx, a, b, t), DottedLine(a, b), t, d);
  }

  // ---------------------------------------------------------------------
  // Two cues

  /** The blank line closing a cue, the next index and its line break form
      one match: `\s*` takes the blank line, `\d+` the index, and the
      trailing `\s*` backs off to the line end. */
  lemma GapIndexLine(s: string, p: nat, idx: string, a: string)
    requires |idx| > 0 && Decimal.AllDigits(idx) && Stamp(a)
    requires 0 < p && p + |idx| + 2 < |s| && s[p - 1] == '\n' && s[p] == '\n'
    requires s[p + 1..p + 1 + |idx|] == idx && s[p + 1 + |idx|] == '\n' && s[p + 2 + |idx|] == a[0]
    ensures IndexLineAt(s, p) == Some(p + 1 + |idx|)
  {
    var n := |idx|;
    StampChars(a);
    assert forall i :: p + 1 <= i < p + 1 + n ==> s[i] == idx[i - p - 1];
    assert SpaceRun(s, p) == 1;
    assert DigitRun(s, p + 1) == n;
    assert SpaceRun(s, p + 1 + n) == 1;
    assert LastLineEnd(s, p + 1 + n, 0) == Some(0);
    assert LastLineEnd(s, p + 1 + n, 1) == Some(0);
    assert LineStart(s, p);
    hide SpaceRun, DigitRun, LastLineEnd, LineStart, LineEnd;
  }

  /** A timing line starts with the first character of its timestamp. */
  lemma TimingHead(s: string, p: nat, a: string, b: string)
    requires Stamp(a) && Stamp(b)
    requires p + 30 <= |s| && s[p..p + 30] == a + " --> " + b + "\n"
    ensures |a| == 12 && s[p] == a[0]
  {
    assert s[p] == s[p..p + 30][0];
  }

  /** The second of two cues, from the blank line closing the first: the
      blank line and the index line go together, the rest is copied. */
  lemma SecondCueDrop(s: string, m: nat, idx: string, a: string, b: string, t: string)
    requires |idx| > 0 && Decimal.AllDigits(idx) && Stamp(a) && Stamp(b) && PlainText(t)
    requires 2 <= m && |s| == m + |idx| + |t| + 33
    requires s[m - 2] == '\n' && s[m - 1] == '\n'
    requires s[m..m + |idx|] == idx && s[m + |idx|] == '\n'
    requires s[m + |idx| + 1..m + |idx| + 31] == a + " --> " + b + "\n"
    requires s[m + |idx| + 31..m + |idx| + |t| + 32] == t + "\n"
    requires s[|s| - 1] == '\n'
    ensures DropIndexLines(s, m - 1) == "\n" + (a + " --> " + b + "\n" + (t + "\n" + "\n"))
  {
    hide *;
    var n := |idx|;
    DropLast(s);
    DropCueBody(s, m, idx, a, b, t);
    TimingHead(s, m + n + 1, a, b);
    GapIndexLine(s, m - 1, idx, a);
    DropMatch(s, m - 1, m + n);
  }

  /** Of two cues laid out one after the other, the index lines go: the
      second together with the blank line before it, but the line break
      ending the first cue's text stays, so the blank line survives. */
  lemma TwoDropParts(s: string, m: nat, i1: string, a1: string, b1: string, t1: string,
                     i2: string, a2: string, b2: string, t2: string)
    requires |i1| > 0 && Decimal.AllDigits(i1) && Stamp(a1) && Stamp(b1) && PlainText(t1)
    requires |i2| > 0 && Decimal.AllDigits(i2) && Stamp(a2) && Stamp(b2) && PlainText(t2)
    requires m == |i1| + |t1| + 33 && |s| == m + |i2| + |t2| + 33
    requires s[0..|i1|] == i1 && s[|i1|] == '\n'
    requires s[|i1| + 1..|i1| + 31] == a1 + " --> " + b1 + "\n"
    requires s[|i1| + 31..|i1| + |t1| + 32] == t1 + "\n"
    requires s[m - 1] == '\n'
    requires s[m..m + |i2|] == i2 && s[m + |i2|] == '\n'
    requires s[m + |i2| + 1..m + |i2| + 31] == a2 + " --> " + b2 + "\n"
    requires s[m + |i2| + 31..m + |i2| + |t2| + 32] == t2 + "\n"
    requires s[|s| - 1] == '\n'
    ensures DropIndexLines(s, 0) ==
      "\n" + (a1 + " --> " + b1 + "\n" + (t1 + "\n" +
      ("\n" + (a2 + " --> " + b2 + "\n" + (t2 + "\n" + "\n")))))
  {
    hide *;
    var n1 := |i1|;
    assert s[m - 2] == s[n1 + 31..n1 + |t1| + 32][|t1|];
    SecondCueDrop(s, m, i2, a2, b2, t2);
    DropCueBody(s, 0, i1, a1, b1, t1);
    TimingHead(s, n1 + 1, a1, b1);
    assert s[..n1] == s[0..n1];
    CueIndexLine(s, i1, a1);
    DropMatch(s, 0, n1);
    assert 0 + n1 + |t1| + 32 == m - 1;
    assert DropIndexLines(s, 0 + n1 + |t1| + 32) == DropIndexLines(s, m - 1);
  }

  /** The two halves of a concatenation, as slices. */
  lemma ConcatSlices(x: string, y: string, s: string)
    requires s == x + y
    ensures |s| == |x| + |y| && s[0..|x|] == x && s[|x|..|x| + |y|] == y
  {
  }

  lemma TwoDrop(i1: string, a1: string, b1: string, t1: string,
                i2: string, a2: string, b2: string, t2: string)
    requires |i1| > 0 && Decimal.AllDigits(i1) && Stamp(a1) && Stamp(b1) && PlainText(t1)
    requires |i2| > 0 && Decimal.AllDigits(i2) && Stamp(a2) && Stamp(b2) && PlainText(t2)
    ensures DropIndexLines(CueSrt(i1, a1, b1, t1) + CueSrt(i2, a2, b2, t2), 0) ==
      "\n" + (CueCore(a1, b1, t1) + "\n\n" + CueCore(a2, b2, t2)) + "\n\n"
  {
    hide *;
    var c1 := CueSrt(i1, a1, b1, t1);
    var c2 := CueSrt(i2, a2, b2, t2);
    var s := c1 + c2;
    ConcatSlices(c1, c2, s);
    CueLayoutAt(s, 0, i1, a1, b1, t1);
    CueLayoutAt(s, |c1|, i2, a2, b2, t2);
    assert 0 + |i1| + |t1| + 32 == |c1| - 1 && |c1| + |i2| + |t2| + 32 == |s| - 1;
    assert s[|c1| - 1] == '\n' && s[|s| - 1] == '\n';
    TwoDropParts(s, |c1|, i1, a1, b1, t1, i2, a2, b2, t2);
    TwoShape(a1, b1, t1, a2, b2, t2);
  }

  lemma TwoShape(a1: string, b1: string, t1: string, a2: string, b2: string, t2: string)
    ensures "\n" + (a1 + " --> " + b1 + "\n" + (t1 + "\n" +
      ("\n" + (a2 + " --> " + b2 + "\n" + (t2 + "\n" + "\n"))))) ==
      "\n" + (CueCore(a1, b1, t1) + "\n\n" + CueCore(a2, b2, t2)) + "\n\n"
  {
    var l1 := a1 + " --> " + b1 + "\n";
    var l2 := a2 + " --> " + b2 + "\n";
    assert CueCore(a1, b1, t1) == l1 + t1;
    assert CueCore(a2, b2, t2) == l2 + t2;
    assert t2 + "\n" + "\n" == t2 + "\n\n";
    assert t1 + "\n" + ("\n" + (l2 + (t2 + "\n\n"))) == t1 + "\n\n" + l2 + t2 + "\n\n";
  }

  /** Where the pieces of a cue without its index sit when it starts at `p`. */
  lemma CoreLayoutAt(c: string, p: nat, a: string, b: string, t: string)
    requires Stamp(a) && Stamp(b)
    requires p + |CueCore(a, b, t)| <= |c| && c[p..p + |CueCore(a, b, t)|] == CueCore(a, b, t)
    ensures |CueCore(a, b, t)| == |t| + 30
    ensures c[p..p + 12] == a && c[p + 12..p + 17] == " --> " && c[p + 17..p + 29] == b
    ensures c[p + 29..p + |t| + 30] == "\n" + t
  {
    var k := CueCore(a, b, t);
    CoreLayout(a, b, t);
    SliceWithin(c, p, k, 0, 12);
    SliceWithin(c, p, k, 12, 17);
    SliceWithin(c, p, k, 17, 29);
    SliceWithin(c, p, k, 29, |k|);
  }

  /** Where the pieces of a cue without its index sit. */
  lemma CoreLayout(a: string, b: string, t: string)
    requires Stamp(a) && Stamp(b)
    ensures |CueCore(a, b, t)| == |t| + 30
    ensures CueCore(a, b, t)[0..12] == a && CueCore(a, b, t)[12..17] == " --> "
    ensures CueCore(a, b, t)[17..29] == b && CueCore(a, b, t)[29..] == "\n" + t
  {
    var k := CueCore(a, b, t);
    assert k == a + " --> " + b + ("\n" + t);
  }

  /** The blank line and the second cue. */
  lemma TwoCommaTail(c: string, q: nat, a2: string, b2: string, t2: string)
    requires Stamp(a2) && Stamp(b2) && PlainText(t2)
    requires |c| == q + |t2| + 32
    requires c[q..q + 2] == "\n\n"
    requires c[q + 2..q + 14] == a2 && c[q + 14..q + 19] == " --> " && c[q + 19..q + 31] == b2
    requires c[q + 31..|c|] == "\n" + t2
    ensures CommaToDot(c, q) == "\n\n" + (Dotted(a2) + (" --> " + (Dotted(b2) + ("\n" + t2))))
  {
    StampChars(a2);
    CommaCue(c, q + 2, |c|, a2, b2, t2);
    assert CommaToDot(c, |c|) == [];
    assert forall i :: q + 2 <= i < q + 10 ==> c[i] == a2[i - q - 2];
    CommaText(c, q, q + 2, "\n\n");
  }

  /** Every timestamp of two cues separated by a blank line takes its full
      stop; the rest is copied. */
  lemma TwoCommaParts(c: string, q: nat, a1: string, b1: string, t1: string,
                      a2: string, b2: string, t2: string)
    requires Stamp(a1) && Stamp(b1) && PlainText(t1) && Stamp(a2) && Stamp(b2) && PlainText(t2)
    requires q == |t1| + 30 && |c| == q + |t2| + 32
    requires c[0..12] == a1 && c[12..17] == " --> " && c[17..29] == b1 && c[29..q] == "\n" + t1
    requires c[q..q + 2] == "\n\n"
    requires c[q + 2..q + 14] == a2 && c[q + 14..q + 19] == " --> " && c[q + 19..q + 31] == b2
    requires c[q + 31..|c|] == "\n" + t2
    ensures CommaToDot(c, 0) ==
      Dotted(a1) + (" --> " + (Dotted(b1) + ("\n" + t1))) +
      ("\n\n" + (Dotted(a2) + (" --> " + (Dotted(b2) + ("\n" + t2)))))
  {
    TwoCommaTail(c, q, a2, b2, t2);
    StampChars(a2);
    assert forall i :: q <= i < q + 8 ==> c[i] != ',' by {
      forall i | q <= i < q + 8 ensures c[i] != ',' {
        if i < q + 2 {
          assert c[i] == c[q..q + 2][i - q];
        } else {
          assert c[i] == c[q + 2..q + 14][i - q - 2] == a2[i - q - 2];
        }
      }
    }
    CommaCue(c, 0, q, a1, b1, t1);
  }

  /** Where the pieces of two cues without index lines sit, separated by a
      blank line. */
  lemma TwoCoreLayout(c: string, a1: string, b1: string, t1: string,
                      a2: string, b2: string, t2: string)
    requires Stamp(a1) && Stamp(b1) && Stamp(a2) && Stamp(b2)
    requires c == CueCore(a1, b1, t1) + "\n\n" + CueCore(a2, b2, t2)
    ensures |c| == |t1| + 30 + |t2| + 32
    ensures c[0..12] == a1 && c[12..17] == " --> " && c[17..29] == b1
    ensures c[29..|t1| + 30] == "\n" + t1
    ensures c[|t1| + 30..|t1| + 32] == "\n\n"
    ensures c[|t1| + 32..|t1| + 44] == a2 && c[|t1| + 44..|t1| + 49] == " --> "
    ensures c[|t1| + 49..|t1| + 61] == b2
    ensures c[|t1| + 61..|c|] == "\n" + t2
  {
    var k1 := CueCore(a1, b1, t1);
    var k2 := CueCore(a2, b2, t2);
    var x := k1 + "\n\n";
    ConcatSlices(x, k2, c);
    ConcatSlices(k1, "\n\n", x);
    assert c[0..|k1|] == k1;
    assert c[|k1|..|k1| + 2] == "\n\n";
    CoreLayoutAt(c, 0, a1, b1, t1);
    CoreLayoutAt(c, |x|, a2, b2, t2);
  }

  lemma DottedCueShape(a: string, b: string, t: string)
    requires |a| == 12 && |b| == 12
    ensures Dotted(a) + (" --> " + (Dotted(b) + ("\n" + t))) == DottedLine(a, b) + "\n" + t
  {
  }

  lemma TwoComma(a1: string, b1: string, t1: string, a2: string, b2: string, t2: string)
    requires Stamp(a1) && Stamp(b1) && PlainText(t1) && Stamp(a2) && Stamp(b2) && PlainText(t2)
    ensures CommaToDot(CueCore(a1, b1, t1) + "\n\n" + CueCore(a2, b2, t2), 0) ==
      (DottedLine(a1, b1) + "\n" + t1) + "\n\n" + (DottedLine(a2, b2) + "\n" + t2)
  {
    var c := CueCore(a1, b1, t1) + "\n\n" + CueCore(a2, b2, t2);
    TwoCoreLayout(c, a1, b1, t1, a2, b2, t2);
    TwoCommaParts(c, |t1| + 30, a1, b1, t1, a2, b2, t2);
    DottedCueShape(a1, b1, t1);
    DottedCueShape(a2, b2, t2);
  }

  /** Two cues without their index lines, stripped. */
  lemma TwoStripped(i1: string, a1: string, b1: string, t1: string,
                    i2: string, a2: string, b2: string, t2: string)
    requires |i1| > 0 && Decimal.AllDigits(i1) && Stamp(a1) && Stamp(b1) && PlainText(t1)
    requires |i2| > 0 && Decimal.AllDigits(i2) && Stamp(a2) && Stamp(b2) && PlainText(t2)
    ensures Strip(DropIndexLines(CueSrt(i1, a1, b1, t1) + CueSrt(i2, a2, b2, t2), 0)) ==
      CueCore(a1, b1, t1) + "\n\n" + CueCore(a2, b2, t2)
  {
    var k := CueCore(a1, b1, t1) + "\n\n" + CueCore(a2, b2, t2);
    TwoDrop(i1, a1, b1, t1, i2, a2, b2, t2);
    assert k[0] == a1[0] && k[|k| - 1] == t2[|t2| - 1];
    StripCue(a1, t2, k);
  }

  /** Neither rewritten cue holds a carriage return, nor does the blank
      line between them. */
  lemma TwoNoCr(a1: string, b1: string, t1: string, a2: string, b2: string, t2: string, d: string)
    requires Stamp(a1) && Stamp(b1) && PlainText(t1) && Stamp(a2) && Stamp(b2) && PlainText(t2)
    requires d == (DottedLine(a1, b1) + "\n" + t1) + "\n\n" + (DottedLine(a2, b2) + "\n" + t2)
    ensures forall i :: 0 <= i < |d| ==> d[i] != '\r'
  {
    var d1 := DottedLine(a1, b1) + "\n" + t1;
    var d2 := DottedLine(a2, b2) + "\n" + t2;
    DottedCueChars(a1, b1, t1, d1);
    DottedCueChars(a2, b2, t2, d2);
    forall i | 0 <= i < |d| ensures d[i] != '\r' {
      if i < |d1| {
        assert d[i] == d1[i];
      } else if i >= |d1| + 2 {
        assert d[i] == d2[i - |d1| - 2];
      }
    }
  }

  /** Two cues after the rewrites: the blank line between them is kept. */
  lemma TwoBody(i1: string, a1: string, b1: string, t1: string,
                i2: string, a2: string, b2: string, t2: string)
    requires |i1| > 0 && Decimal.AllDigits(i1) && Stamp(a1) && Stamp(b1) && PlainText(t1)
    requires |i2| > 0 && Decimal.AllDigits(i2) && Stamp(a2) && Stamp(b2) && PlainText(t2)
    ensures VttBody(CueSrt(i1, a1, b1, t1) + CueSrt(i2, a2, b2, t2)) ==
      (DottedLine(a1, b1) + "\n" + t1) + "\n\n" + (DottedLine(a2, b2) + "\n" + t2)
  {
    var d := (DottedLine(a1, b1) + "\n" + t1) + "\n\n" + (DottedLine(a2, b2) + "\n" + t2);
    TwoStripped(i1, a1, b1, t1, i2, a2, b2, t2);
    TwoComma(a1, b1, t1, a2, b2, t2);
    TwoNoCr(a1, b1, t1, a2, b2, t2, d);
    CrlfToLfIdentity(d, 0);
    assert d[0..] == d;
  }

  /** Two cue blocks are written after the header joined by a single line
      break: no empty line separates them. */
  lemma TwoBlocks(d1: string, d2: string)
    requires |d1| > 0 && d1[|d1| - 1] != '\n' && forall j :: 0 <= j ==> !OccursAt(d1, "\n\n", j)
    requires |d2| > 0 && !IsSpace(d2[|d2| - 1]) && Split(d2, "\n\n") == [d2]
    ensures WithHeader(d1 + "\n\n" + d2) == "WEBVTT\n\n" + (d1 + "\n" + d2) + "\n"
  {
    TwoSplit(d1, d2);
    TwoJoin(d1, d2);
    WithHeaderCues(d1 + "\n\n" + d2, [d1, d2]);
  }

  lemma TwoSplit(d1: string, d2: string)
    requires |d1| > 0 && d1[|d1| - 1] != '\n' && forall j :: 0 <= j ==> !OccursAt(d1, "\n\n", j)
    requires |d2| > 0 && !IsSpace(d2[|d2| - 1]) && Split(d2, "\n\n") == [d2]
    ensures Split(d1 + "\n\n" + d2, "\n\n") == [d1, d2]
    ensures (d1 + "\n\n" + d2) != [] && !IsSpace((d1 + "\n\n" + d2)[|d1 + "\n\n" + d2| - 1])
  {
    BlankAfter(d1, d2);
    var d := d1 + "\n\n" + d2;
    assert d[|d| - 1] == d2[|d2| - 1];
  }

  lemma TwoJoin(d1: string, d2: string)
    ensures Join([d1, d2], "\n") == d1 + "\n" + d2
  {
    JoinCons(d1, [d2], "\n");
  }

  /** Two SubRip cues in a row come out as one WebVTT block: the second
      cue's timing line follows the first cue's text after a single line
      break, where WebVTT needs an empty line. */
  lemma TwoCues(i1: string, a1: string, b1: string, t1: string,
                i2: string, a2: string, b2: string, t2: string)
    requires |i1| > 0 && Decimal.AllDigits(i1) && Stamp(a1) && Stamp(b1) && PlainText(t1)
    requires |i2| > 0 && Decimal.AllDigits(i2) && Stamp(a2) && Stamp(b2) && PlainText(t2)
    ensures SrtToVtt(CueSrt(i1, a1, b1, t1) + CueSrt(i2, a2, b2, t2)) ==
      "WEBVTT\n\n" + ((DottedLine(a1, b1) + "\n" + t1) + "\n" + (DottedLine(a2, b2) + "\n" + t2)) + "\n"
  {
    var d1 := DottedLine(a1, b1) + "\n" + t1;
    var d2 := DottedLine(a2, b2) + "\n" + t2;
    TwoBody(i1, a1, b1, t1, i2, a2, b2, t2);
    CueOnePiece(a1, b1, t1, d1);
    CueOnePiece(a2, b2, t2, d2);
    assert d1[|d1| - 1] == t1[|t1| - 1];
    assert d2[|d2| - 1] == t2[|t2| - 1];
    TwoBlocks(d1, d2);
  }

  /** With empty lines between the blocks, two cues come out as two WebVTT
      cue blocks. */
  lemma TwoCuesSeparated(i1: string, a1: string, b1: string, t1: string,
                         i2: string, a2: string, b2: string, t2: string)
    requires |i1| > 0 && Decimal.AllDigits(i1) && Stamp(a1) && Stamp(b1) && PlainText(t1)
    requires |i2| > 0 && Decimal.AllDigits(i2) && Stamp(a2) && Stamp(b2) && PlainText(t2)
    ensures SrtToVttSeparated(CueSrt(i1, a1, b1, t1) + CueSrt(i2, a2, b2, t2)) ==
      "WEBVTT\n\n" + ((DottedLine(a1, b1) + "\n" + t1) + "\n\n" + (DottedLine(a2, b2) + "\n" + t2)) + "\n"
  {
    TwoBody(i1, a1, b1, t1, i2, a2, b2, t2);
    var d := (DottedLine(a1, b1) + "\n" + t1) + "\n\n" + (DottedLine(a2, b2) + "\n" + t2);
    assert d[|d| - 1] == t2[|t2| - 1];
    WithHeaderSeparatedShape(d);
  }

  lemma ExampleParts()
    ensures Stamp("00:00:01,000") && Stamp("00:00:02,500") && PlainText("Hello")
    ensures Decimal.AllDigits("1")
    ensures DottedLine("00:00:01,000", "00:00:02,500") == "00:00:01.000 --> 00:00:02.500"
  {
    assert Dotted("00:00:01,000") == "00:00:01.000";
    assert Dotted("00:00:02,500") == "00:00:02.500";
  }

  lemma ExampleCue(i: string, a: string, b: string, t: string)
    requires i == "1" && a == "00:00:01,000" && b == "00:00:02,500" && t == "Hello"
    ensures SrtToVtt(CueSrt(i, a, b, t)) == "WEBVTT\n\n" + DottedLine(a, b) + "\n" + t + "\n"
  {
    ExampleParts();
    SingleCue(i, a, b, t);
  }

  lemma ExampleInput(i: string, a: string, b: string, t: string)
    requires i == "1" && a == "00:00:01,000" && b == "00:00:02,500" && t == "Hello"
    ensures CueSrt(i, a, b, t) == "1\n00:00:01,000 --> 00:00:02,500\nHello\n\n"
  {
  }

  lemma ExampleOutput(a: string, b: string, t: string)
    requires a == "00:00:01,000" && b == "00:00:02,500" && t == "Hello"
    ensures "WEBVTT\n\n" + DottedLine(a, b) + "\n" + t + "\n" ==
      "WEBVTT\n\n00:00:01.000 --> 00:00:02.500\nHello\n"
  {
    ExampleParts();
  }

  /** The first cue of a file, as the SubRip writers emit it, in WebVTT. */
  lemma SrtToVttExample()
    ensures SrtToVtt("1\n00:00:01,000 --> 00:00:02,500\nHello\n\n") ==
      "WEBVTT\n\n00:00:01.000 --> 00:00:02.500\nHello\n"
  {
    ExampleCue("1", "00:00:01,000", "00:00:02,500", "Hello");
    ExampleInput("1", "00:00:01,000", "00:00:02,500", "Hello");
    ExampleOutput("00:00:01,000", "00:00:02,500", "Hello");
  }
}
